=== FILE: README.md ===
# Affiliations, publications and their co-authorship graph

A Dafny model of `Datastructures`, the C++ store of a small bibliographic
database. Affiliations have a name, a coordinate and the list of publications
they produced. Publications have a title, a year, an author list, the
publications they reference and the one publication that references them (their
parent). From the author lists the store derives a weighted co-authorship graph.
Each pair of affiliations that co-authored gets a connection weighted by the
number of publications they share. The graph is kept as one bucket of
connections per affiliation.

The model is a pure, functional store (`Store.Store`) that keeps:

- the entity maps;
- the name index, a (name, id) list that is sorted lazily and carries a "known
  sorted" flag;
- the coordinate index;
- the connection buckets.

Every mutating operation returns the new store and the operation's boolean
result (`Store.Update`). `Store.Valid` collects what the code relies on:

- the name index holds exactly one entry per affiliation, and is sorted when
  flagged;
- the coordinate index points at affiliations located there;
- produced-publication lists and author lists agree;
- citation links point at stored publications;
- the buckets are consistent (`Buckets.Consistent`):
  - every connection in a bucket involves the bucket's owner;
  - connections are stored in canonical form;
  - there is at most one connection per pair in a bucket;
  - every connection is mirrored in the other endpoint's bucket.

`std::sort` is modelled by an insertion sort. `Sorting.SortedUnique` proves that
a sorted permutation under a total order is unique, so any correct sort gives
the same result.

The citation forest is modelled in `Citations`:

- the parent chain;
- the closest common parent;
- the recursive walk that collects every transitive reference.

The graph searches are modelled in `Paths`:

- the orientation of a connection chain (`getModifiedPath`);
- the breadth-first `get_path_with_least_affiliations`;
- the stack-based `get_any_path`.

The searches are written as recursive functions over an explicit frontier, a
visited set and a parent map. Ghost depths prove minimality and completeness.

Where the code and its documentation differ, the model follows the code:

- `remove_affiliation` does not strip the removed id from publications' author
  lists. The lists keep naming it.
- `add_reference` does not take the child out of its previous parent's list of
  references. Only the child's parent field moves (`StoreProofs.ReparentLeavesOldLink`).
- `add_publication` raises the weight of an existing connection by one instead
  of recomputing it. A new connection gets `calculateWeight` of the updated lists.
- `calculateWeight` of two unknown affiliations is 1. Both stand for the single
  `NO_PUBLICATION` list that `get_publications` returns for an unknown id, and
  those lists intersect.

## Model

| member | source | states |
|---|---|---|
| Store.ClearAll | datastructures.cc:44-60 | After clearing, the store is valid and holds no affiliation, no publication, no name- or coordinate-index entry and no connection |
| Store.GetAllAffiliations | datastructures.cc:62-73 | Lists exactly the stored affiliation ids, each once, in ascending id order |
| Store.AddAffiliation | datastructures.cc:75-100 | Succeeds iff the id is new; on failure nothing changes; on success exactly one affiliation is added, with the given name and coordinate and no publications; the others, the publications and the graph are untouched |
| StoreProofs.AddAffiliationValid | datastructures.cc:75-100 | add_affiliation keeps every index and the graph valid |
| StoreProofs.AddAffiliationLookups | datastructures.cc:75-122 | After adding, name and coordinate lookups return what was added, the coordinate search finds the new id, the count grows by one, the listing includes the id, and its publication list is empty (even if an earlier affiliation with that id was removed while publications still name it) |
| Store.GetAffiliationName | datastructures.cc:102-111 | An unknown id gives the NO_NAME sentinel |
| Store.GetAffiliationCoord | datastructures.cc:113-122 | An unknown id gives the NO_COORD sentinel |
| Store.GetAffiliationsAlphabetically | datastructures.cc:124-141 | Sorts the name index unless it is flagged sorted, keeps its contents as a multiset, sets the flag and changes nothing else |
| StoreProofs.AlphabeticalListing | datastructures.cc:124-141 | On a valid name index the result lists every affiliation exactly once, ordered by (name, id), and the name index stays valid |
| StoreProofs.AlphabeticalDeterminedByAffiliations | datastructures.cc:124-141 | The listing depends only on the affiliations, not on insertion order or on the sorted flag |
| Store.FindAffiliationWithCoord | datastructures.cc:169-177 | An unindexed coordinate gives NO_AFFILIATION; an indexed one gives a stored affiliation located there |
| Store.ChangeAffiliationCoord | datastructures.cc:179-210 | Fails iff the id is unknown; moves only that affiliation; re-indexes it under the new coordinate iff it was indexed, and leaves the coordinate index untouched when it was not; no other coordinate gains an entry, and the other entries are kept |
| StoreProofs.CoordIndexInjective | datastructures.cc:169-210 | In a valid coordinate index no affiliation is indexed under two coordinates, so a search for its id finds at most one entry |
| StoreProofs.ChangeAffiliationCoordValid | datastructures.cc:179-210 | change_affiliation_coord keeps the store valid |
| Store.RemoveAffiliation | datastructures.cc:618-679 | Fails iff the id is unknown; otherwise only that affiliation goes, publications are untouched (author lists keep the id), no coordinate entry names it, and a connection stays iff it was stored and does not involve the id |
| StoreProofs.RemoveAffiliationValid | datastructures.cc:618-679 | remove_affiliation keeps the store valid, including the sorted name index |
| StoreProofs.AddThenRemoveAffiliation | datastructures.cc:618-679 | Removing a just-added affiliation restores the affiliations, the name index and the publications; the coordinate index is restored unless adding overwrote another affiliation's entry, which stays lost |
| Store.AllPublications | datastructures.cc:286-293 | Lists exactly the stored publication ids, once each, ascending |
| Store.AddPublication | datastructures.cc:212-284 | Succeeds iff the id is new; the new record has no links; every existing author gains the publication once per time it is named; other publications and the indexes are untouched |
| StoreProofs.AddPublicationValid | datastructures.cc:212-284 | add_publication keeps the store valid, the graph update included |
| StoreProofs.AddPublicationConnectsAuthors | datastructures.cc:212-284 | Afterwards every two authors of the list are joined by a connection stored in both of their buckets |
| StoreProofs.AddPublicationWeights | datastructures.cc:233-281 | For two distinct authors named m and n times, the pair is visited m * n times. If the pair already had a connection of weight w, its first connection in both buckets ends at w + m * n. Otherwise the first visit creates one weighted by calculateWeight on the updated lists, and each later visit adds one |
| BucketProofs.IncrementAllPairsWeights | datastructures.cc:233-281 | The same statement for the increment loop over all pairs of any list, on consistent buckets, with a weight that is symmetric on the pair |
| StoreProofs.AddPublicationGraphFrame | datastructures.cc:233-281 | The bucket of every affiliation that is not an author is left as it was |
| StoreProofs.AddPublicationLookups | datastructures.cc:212-326 | After adding, the title, year and author list lookups return what was stored; the publication has no references and no parent; it is listed among all publications; every existing author lists it |
| StoreProofs.AddThenRemovePublication | datastructures.cc:712-744 | Removing a just-added publication restores affiliations and publications exactly |
| Store.GetPublicationName | datastructures.cc:295-304 | An unknown id gives NO_NAME; the stored title otherwise (see StoreProofs.AddPublicationLookups) |
| Store.GetPublicationYear | datastructures.cc:306-315 | An unknown id gives NO_YEAR; the stored year otherwise (see StoreProofs.AddPublicationLookups) |
| Store.GetAffiliations | datastructures.cc:317-326 | An unknown id gives [NO_AFFILIATION]; the stored author list otherwise (see StoreProofs.AddPublicationLookups) |
| Store.AddReference | datastructures.cc:328-342 | Succeeds iff both exist; the parent's references gain the child at the end and its other fields stay; the child's parent is set and its other fields stay; every other publication and the rest of the store are unchanged |
| StoreProofs.AddReferenceValid | datastructures.cc:328-342 | add_reference keeps the store valid; afterwards get_parent gives the new parent and the parent lists the child |
| StoreProofs.ReparentLeavesOldLink | datastructures.cc:328-342 | After re-parenting, both the old and the new parent list the child, and only the new one is its parent |
| Store.GetDirectReferences | datastructures.cc:344-353 | An unknown id gives [NO_PUBLICATION] |
| Store.AddAffiliationToPublication | datastructures.cc:355-426 | Succeeds iff both exist; each gains the other at the end of its list; every other record and both indexes are untouched |
| StoreProofs.AddAffiliationToPublicationValid | datastructures.cc:355-426 | add_affiliation_to_publication keeps the store valid |
| StoreProofs.AddAffiliationToPublicationWeights | datastructures.cc:355-426 | Afterwards every pair of the publication's authors with a positive weight has, in both buckets, a first connection whose weight equals calculateWeight on the updated lists |
| StoreProofs.AddAffiliationToPublicationGraphFrame | datastructures.cc:366-420 | The bucket of every affiliation that is not among the publication's authors is left as it was |
| Store.GetPublications | datastructures.cc:428-437 | A known affiliation gives its list; an unknown one gives [NO_PUBLICATION] |
| Store.GetParent | datastructures.cc:439-457 | Gives the recorded parent when that is a stored publication, otherwise NO_PUBLICATION |
| Store.GetPublicationsAfter | datastructures.cc:459-497 | An unknown affiliation gives [(NO_YEAR, NO_PUBLICATION)]; otherwise the result is sorted by (year, id) and holds each (year, id) of its stored publications from that year on as often as the affiliation lists it |
| Store.RemovePublication | datastructures.cc:712-744 | Fails iff unknown; otherwise the publication is erased, every list drops every occurrence of it and nothing else, parent links to it are cleared, the rest is untouched |
| StoreProofs.RemovePublicationValid | datastructures.cc:712-744 | remove_publication keeps the store valid |
| Store.CalculateWeight | datastructures.cc:774-793 | The weight is the size of the multiset intersection of the two publication lists |
| Weights.SharedCount | datastructures.cc:778-792 | Sorting both lists and counting the merge's matches gives the size of their multiset intersection |
| Weights.IntersectCountIsMultisetIntersection | datastructures.cc:783-792 | The count that std::set_intersection emits on two sorted lists is the size of their multiset intersection |
| StoreProofs.CalculateWeightFacts | datastructures.cc:774-793 | The weight is symmetric, and two unknown affiliations have weight 1 |
| BucketProofs.IncrementPairsConsistent | datastructures.cc:233-281 | The increment loop over all author pairs keeps the buckets consistent |
| BucketProofs.OverwritePairsConsistent | datastructures.cc:366-420 | The overwrite loop keeps the buckets consistent |
| BucketProofs.IncrementPairsJoins | datastructures.cc:233-281 | After the increment loop, every pair it visited is joined by a connection in both endpoints' buckets |
| BucketProofs.OverwriteAllPairsRecords | datastructures.cc:366-420 | With a symmetric weight, after the overwrite loop over all pairs (L[i], L[j]), i < j, every pair of positive weight has, in both buckets, a first joining connection carrying that weight |
| BucketProofs.RemoveInvolvingConsistent | datastructures.cc:654-676 | Sweeping out the removed affiliation's connections keeps the buckets consistent and leaves no connection involving it |
| Buckets.OrientedFromAll | datastructures.cc:795-822 | When every connection in a bucket involves the id, orienting yields one connection per bucket entry, each the entry or its reversal |
| Store.GetConnectedAffiliations | datastructures.cc:795-822 | Unknown id gives nothing; every result starts at the id and is a stored connection or its reversal; on owned buckets the result matches the bucket position by position |
| Store.GetAllConnections | datastructures.cc:824-853 | Reports exactly the stored connections, each once |
| BucketProofs.AllConnectionsOnePerPair | datastructures.cc:824-853 | On consistent buckets no two reported connections join the same two distinct affiliations |
| Citations.GetReferencedByChain | datastructures.cc:499-533 | An unknown id gives [NO_PUBLICATION]; otherwise the result is the maximal chain of parents, distinct, each linked to the next, stopping at a missing or repeated parent |
| Citations.ParentChainUnique | datastructures.cc:499-533 | There is only one such maximal parent chain |
| Citations.GetClosestCommonParent | datastructures.cc:681-710 | NO_PUBLICATION when either id is unknown or the chains share nothing; otherwise the first element of the first chain that occurs in the second |
| Citations.GetAllReferences | datastructures.cc:535-572 | An unknown id gives [NO_PUBLICATION]; otherwise the result has no repeats and does not contain the start |
| Citations.AllReferencesAreDescendants | datastructures.cc:535-572 | A publication is listed iff it differs from the start and is reachable from it through references |
| Paths.GetModifiedPath | datastructures.cc:855-871 | Keeps the length, turns each connection or leaves it, and keeps weights and endpoints |
| Paths.OrientedChainIsHeadToTail | datastructures.cc:855-871 | Orienting a chain of connections through nodes starting at the source makes it run head to tail from the source |
| Paths.OrientKeepsHeadToTail | datastructures.cc:855-871 | A chain already head to tail from the source is left unchanged |
| Paths.OrientChainTwice | datastructures.cc:855-871 | On a chain from the source, orienting twice is orienting once |
| Paths.GetPathWithLeastAffiliations | datastructures.cc:927-985 | Empty for unknown or equal endpoints; on owned buckets a non-empty result is a stored route from source to target no longer than any walk, and an empty one means no walk exists |
| Paths.GetAnyPath | datastructures.cc:873-925 | Empty for equal endpoints; on owned and mirrored buckets a non-empty result is a stored route from source to target, and an empty one means no walk exists |

## Left out

- get_affiliations_distance_increasing, get_affiliations_closest_to and get_shortest_path (datastructures.cc:143-167, 574-616, 1051-1132): they rank by floating-point Euclidean distance, which is not modelled.
- get_path_of_least_friction (datastructures.cc:987-1049): a separate search whose cost is a floating-point friction value.
- The random-number helpers (datastructures.cc:13-24): randomness is not modelled.
- get_affiliation_count (datastructures.cc:39-42): it only returns the map's size, so it has no contract of its own worth stating. It is modelled as `Store.GetAffiliationCount` and has no row.
- The constructor, the destructor and the header's type definitions: the header is not part of this model. Ids are unbounded integers, and the sentinel values are constants in `Types`.
- The key order of std::map iteration is taken to be ascending by id. This order shows in get_all_affiliations, all_publications and get_all_connections.
- Store.RemovePublication: it models datastructures.cc:712-744 only. The remaining loop (datastructures.cc:746-769) reads the erased map entry through a dangling iterator, which is undefined behaviour.
- Store.RemoveAffiliation drops every coordinate entry naming the id, where the code (datastructures.cc:639-646) erases the first one it finds. Under `Store.Valid` there is at most one such entry (`StoreProofs.CoordIndexInjective`).
- In remove_affiliation, the inner loop (datastructures.cc:663-675) runs after the sweep, over buckets the sweep has already emptied of the removed id, so it never acts. The model leaves it out.
- Citations.GetAllReferences: the code reads a publication with operator[], which would insert a default record for an absent id. The model treats an absent id as a leaf instead. Under `Store.Valid` every referenced id exists, so this makes no difference there.
- Citations.GetReferencedByChain: the model takes the first step out of the loop, so that a publication that is its own parent yields an empty chain. The code does the same thing through its visited set.
- Paths.GetAnyPath: the code keeps its visited marks and parent links in member containers. At the start of each call it resets the mark of every id that has a bucket (datastructures.cc:875-877). An id with no bucket can keep a stale mark from an earlier call. The model starts every call from fresh state, so such stale marks are not modelled.
- Paths.GetPathWithLeastAffiliations: the route and minimality guarantees are stated for stores whose buckets are owned, which `Store.Valid` guarantees. The search itself does not need that.
- Paths.GetAnyPath: its guarantees are stated for owned and mirrored buckets. It looks up the connection in the child's bucket, which relies on mirroring.
- StoreProofs.AddPublicationWeights: covers pairs of two distinct affiliations. An author listed twice also forms a pair with itself, which makes a loop connection. The store stays consistent with that loop, but its weight is not stated.
- Both searches build the path by prepending during the trace-back, where the code appends and then reverses. The result is the same.

=== FILE: bucket_proofs.dfy ===
/** Proofs that the pair updates and the removal filter keep the connection
    buckets consistent (Buckets.Consistent), and what an overwrite update
    leaves behind. */
module BucketProofs {
  import opened Types
  import opened Buckets

  lemma FirstJoinUnique(b: seq<Connection>, x: AffiliationId, y: AffiliationId, k: nat)
    requires k <= |b|
    requires k < |b| ==> b[k].Joins(x, y)
    requires forall i | 0 <= i < k :: !b[i].Joins(x, y)
    ensures FirstJoin(b, x, y) == k
  {
  }

  /** Changing a weight does not move any first match. */
  lemma FirstJoinAfterReplace(b: seq<Connection>, k: nat, e: Connection, x: AffiliationId, y: AffiliationId)
    requires k < |b|
    requires e.aff1 == b[k].aff1 && e.aff2 == b[k].aff2
    ensures FirstJoin(b[k := e], x, y) == FirstJoin(b, x, y)
  {
    var b' := b[k := e];
    var f := FirstJoin(b, x, y);
    assert forall i | 0 <= i < |b| :: b'[i].Joins(x, y) == b[i].Joins(x, y);
    FirstJoinUnique(b', x, y, f);
  }

  lemma FirstJoinAfterAppend(b: seq<Connection>, t: seq<Connection>, x: AffiliationId, y: AffiliationId)
    ensures FirstJoin(b, x, y) < |b| ==> FirstJoin(b + t, x, y) == FirstJoin(b, x, y)
    ensures FirstJoin(b, x, y) == |b| ==> FirstJoin(b + t, x, y) == |b| + FirstJoin(t, x, y)
  {
    var f := FirstJoin(b, x, y);
    if f < |b| {
      FirstJoinUnique(b + t, x, y, f);
    } else {
      var g := FirstJoin(t, x, y);
      assert forall i | |b| <= i < |b| + g :: (b + t)[i] == t[i - |b|];
      FirstJoinUnique(b + t, x, y, |b| + g);
    }
  }

  /** Changing only weights keeps every consistency property but mirroring. */
  lemma SameShape(conns: Buckets, r: Buckets)
    requires r.Keys == conns.Keys
    requires forall x | x in conns :: |r[x]| == |conns[x]|
    requires forall x, i | x in conns && 0 <= i < |conns[x]| ::
      r[x][i].aff1 == conns[x][i].aff1 && r[x][i].aff2 == conns[x][i].aff2
    ensures Owned(conns) ==> Owned(r)
    ensures AllCanonical(conns) ==> AllCanonical(r)
    ensures NoDuplicateEdges(conns) ==> NoDuplicateEdges(r)
  {
    if NoDuplicateEdges(conns) {
      forall x, i, j | x in r && 0 <= i < j < |r[x]|
        ensures r[x][i].IsLoop() || !r[x][j].Joins(r[x][i].aff1, r[x][i].aff2)
      {
        assert conns[x][i].IsLoop() || !conns[x][j].Joins(conns[x][i].aff1, conns[x][i].aff2);
      }
    }
  }

  /** In a consistent graph, a connection joining two distinct affiliations sits
      exactly at the first match of each endpoint's bucket. */
  lemma OnlyAtFirstJoin(conns: Buckets, x: AffiliationId, y: AffiliationId, z: AffiliationId, i: nat)
    requires Consistent(conns)
    requires x != y
    requires z in conns && i < |conns[z]|
    ensures conns[z][i].Joins(x, y) ==>
      (z == x && i == FirstJoin(Bucket(conns, x), x, y)) || (z == y && i == FirstJoin(Bucket(conns, y), x, y))
  {
    if conns[z][i].Joins(x, y) {
      var k := FirstJoin(conns[z], x, y);
      assert k <= i;
      assert conns[z][k].Joins(x, y);
      assert z == x || z == y;
    }
  }

  /** The first matches in the two endpoints' buckets are the same connection. */
  lemma MirrorMatch(conns: Buckets, x: AffiliationId, y: AffiliationId)
    requires Consistent(conns)
    requires x != y
    ensures var k1 := FirstJoin(Bucket(conns, x), x, y);
            var k2 := FirstJoin(Bucket(conns, y), x, y);
            && (k1 < |Bucket(conns, x)| <==> k2 < |Bucket(conns, y)|)
            && (k1 < |Bucket(conns, x)| ==> Bucket(conns, x)[k1] == Bucket(conns, y)[k2])
  {
    var xb, yb := Bucket(conns, x), Bucket(conns, y);
    var k1, k2 := FirstJoin(xb, x, y), FirstJoin(yb, x, y);
    if k1 < |xb| {
      var c := xb[k1];
      assert c.Other(x) == y;
      assert c in yb;
      var j :| 0 <= j < |yb| && yb[j] == c;
      OnlyAtFirstJoin(conns, x, y, y, j);
    }
    if k2 < |yb| {
      var c := yb[k2];
      assert c.Other(y) == x;
      assert c in xb;
      var j :| 0 <= j < |xb| && xb[j] == c;
      OnlyAtFirstJoin(conns, x, y, x, j);
    }
  }

  /** The two copies of the edge joining `x` and `y`, at positions `k1` and `k2`
      of their buckets, replaced by `e`. */
  function ReplacedEdge(conns: Buckets, x: AffiliationId, y: AffiliationId, k1: nat, k2: nat, e: Connection): Buckets
    requires k1 < |Bucket(conns, x)| && k2 < |Bucket(conns, y)|
  {
    conns[x := Bucket(conns, x)[k1 := e]][y := Bucket(conns, y)[k2 := e]]
  }

  /** Positions other than the two replaced ones keep their connection. */
  lemma ReplacedEdgeElsewhere(conns: Buckets, x: AffiliationId, y: AffiliationId, k1: nat, k2: nat, e: Connection, w: AffiliationId, j: nat)
    requires x != y
    requires k1 < |Bucket(conns, x)| && k2 < |Bucket(conns, y)|
    requires j < |Bucket(conns, w)|
    requires !(w == x && j == k1) && !(w == y && j == k2)
    ensures var r := ReplacedEdge(conns, x, y, k1, k2, e);
            j < |Bucket(r, w)| && Bucket(r, w)[j] == Bucket(conns, w)[j]
  {
  }

  lemma ReplaceEdgeMirrorsOne(conns: Buckets, x: AffiliationId, y: AffiliationId, k1: nat, k2: nat, e: Connection, z: AffiliationId, i: nat)
    requires Consistent(conns)
    requires x != y
    requires k1 == FirstJoin(Bucket(conns, x), x, y) && k1 < |Bucket(conns, x)|
    requires k2 == FirstJoin(Bucket(conns, y), x, y) && k2 < |Bucket(conns, y)|
    requires e.Joins(x, y)
    requires z in conns && i < |conns[z]|
    ensures var r := ReplacedEdge(conns, x, y, k1, k2, e);
            i < |Bucket(r, z)| && Bucket(r, z)[i] in Bucket(r, Bucket(r, z)[i].Other(z))
  {
    var r := ReplacedEdge(conns, x, y, k1, k2, e);
    if (z == x && i == k1) || (z == y && i == k2) {
      if z == x {
        assert Bucket(r, x)[k1] == e;
        assert e.Other(x) == y && Bucket(r, y)[k2] == e;
      } else {
        assert Bucket(r, y)[k2] == e;
        assert e.Other(y) == x && Bucket(r, x)[k1] == e;
      }
    } else {
      var d := conns[z][i];
      ReplacedEdgeElsewhere(conns, x, y, k1, k2, e, z, i);
      OnlyAtFirstJoin(conns, x, y, z, i);
      var w := d.Other(z);
      assert d in Bucket(conns, w);
      var j :| 0 <= j < |Bucket(conns, w)| && Bucket(conns, w)[j] == d;
      ReplacedEdgeElsewhere(conns, x, y, k1, k2, e, w, j);
    }
  }

  lemma ReplaceEdge(conns: Buckets, x: AffiliationId, y: AffiliationId, k1: nat, k2: nat, e: Connection)
    requires Consistent(conns)
    requires x != y
    requires k1 == FirstJoin(Bucket(conns, x), x, y) && k1 < |Bucket(conns, x)|
    requires k2 == FirstJoin(Bucket(conns, y), x, y) && k2 < |Bucket(conns, y)|
    requires e.aff1 == Bucket(conns, x)[k1].aff1 && e.aff2 == Bucket(conns, x)[k1].aff2
    ensures Consistent(ReplacedEdge(conns, x, y, k1, k2, e))
  {
    MirrorMatch(conns, x, y);
    var r := ReplacedEdge(conns, x, y, k1, k2, e);
    assert x in conns && y in conns;
    SameShape(conns, r);
    forall z, i | z in r && 0 <= i < |r[z]| ensures r[z][i] in Bucket(r, r[z][i].Other(z)) {
      ReplaceEdgeMirrorsOne(conns, x, y, k1, k2, e, z, i);
      assert Bucket(r, z) == r[z];
    }
  }

  /** Appending a new canonical connection between `x` and `y`, which neither
      bucket joins yet, to both buckets keeps the buckets consistent. */
  lemma AppendEdge(conns: Buckets, x: AffiliationId, y: AffiliationId, nc: Connection)
    requires Consistent(conns)
    requires x != y
    requires forall i | 0 <= i < |Bucket(conns, x)| :: !Bucket(conns, x)[i].Joins(x, y)
    requires forall i | 0 <= i < |Bucket(conns, y)| :: !Bucket(conns, y)[i].Joins(x, y)
    requires nc.IsCanonical() && nc.Joins(x, y)
    ensures Consistent(conns[x := Bucket(conns, x) + [nc]][y := Bucket(conns, y) + [nc]])
  {
    AppendEdgeOwned(conns, x, y, nc);
    AppendEdgeNoDuplicates(conns, x, y, nc);
    AppendEdgeMirrored(conns, x, y, nc);
  }

  lemma AppendEdgeOwned(conns: Buckets, x: AffiliationId, y: AffiliationId, nc: Connection)
    requires Owned(conns) && AllCanonical(conns)
    requires x != y
    requires nc.IsCanonical() && nc.Joins(x, y)
    ensures var r := conns[x := Bucket(conns, x) + [nc]][y := Bucket(conns, y) + [nc]];
      Owned(r) && AllCanonical(r)
  {
    var r: Buckets := conns[x := Bucket(conns, x) + [nc]][y := Bucket(conns, y) + [nc]];
    forall z, i | z in r && 0 <= i < |r[z]| ensures r[z][i].Involves(z) && r[z][i].IsCanonical() {
      if i < |Bucket(conns, z)| {
        assert r[z][i] == conns[z][i];
      }
    }
  }

  lemma AppendEdgeNoDuplicates(conns: Buckets, x: AffiliationId, y: AffiliationId, nc: Connection)
    requires NoDuplicateEdges(conns)
    requires x != y
    requires forall i | 0 <= i < |Bucket(conns, x)| :: !Bucket(conns, x)[i].Joins(x, y)
    requires forall i | 0 <= i < |Bucket(conns, y)| :: !Bucket(conns, y)[i].Joins(x, y)
    requires nc.Joins(x, y)
    ensures NoDuplicateEdges(conns[x := Bucket(conns, x) + [nc]][y := Bucket(conns, y) + [nc]])
  {
    var r: Buckets := conns[x := Bucket(conns, x) + [nc]][y := Bucket(conns, y) + [nc]];
    forall z, i, j | z in r && 0 <= i < j < |r[z]|
      ensures r[z][i].IsLoop() || !r[z][j].Joins(r[z][i].aff1, r[z][i].aff2)
    {
      if j < |Bucket(conns, z)| {
        assert r[z][i] == conns[z][i] && r[z][j] == conns[z][j];
      } else {
        assert r[z][i] == Bucket(conns, z)[i];
      }
    }
  }

  lemma AppendEdgeMirrored(conns: Buckets, x: AffiliationId, y: AffiliationId, nc: Connection)
    requires Owned(conns) && Mirrored(conns)
    requires x != y
    requires nc.Joins(x, y)
    ensures Mirrored(conns[x := Bucket(conns, x) + [nc]][y := Bucket(conns, y) + [nc]])
  {
    var xb, yb := Bucket(conns, x), Bucket(conns, y);
    var r: Buckets := conns[x := xb + [nc]][y := yb + [nc]];
    forall z, i | z in r && 0 <= i < |r[z]| ensures r[z][i] in Bucket(r, r[z][i].Other(z)) {
      var d := r[z][i];
      if i < |Bucket(conns, z)| {
        assert d == conns[z][i];
        var w := d.Other(z);
        assert d in Bucket(conns, w);
        var j :| 0 <= j < |Bucket(conns, w)| && Bucket(conns, w)[j] == d;
        assert Bucket(r, w)[j] == d;
      } else {
        assert d == nc;
        if z == x {
          assert r[y][|yb|] == nc;
        } else {
          assert r[x][|xb|] == nc;
        }
      }
    }
  }

  lemma ReplaceLoop(conns: Buckets, x: AffiliationId, k: nat, e: Connection)
    requires Consistent(conns)
    requires k < |Bucket(conns, x)|
    requires Bucket(conns, x)[k].aff1 == x && Bucket(conns, x)[k].aff2 == x
    requires e.aff1 == x && e.aff2 == x
    ensures Consistent(conns[x := Bucket(conns, x)[k := e]])
  {
    var xb := Bucket(conns, x);
    var r: Buckets := conns[x := xb[k := e]];
    SameShape(conns, r);
    forall z, i | z in r && 0 <= i < |r[z]| ensures r[z][i] in Bucket(r, r[z][i].Other(z)) {
      var d := r[z][i];
      if d.IsLoop() {
        assert d.Other(z) == z;
      } else {
        assert d == conns[z][i];
        var w := d.Other(z);
        assert d in Bucket(conns, w);
        var j :| 0 <= j < |Bucket(conns, w)| && Bucket(conns, w)[j] == d;
        assert Bucket(r, w)[j] == d;
      }
    }
  }

  lemma AppendLoops(conns: Buckets, x: AffiliationId, nc: Connection)
    requires Consistent(conns)
    requires nc.aff1 == x && nc.aff2 == x
    ensures Consistent(conns[x := Bucket(conns, x) + [nc] + [nc]])
  {
    var xb := Bucket(conns, x);
    var r: Buckets := conns[x := xb + [nc] + [nc]];
    forall z, i | z in r && 0 <= i < |r[z]| ensures r[z][i].Involves(z) && r[z][i].IsCanonical() {
    }
    forall z, i, j | z in r && 0 <= i < j < |r[z]|
      ensures r[z][i].IsLoop() || !r[z][j].Joins(r[z][i].aff1, r[z][i].aff2)
    {
      if j < |Bucket(conns, z)| {
        assert r[z][i] == conns[z][i] && r[z][j] == conns[z][j];
      }
    }
    forall z, i | z in r && 0 <= i < |r[z]| ensures r[z][i] in Bucket(r, r[z][i].Other(z)) {
      var d := r[z][i];
      if d.IsLoop() {
        assert d.Other(z) == z;
      } else {
        assert i < |Bucket(conns, z)|;
        assert d == conns[z][i];
        var w := d.Other(z);
        assert d in Bucket(conns, w);
        var j :| 0 <= j < |Bucket(conns, w)| && Bucket(conns, w)[j] == d;
        assert Bucket(r, w)[j] == d;
      }
    }
  }

  /** One pair update keeps the buckets consistent. */
  lemma PairUpdateConsistent(conns: Buckets, x: AffiliationId, y: AffiliationId, adj: Adjust, initial: Weight)
    requires Consistent(conns)
    ensures Consistent(PairUpdate(conns, x, y, adj, initial))
  {
    var xb := Bucket(conns, x);
    var k1 := FirstJoin(xb, x, y);
    var nc := CanonicalConnection(x, y, initial);
    var r := PairUpdate(conns, x, y, adj, initial);
    if x != y {
      MirrorMatch(conns, x, y);
      var yb := Bucket(conns, y);
      var k2 := FirstJoin(yb, x, y);
      if k1 < |xb| {
        var c := xb[k1];
        var e := c.(weight := Adjusted(adj, c.weight));
        var c1 := conns[x := xb[k1 := e]];
        assert AdjustFirst(conns, x, x, y, adj) == (c1, true);
        assert Bucket(c1, y) == yb;
        assert yb[k2] == c;
        assert r == ReplacedEdge(conns, x, y, k1, k2, e);
        ReplaceEdge(conns, x, y, k1, k2, e);
      } else {
        assert AdjustFirst(conns, x, x, y, adj) == (conns, false);
        assert AdjustFirst(conns, y, x, y, adj) == (conns, false);
        var c3 := conns[x := xb + [nc]];
        assert Bucket(c3, y) == yb;
        assert r == conns[x := xb + [nc]][y := yb + [nc]];
        AppendEdge(conns, x, y, nc);
      }
    } else {
      if k1 < |xb| {
        var c := xb[k1];
        var e := c.(weight := Adjusted(adj, c.weight));
        var c1 := conns[x := xb[k1 := e]];
        assert AdjustFirst(conns, x, x, y, adj) == (c1, true);
        FirstJoinAfterReplace(xb, k1, e, x, x);
        assert Bucket(c1, x) == xb[k1 := e];
        var e2 := e.(weight := Adjusted(adj, e.weight));
        assert xb[k1 := e][k1 := e2] == xb[k1 := e2];
        assert r == conns[x := xb[k1 := e2]];
        ReplaceLoop(conns, x, k1, e2);
      } else {
        assert AdjustFirst(conns, x, x, y, adj) == (conns, false);
        var c3 := conns[x := xb + [nc]];
        assert r == conns[x := xb + [nc] + [nc]];
        AppendLoops(conns, x, nc);
      }
    }
  }

  lemma {:induction false} IncrementPairsConsistent(conns: Buckets, ps: seq<(AffiliationId, AffiliationId)>, weight: (AffiliationId, AffiliationId) -> Weight)
    requires Consistent(conns)
    ensures Consistent(IncrementPairs(conns, ps, weight))
    decreases |ps|
  {
    if ps != [] {
      PairUpdateConsistent(conns, ps[0].0, ps[0].1, Increment, weight(ps[0].0, ps[0].1));
      IncrementPairsConsistent(PairUpdate(conns, ps[0].0, ps[0].1, Increment, weight(ps[0].0, ps[0].1)), ps[1..], weight);
    }
  }

  lemma {:induction false} OverwritePairsConsistent(conns: Buckets, ps: seq<(AffiliationId, AffiliationId)>, weight: (AffiliationId, AffiliationId) -> Weight)
    requires Consistent(conns)
    ensures Consistent(OverwritePairs(conns, ps, weight))
    decreases |ps|
  {
    if ps != [] {
      var w := weight(ps[0].0, ps[0].1);
      var next := if w > 0 then PairUpdate(conns, ps[0].0, ps[0].1, Overwrite(w), w) else conns;
      PairUpdateConsistent(conns, ps[0].0, ps[0].1, Overwrite(w), w);
      OverwritePairsConsistent(next, ps[1..], weight);
    }
  }

  lemma FirstJoinSymmetric(b: seq<Connection>, x: AffiliationId, y: AffiliationId)
    ensures FirstJoin(b, x, y) == FirstJoin(b, y, x)
  {
    FirstJoinUnique(b, y, x, FirstJoin(b, x, y));
  }

  /** After an overwrite of the pair (x, y), both endpoints' buckets record the pair
      with the new weight. */
  lemma OverwriteRecords(conns: Buckets, x: AffiliationId, y: AffiliationId, w: Weight)
    requires Consistent(conns)
    ensures var r := PairUpdate(conns, x, y, Overwrite(w), w);
            Records(r, x, x, y, w) && Records(r, y, x, y, w)
  {
    var adj := Overwrite(w);
    var xb := Bucket(conns, x);
    var k1 := FirstJoin(xb, x, y);
    var nc := CanonicalConnection(x, y, w);
    var r := PairUpdate(conns, x, y, adj, w);
    if x != y {
      MirrorMatch(conns, x, y);
      var yb := Bucket(conns, y);
      var k2 := FirstJoin(yb, x, y);
      if k1 < |xb| {
        var c := xb[k1];
        var e := c.(weight := w);
        var c1 := conns[x := xb[k1 := e]];
        assert AdjustFirst(conns, x, x, y, adj) == (c1, true);
        assert Bucket(c1, y) == yb;
        assert r == conns[x := xb[k1 := e]][y := yb[k2 := e]];
        FirstJoinAfterReplace(xb, k1, e, x, y);
        FirstJoinAfterReplace(yb, k2, e, x, y);
      } else {
        assert AdjustFirst(conns, x, x, y, adj) == (conns, false);
        assert AdjustFirst(conns, y, x, y, adj) == (conns, false);
        var c3 := conns[x := xb + [nc]];
        assert Bucket(c3, y) == yb;
        assert r == conns[x := xb + [nc]][y := yb + [nc]];
        FirstJoinAfterAppend(xb, [nc], x, y);
        FirstJoinAfterAppend(yb, [nc], x, y);
      }
    } else {
      if k1 < |xb| {
        var c := xb[k1];
        var e := c.(weight := w);
        var c1 := conns[x := xb[k1 := e]];
        assert AdjustFirst(conns, x, x, y, adj) == (c1, true);
        FirstJoinAfterReplace(xb, k1, e, x, x);
        assert xb[k1 := e][k1 := e] == xb[k1 := e];
        assert r == conns[x := xb[k1 := e]];
      } else {
        assert AdjustFirst(conns, x, x, y, adj) == (conns, false);
        var c3 := conns[x := xb + [nc]];
        assert Bucket(c3, x) + [nc] == xb + [nc, nc];
        assert r == conns[x := xb + [nc, nc]];
        FirstJoinAfterAppend(xb, [nc, nc], x, x);
      }
    }
  }

  /** An adjustment of another pair leaves a record untouched. */
  lemma AdjustFirstKeepsRecords(conns: Buckets, owner: AffiliationId, x: AffiliationId, y: AffiliationId, adj: Adjust,
                                o: AffiliationId, a: AffiliationId, b: AffiliationId, w: Weight)
    requires Records(conns, o, a, b, w)
    requires !SamePair(x, y, a, b)
    ensures Records(AdjustFirst(conns, owner, x, y, adj).0, o, a, b, w)
  {
    var ob := Bucket(conns, owner);
    var k := FirstJoin(ob, x, y);
    if k < |ob| && o == owner {
      var e := ob[k].(weight := Adjusted(adj, ob[k].weight));
      FirstJoinAfterReplace(ob, k, e, a, b);
      assert k != FirstJoin(ob, a, b);
    }
  }

  lemma AppendKeepsRecords(conns: Buckets, owner: AffiliationId, t: seq<Connection>,
                           o: AffiliationId, a: AffiliationId, b: AffiliationId, w: Weight)
    requires Records(conns, o, a, b, w)
    ensures Records(conns[owner := Bucket(conns, owner) + t], o, a, b, w)
  {
    FirstJoinAfterAppend(Bucket(conns, owner), t, a, b);
  }

  lemma PairUpdateKeepsRecords(conns: Buckets, x: AffiliationId, y: AffiliationId, adj: Adjust, initial: Weight,
                               o: AffiliationId, a: AffiliationId, b: AffiliationId, w: Weight)
    requires Records(conns, o, a, b, w)
    requires !SamePair(x, y, a, b)
    ensures Records(PairUpdate(conns, x, y, adj, initial), o, a, b, w)
  {
    var (c1, found1) := AdjustFirst(conns, x, x, y, adj);
    AdjustFirstKeepsRecords(conns, x, x, y, adj, o, a, b, w);
    var (c2, found2) := AdjustFirst(c1, y, x, y, adj);
    AdjustFirstKeepsRecords(c1, y, x, y, adj, o, a, b, w);
    if !(found1 || found2) {
      var nc := CanonicalConnection(x, y, initial);
      AppendKeepsRecords(c2, x, [nc], o, a, b, w);
      var c3 := c2[x := Bucket(c2, x) + [nc]];
      AppendKeepsRecords(c3, y, [nc], o, a, b, w);
    }
  }

  lemma {:induction false} OverwritePairsKeeps(conns: Buckets, ps: seq<(AffiliationId, AffiliationId)>, weight: (AffiliationId, AffiliationId) -> Weight,
                                              o: AffiliationId, a: AffiliationId, b: AffiliationId)
    requires Consistent(conns)
    requires forall p, q :: weight(p, q) == weight(q, p)
    requires o == a || o == b
    requires Records(conns, o, a, b, weight(a, b))
    ensures Records(OverwritePairs(conns, ps, weight), o, a, b, weight(a, b))
    decreases |ps|
  {
    if ps != [] {
      var (x, y) := ps[0];
      var w := weight(x, y);
      var next := if w > 0 then PairUpdate(conns, x, y, Overwrite(w), w) else conns;
      PairUpdateConsistent(conns, x, y, Overwrite(w), w);
      if w > 0 {
        if SamePair(x, y, a, b) {
          assert w == weight(a, b);
          OverwriteRecords(conns, x, y, w);
          FirstJoinSymmetric(Bucket(next, o), x, y);
        } else {
          PairUpdateKeepsRecords(conns, x, y, Overwrite(w), w, o, a, b, weight(a, b));
        }
      }
      OverwritePairsKeeps(next, ps[1..], weight, o, a, b);
    }
  }

  /** After the overwrite loop, every pair whose weight is positive is recorded with
      that weight in both of its endpoints' buckets. */
  lemma {:induction false} OverwritePairsRecords(conns: Buckets, ps: seq<(AffiliationId, AffiliationId)>, weight: (AffiliationId, AffiliationId) -> Weight)
    requires Consistent(conns)
    requires forall p, q :: weight(p, q) == weight(q, p)
    ensures var r := OverwritePairs(conns, ps, weight);
            forall p | p in ps && weight(p.0, p.1) > 0 ::
              Records(r, p.0, p.0, p.1, weight(p.0, p.1)) && Records(r, p.1, p.0, p.1, weight(p.0, p.1))
    decreases |ps|
  {
    if ps != [] {
      var (x, y) := ps[0];
      var w := weight(x, y);
      var next := if w > 0 then PairUpdate(conns, x, y, Overwrite(w), w) else conns;
      PairUpdateConsistent(conns, x, y, Overwrite(w), w);
      OverwritePairsRecords(next, ps[1..], weight);
      if w > 0 {
        OverwriteRecords(conns, x, y, w);
        OverwritePairsKeeps(next, ps[1..], weight, x, x, y);
        OverwritePairsKeeps(next, ps[1..], weight, y, x, y);
      }
      assert forall p | p in ps :: p == ps[0] || p in ps[1..];
    }
  }

  /** The overwrite loop over all pairs of an author list, stated by position. */
  lemma OverwriteAllPairsRecords(conns: Buckets, L: seq<AffiliationId>, weight: (AffiliationId, AffiliationId) -> Weight)
    requires Consistent(conns)
    requires forall p, q :: weight(p, q) == weight(q, p)
    ensures var r := OverwritePairs(conns, Pairs(L), weight);
            forall i, j | 0 <= i < j < |L| && weight(L[i], L[j]) > 0 ::
              Records(r, L[i], L[i], L[j], weight(L[i], L[j])) && Records(r, L[j], L[i], L[j], weight(L[i], L[j]))
  {
    OverwritePairsRecords(conns, Pairs(L), weight);
  }

  /** Buckets of affiliations outside every pair are left as they were. */
  lemma {:induction false} OverwritePairsUntouched(conns: Buckets, ps: seq<(AffiliationId, AffiliationId)>, weight: (AffiliationId, AffiliationId) -> Weight, z: AffiliationId)
    requires forall p | p in ps :: p.0 != z && p.1 != z
    ensures Bucket(OverwritePairs(conns, ps, weight), z) == Bucket(conns, z)
    decreases |ps|
  {
    if ps != [] {
      var w := weight(ps[0].0, ps[0].1);
      var next := if w > 0 then PairUpdate(conns, ps[0].0, ps[0].1, Overwrite(w), w) else conns;
      assert Bucket(next, z) == Bucket(conns, z);
      OverwritePairsUntouched(next, ps[1..], weight, z);
      assert Bucket(OverwritePairs(next, ps[1..], weight), z) == Bucket(next, z);
    }
  }

  lemma {:induction false} IncrementPairsUntouched(conns: Buckets, ps: seq<(AffiliationId, AffiliationId)>, weight: (AffiliationId, AffiliationId) -> Weight, z: AffiliationId)
    requires forall p | p in ps :: p.0 != z && p.1 != z
    ensures Bucket(IncrementPairs(conns, ps, weight), z) == Bucket(conns, z)
    decreases |ps|
  {
    if ps != [] {
      var next := PairUpdate(conns, ps[0].0, ps[0].1, Increment, weight(ps[0].0, ps[0].1));
      assert Bucket(next, z) == Bucket(conns, z);
      IncrementPairsUntouched(next, ps[1..], weight, z);
    }
  }

  // ---------------------------------------------------------------------------
  // What add_publication's increment loop leaves behind.

  /** `owner`'s bucket holds a connection joining `x` and `y`. */
  ghost predicate HasJoin(conns: Buckets, owner: AffiliationId, x: AffiliationId, y: AffiliationId) {
    FirstJoin(Bucket(conns, owner), x, y) < |Bucket(conns, owner)|
  }

  lemma AdjustFirstKeepsJoin(conns: Buckets, owner: AffiliationId, x: AffiliationId, y: AffiliationId, adj: Adjust,
                             o: AffiliationId, a: AffiliationId, b: AffiliationId)
    requires HasJoin(conns, o, a, b)
    ensures HasJoin(AdjustFirst(conns, owner, x, y, adj).0, o, a, b)
  {
    var ob := Bucket(conns, owner);
    var k := FirstJoin(ob, x, y);
    if k < |ob| && o == owner {
      FirstJoinAfterReplace(ob, k, ob[k].(weight := Adjusted(adj, ob[k].weight)), a, b);
    }
  }

  /** A pair update never removes a connection from a bucket. */
  lemma PairUpdateKeepsJoin(conns: Buckets, x: AffiliationId, y: AffiliationId, adj: Adjust, initial: Weight,
                            o: AffiliationId, a: AffiliationId, b: AffiliationId)
    requires HasJoin(conns, o, a, b)
    ensures HasJoin(PairUpdate(conns, x, y, adj, initial), o, a, b)
  {
    var (c1, found1) := AdjustFirst(conns, x, x, y, adj);
    AdjustFirstKeepsJoin(conns, x, x, y, adj, o, a, b);
    var (c2, found2) := AdjustFirst(c1, y, x, y, adj);
    AdjustFirstKeepsJoin(c1, y, x, y, adj, o, a, b);
    if !(found1 || found2) {
      var nc := CanonicalConnection(x, y, initial);
      FirstJoinAfterAppend(Bucket(c2, o), [nc], a, b);
      var c3 := c2[x := Bucket(c2, x) + [nc]];
      FirstJoinAfterAppend(Bucket(c3, o), [nc], a, b);
    }
  }

  /** After a pair update of a consistent graph, both endpoints' buckets hold the pair. */
  lemma PairUpdateJoins(conns: Buckets, x: AffiliationId, y: AffiliationId, adj: Adjust, initial: Weight)
    requires Consistent(conns)
    ensures HasJoin(PairUpdate(conns, x, y, adj, initial), x, x, y)
    ensures HasJoin(PairUpdate(conns, x, y, adj, initial), y, x, y)
  {
    var xb := Bucket(conns, x);
    var (c1, found1) := AdjustFirst(conns, x, x, y, adj);
    var (c2, found2) := AdjustFirst(c1, y, x, y, adj);
    if x != y {
      MirrorMatch(conns, x, y);
    }
    if found1 {
      AdjustFirstKeepsJoin(conns, x, x, y, adj, x, x, y);
      AdjustFirstKeepsJoin(conns, x, x, y, adj, y, x, y);
      AdjustFirstKeepsJoin(c1, y, x, y, adj, x, x, y);
      AdjustFirstKeepsJoin(c1, y, x, y, adj, y, x, y);
    } else {
      assert c1 == conns && c2 == conns;
      var nc := CanonicalConnection(x, y, initial);
      FirstJoinAfterAppend(Bucket(conns, x), [nc], x, y);
      var c3 := conns[x := xb + [nc]];
      FirstJoinAfterAppend(Bucket(c3, y), [nc], x, y);
      FirstJoinAfterAppend(Bucket(c3, x), [nc], x, y);
    }
  }

  lemma {:induction false} IncrementPairsKeepsJoin(conns: Buckets, ps: seq<(AffiliationId, AffiliationId)>, weight: (AffiliationId, AffiliationId) -> Weight,
                                                  o: AffiliationId, a: AffiliationId, b: AffiliationId)
    requires HasJoin(conns, o, a, b)
    ensures HasJoin(IncrementPairs(conns, ps, weight), o, a, b)
    decreases |ps|
  {
    if ps != [] {
      var next := PairUpdate(conns, ps[0].0, ps[0].1, Increment, weight(ps[0].0, ps[0].1));
      PairUpdateKeepsJoin(conns, ps[0].0, ps[0].1, Increment, weight(ps[0].0, ps[0].1), o, a, b);
      IncrementPairsKeepsJoin(next, ps[1..], weight, o, a, b);
    }
  }

  /** After the increment loop every pair visited is connected, in both
      endpoints' buckets. */
  lemma {:induction false} IncrementPairsJoins(conns: Buckets, ps: seq<(AffiliationId, AffiliationId)>, weight: (AffiliationId, AffiliationId) -> Weight)
    requires Consistent(conns)
    ensures var r := IncrementPairs(conns, ps, weight);
            forall p | p in ps :: HasJoin(r, p.0, p.0, p.1) && HasJoin(r, p.1, p.0, p.1)
    decreases |ps|
  {
    if ps != [] {
      var (x, y) := ps[0];
      var next := PairUpdate(conns, x, y, Increment, weight(x, y));
      PairUpdateConsistent(conns, x, y, Increment, weight(x, y));
      PairUpdateJoins(conns, x, y, Increment, weight(x, y));
      IncrementPairsJoins(next, ps[1..], weight);
      IncrementPairsKeepsJoin(next, ps[1..], weight, x, x, y);
      IncrementPairsKeepsJoin(next, ps[1..], weight, y, x, y);
      assert forall p | p in ps :: p == ps[0] || p in ps[1..];
    }
  }

  // ---------------------------------------------------------------------------
  // The weights add_publication's increment loop writes.

  /** How many of the visited pairs name `x` and `y`, in either order. */
  function CountSame(ps: seq<(AffiliationId, AffiliationId)>, x: AffiliationId, y: AffiliationId): nat
    decreases |ps|
  {
    if ps == [] then 0
    else (if SamePair(ps[0].0, ps[0].1, x, y) then 1 else 0) + CountSame(ps[1..], x, y)
  }

  lemma AdjustFirstKeepsNoJoin(conns: Buckets, owner: AffiliationId, a: AffiliationId, b: AffiliationId, adj: Adjust,
                               o: AffiliationId, x: AffiliationId, y: AffiliationId)
    requires !HasJoin(conns, o, x, y)
    ensures !HasJoin(AdjustFirst(conns, owner, a, b, adj).0, o, x, y)
  {
    var ob := Bucket(conns, owner);
    var k := FirstJoin(ob, a, b);
    if k < |ob| && o == owner {
      FirstJoinAfterReplace(ob, k, ob[k].(weight := Adjusted(adj, ob[k].weight)), x, y);
    }
  }

  /** An update of another pair adds no connection joining `x` and `y`. */
  lemma PairUpdateKeepsNoJoin(conns: Buckets, a: AffiliationId, b: AffiliationId, adj: Adjust, initial: Weight,
                              o: AffiliationId, x: AffiliationId, y: AffiliationId)
    requires !SamePair(a, b, x, y)
    requires !HasJoin(conns, o, x, y)
    ensures !HasJoin(PairUpdate(conns, a, b, adj, initial), o, x, y)
  {
    var (c1, found1) := AdjustFirst(conns, a, a, b, adj);
    AdjustFirstKeepsNoJoin(conns, a, a, b, adj, o, x, y);
    var (c2, found2) := AdjustFirst(c1, b, a, b, adj);
    AdjustFirstKeepsNoJoin(c1, b, a, b, adj, o, x, y);
    if !(found1 || found2) {
      var nc := CanonicalConnection(a, b, initial);
      assert !nc.Joins(x, y);
      assert FirstJoin([nc], x, y) == 1;
      FirstJoinAfterAppend(Bucket(c2, o), [nc], x, y);
      var c3 := c2[a := Bucket(c2, a) + [nc]];
      FirstJoinAfterAppend(Bucket(c3, o), [nc], x, y);
    }
  }

  /** Incrementing the pair when both buckets record it with weight `w`. */
  lemma PairUpdateIncrements(conns: Buckets, a: AffiliationId, b: AffiliationId, initial: Weight,
                             x: AffiliationId, y: AffiliationId, w: Weight)
    requires SamePair(a, b, x, y) && x != y
    requires Records(conns, x, x, y, w) && Records(conns, y, x, y, w)
    ensures var r := PairUpdate(conns, a, b, Increment, initial);
            Records(r, x, x, y, w + 1) && Records(r, y, x, y, w + 1)
  {
    var ab := Bucket(conns, a);
    var bb := Bucket(conns, b);
    FirstJoinSymmetric(ab, x, y);
    FirstJoinSymmetric(bb, x, y);
    var k1 := FirstJoin(ab, a, b);
    var e1 := ab[k1].(weight := w + 1);
    var c1 := conns[a := ab[k1 := e1]];
    assert AdjustFirst(conns, a, a, b, Increment) == (c1, true);
    assert Bucket(c1, b) == bb;
    var k2 := FirstJoin(bb, a, b);
    var e2 := bb[k2].(weight := w + 1);
    var c2 := c1[b := bb[k2 := e2]];
    assert AdjustFirst(c1, b, a, b, Increment) == (c2, true);
    assert PairUpdate(conns, a, b, Increment, initial) == c2;
    FirstJoinAfterReplace(ab, k1, e1, x, y);
    FirstJoinAfterReplace(bb, k2, e2, x, y);
  }

  /** Neither bucket holds the pair: the update appends its canonical
      connection to both. */
  lemma PairUpdateAppends(conns: Buckets, a: AffiliationId, b: AffiliationId, adj: Adjust, initial: Weight)
    requires a != b
    requires !HasJoin(conns, a, a, b) && !HasJoin(conns, b, a, b)
    ensures var nc := CanonicalConnection(a, b, initial);
            PairUpdate(conns, a, b, adj, initial) == conns[a := Bucket(conns, a) + [nc]][b := Bucket(conns, b) + [nc]]
  {
    assert AdjustFirst(conns, a, a, b, adj) == (conns, false);
    assert AdjustFirst(conns, b, a, b, adj) == (conns, false);
    var nc := CanonicalConnection(a, b, initial);
    assert Bucket(conns[a := Bucket(conns, a) + [nc]], b) == Bucket(conns, b);
  }

  /** Updating the pair when neither bucket holds it appends a connection of
      weight `initial` to both. */
  lemma PairUpdateCreates(conns: Buckets, a: AffiliationId, b: AffiliationId, adj: Adjust, initial: Weight,
                          x: AffiliationId, y: AffiliationId)
    requires SamePair(a, b, x, y) && x != y
    requires !HasJoin(conns, x, x, y) && !HasJoin(conns, y, x, y)
    ensures var r := PairUpdate(conns, a, b, adj, initial);
            Records(r, x, x, y, initial) && Records(r, y, x, y, initial)
  {
    var xb, yb := Bucket(conns, x), Bucket(conns, y);
    FirstJoinSymmetric(xb, x, y);
    FirstJoinSymmetric(yb, x, y);
    PairUpdateAppends(conns, a, b, adj, initial);
    var nc := CanonicalConnection(a, b, initial);
    assert nc.Joins(x, y);
    assert FirstJoin([nc], x, y) == 0;
    FirstJoinAfterAppend(xb, [nc], x, y);
    FirstJoinAfterAppend(yb, [nc], x, y);
    var r := PairUpdate(conns, a, b, adj, initial);
    assert Bucket(r, x) == xb + [nc] && Bucket(r, y) == yb + [nc];
  }

  /** A pair both buckets already record with weight `w` ends with weight `w`
      plus the number of times the loop visits it. */
  lemma {:induction false} IncrementPairsExisting(conns: Buckets, ps: seq<(AffiliationId, AffiliationId)>, weight: (AffiliationId, AffiliationId) -> Weight,
                                                  x: AffiliationId, y: AffiliationId, w: Weight)
    requires x != y
    requires Records(conns, x, x, y, w) && Records(conns, y, x, y, w)
    ensures var r := IncrementPairs(conns, ps, weight);
            var n := CountSame(ps, x, y);
            Records(r, x, x, y, w + n) && Records(r, y, x, y, w + n)
    decreases |ps|
  {
    if ps != [] {
      var (a, b) := ps[0];
      var next := PairUpdate(conns, a, b, Increment, weight(a, b));
      if SamePair(a, b, x, y) {
        PairUpdateIncrements(conns, a, b, weight(a, b), x, y, w);
        IncrementPairsExisting(next, ps[1..], weight, x, y, w + 1);
      } else {
        PairUpdateKeepsRecords(conns, a, b, Increment, weight(a, b), x, x, y, w);
        PairUpdateKeepsRecords(conns, a, b, Increment, weight(a, b), y, x, y, w);
        IncrementPairsExisting(next, ps[1..], weight, x, y, w);
      }
    }
  }

  /** A pair neither bucket holds stays absent when the loop never visits it;
      otherwise its first visit creates it with the pair's weight and every
      later visit adds one. */
  lemma {:induction false} IncrementPairsNew(conns: Buckets, ps: seq<(AffiliationId, AffiliationId)>, weight: (AffiliationId, AffiliationId) -> Weight,
                                             x: AffiliationId, y: AffiliationId)
    requires x != y
    requires weight(x, y) == weight(y, x)
    requires !HasJoin(conns, x, x, y) && !HasJoin(conns, y, x, y)
    ensures var r := IncrementPairs(conns, ps, weight);
            var n := CountSame(ps, x, y);
            && (n == 0 ==> !HasJoin(r, x, x, y) && !HasJoin(r, y, x, y))
            && (n > 0 ==> Records(r, x, x, y, weight(x, y) + n - 1) && Records(r, y, x, y, weight(x, y) + n - 1))
    decreases |ps|
  {
    if ps != [] {
      var (a, b) := ps[0];
      var next := PairUpdate(conns, a, b, Increment, weight(a, b));
      if SamePair(a, b, x, y) {
        PairUpdateCreates(conns, a, b, Increment, weight(a, b), x, y);
        assert weight(a, b) == weight(x, y);
        IncrementPairsExisting(next, ps[1..], weight, x, y, weight(x, y));
      } else {
        PairUpdateKeepsNoJoin(conns, a, b, Increment, weight(a, b), x, x, y);
        PairUpdateKeepsNoJoin(conns, a, b, Increment, weight(a, b), y, x, y);
        IncrementPairsNew(next, ps[1..], weight, x, y);
      }
    }
  }

  lemma {:induction false} CountSameAppend(p1: seq<(AffiliationId, AffiliationId)>, p2: seq<(AffiliationId, AffiliationId)>,
                                           x: AffiliationId, y: AffiliationId)
    ensures CountSame(p1 + p2, x, y) == CountSame(p1, x, y) + CountSame(p2, x, y)
    decreases |p1|
  {
    if p1 == [] {
      assert p1 + p2 == p2;
    } else {
      assert (p1 + p2)[1..] == p1[1..] + p2;
      CountSameAppend(p1[1..], p2, x, y);
    }
  }

  /** The pairs (a, T[k]) in order: one row of the nested loops. */
  function Fan(a: AffiliationId, T: seq<AffiliationId>): seq<(AffiliationId, AffiliationId)> {
    seq(|T|, k requires 0 <= k < |T| => (a, T[k]))
  }

  /** The pairs of a row name `x` and `y` once per occurrence of the partner. */
  lemma {:induction false} CountSameFan(a: AffiliationId, T: seq<AffiliationId>, x: AffiliationId, y: AffiliationId)
    requires x != y
    ensures CountSame(Fan(a, T), x, y) == if a == x then multiset(T)[y] else if a == y then multiset(T)[x] else 0
    decreases |T|
  {
    if T != [] {
      assert Fan(a, T)[1..] == Fan(a, T[1..]);
      CountSameFan(a, T[1..], x, y);
      assert T == [T[0]] + T[1..];
      assert multiset(T) == multiset{T[0]} + multiset(T[1..]);
    }
  }

  lemma PairsUnfold(L: seq<AffiliationId>)
    requires L != []
    ensures Pairs(L) == Fan(L[0], L[1..]) + Pairs(L[1..])
  {
    var head := seq(|L| - 1, k requires 0 <= k < |L| - 1 => (L[0], L[k + 1]));
    assert Pairs(L) == head + Pairs(L[1..]);
    assert head == Fan(L[0], L[1..]);
  }

  /** One more element at the front adds one to its own count only. */
  lemma CountFront(L: seq<AffiliationId>, z: AffiliationId)
    requires L != []
    ensures multiset(L)[z] == multiset(L[1..])[z] + (if L[0] == z then 1 else 0)
  {
    assert L == [L[0]] + L[1..];
  }

  lemma ProductStep(px: int, py: int, mx: int, my: int, ax: bool, ay: bool)
    requires !(ax && ay)
    requires px == mx + (if ax then 1 else 0) && py == my + (if ay then 1 else 0)
    ensures px * py == mx * my + (if ax then my else if ay then mx else 0)
  {
    if ax {
      assert (mx + 1) * my == mx * my + my;
    } else if ay {
      assert mx * (my + 1) == mx * my + mx;
    }
  }

  /** The nested loops visit the pair of two distinct affiliations once for
      each way of choosing an occurrence of each. */
  lemma {:induction false} CountSamePairs(L: seq<AffiliationId>, x: AffiliationId, y: AffiliationId)
    requires x != y
    ensures CountSame(Pairs(L), x, y) == multiset(L)[x] * multiset(L)[y]
    decreases |L|
  {
    if L != [] {
      var T := L[1..];
      PairsUnfold(L);
      CountSameAppend(Fan(L[0], T), Pairs(T), x, y);
      CountSameFan(L[0], T, x, y);
      CountSamePairs(T, x, y);
      CountFront(L, x);
      CountFront(L, y);
      ProductStep(multiset(L)[x], multiset(L)[y], multiset(T)[x], multiset(T)[y], L[0] == x, L[0] == y);
    }
  }

  lemma ProductAtLeastOne(m: int, n: int)
    requires m >= 1 && n >= 1
    ensures m * n >= 1
  {
  }

  lemma IncrementAllPairsExisting(conns: Buckets, L: seq<AffiliationId>, weight: (AffiliationId, AffiliationId) -> Weight,
                                  x: AffiliationId, y: AffiliationId, w: Weight)
    requires x != y
    requires Records(conns, x, x, y, w) && Records(conns, y, x, y, w)
    ensures multiset(L)[x] * multiset(L)[y] >= 0
    ensures var r := IncrementPairs(conns, Pairs(L), weight);
            var n := multiset(L)[x] * multiset(L)[y];
            Records(r, x, x, y, w + n) && Records(r, y, x, y, w + n)
  {
    CountSamePairs(L, x, y);
    IncrementPairsExisting(conns, Pairs(L), weight, x, y, w);
  }

  lemma IncrementAllPairsNew(conns: Buckets, L: seq<AffiliationId>, weight: (AffiliationId, AffiliationId) -> Weight,
                             x: AffiliationId, y: AffiliationId)
    requires x != y && x in L && y in L
    requires weight(x, y) == weight(y, x)
    requires !HasJoin(conns, x, x, y) && !HasJoin(conns, y, x, y)
    ensures multiset(L)[x] * multiset(L)[y] >= 1
    ensures var r := IncrementPairs(conns, Pairs(L), weight);
            var n := multiset(L)[x] * multiset(L)[y];
            Records(r, x, x, y, weight(x, y) + n - 1) && Records(r, y, x, y, weight(x, y) + n - 1)
  {
    ProductAtLeastOne(multiset(L)[x], multiset(L)[y]);
    CountSamePairs(L, x, y);
    IncrementPairsNew(conns, Pairs(L), weight, x, y);
  }

  /** The increment loop over all pairs of an author list, for two distinct
      authors named m and n times: an existing connection gains m * n; a new
      one starts at the pair's weight and gains m * n - 1. */
  lemma IncrementAllPairsWeights(conns: Buckets, L: seq<AffiliationId>, weight: (AffiliationId, AffiliationId) -> Weight,
                                 x: AffiliationId, y: AffiliationId)
    requires Consistent(conns)
    requires x != y && x in L && y in L
    requires weight(x, y) == weight(y, x)
    ensures multiset(L)[x] * multiset(L)[y] >= 1
    ensures var r := IncrementPairs(conns, Pairs(L), weight);
            var n := multiset(L)[x] * multiset(L)[y];
            && (forall w | Records(conns, x, x, y, w) :: Records(r, x, x, y, w + n) && Records(r, y, x, y, w + n))
            && (!HasJoin(conns, x, x, y) ==>
                  Records(r, x, x, y, weight(x, y) + n - 1) && Records(r, y, x, y, weight(x, y) + n - 1))
  {
    ProductAtLeastOne(multiset(L)[x], multiset(L)[y]);
    MirrorMatch(conns, x, y);
    forall w | Records(conns, x, x, y, w)
      ensures var r := IncrementPairs(conns, Pairs(L), weight);
              var n := multiset(L)[x] * multiset(L)[y];
              Records(r, x, x, y, w + n) && Records(r, y, x, y, w + n)
    {
      IncrementAllPairsExisting(conns, L, weight, x, y, w);
    }
    if !HasJoin(conns, x, x, y) {
      IncrementAllPairsNew(conns, L, weight, x, y);
    }
  }

  // ---------------------------------------------------------------------------
  // remove_affiliation's sweep and get_all_connections.

  /** A bucket-level form of NoDuplicateEdges. */
  ghost predicate DistinctEdges(b: seq<Connection>) {
    forall i, j | 0 <= i < j < |b| :: b[i].IsLoop() || !b[j].Joins(b[i].aff1, b[i].aff2)
  }

  lemma {:induction false} WithoutInvolvingDistinct(b: seq<Connection>, id: AffiliationId)
    requires DistinctEdges(b)
    ensures DistinctEdges(WithoutInvolving(b, id))
    decreases |b|
  {
    if b != [] {
      var rest := WithoutInvolving(b[1..], id);
      WithoutInvolvingDistinct(b[1..], id);
      if !b[0].Involves(id) {
        var r := [b[0]] + rest;
        forall i, j | 0 <= i < j < |r| ensures r[i].IsLoop() || !r[j].Joins(r[i].aff1, r[i].aff2) {
          if i == 0 {
            assert r[j] in b[1..];
            var k :| 0 <= k < |b[1..]| && b[1..][k] == r[j];
            assert b[k + 1] == r[j];
          } else {
            assert r[i] == rest[i - 1] && r[j] == rest[j - 1];
          }
        }
      }
    }
  }

  /** remove_affiliation keeps the graph consistent and leaves no connection of
      the removed affiliation behind. */
  lemma RemoveInvolvingConsistent(conns: Buckets, id: AffiliationId)
    requires Consistent(conns)
    ensures Consistent(RemoveInvolving(conns, id))
    ensures forall x, c | c in Bucket(RemoveInvolving(conns, id), x) :: !c.Involves(id)
  {
    var r := RemoveInvolving(conns, id);
    forall x | x in r ensures DistinctEdges(r[x]) {
      assert DistinctEdges(conns[x]);
      WithoutInvolvingDistinct(conns[x], id);
    }
    forall x, i | x in r && 0 <= i < |r[x]|
      ensures r[x][i].Involves(x) && r[x][i].IsCanonical()
      ensures r[x][i] in Bucket(r, r[x][i].Other(x))
    {
      var c := r[x][i];
      assert c in conns[x];
      var k :| 0 <= k < |conns[x]| && conns[x][k] == c;
      assert c in Bucket(conns, conns[x][k].Other(x));
    }
  }

  /** Two stored connections joining the same two distinct affiliations are the
      same connection. */
  lemma StoredEdgeUnique(conns: Buckets, c1: Connection, c2: Connection, z1: AffiliationId, z2: AffiliationId)
    requires Consistent(conns)
    requires c1 in Bucket(conns, z1) && c2 in Bucket(conns, z2)
    ensures !c1.IsLoop() && c2.Joins(c1.aff1, c1.aff2) ==> c1 == c2
  {
    if !c1.IsLoop() && c2.Joins(c1.aff1, c1.aff2) {
      var x := c1.aff1;
      var i1 :| 0 <= i1 < |conns[z1]| && conns[z1][i1] == c1;
      var i2 :| 0 <= i2 < |conns[z2]| && conns[z2][i2] == c2;
      assert c1 in Bucket(conns, x) by {
        assert c1 in Bucket(conns, conns[z1][i1].Other(z1));
      }
      assert c2 in Bucket(conns, x) by {
        assert c2 in Bucket(conns, conns[z2][i2].Other(z2));
      }
      var p :| 0 <= p < |conns[x]| && conns[x][p] == c1;
      var q :| 0 <= q < |conns[x]| && conns[x][q] == c2;
      assert p == q;
    }
  }

  /** Two different connections that get_all_connections reports never join
      the same two distinct affiliations. */
  lemma ReportedEdgesDiffer(conns: Buckets, c1: Connection, c2: Connection)
    requires Consistent(conns)
    requires c1 in AllConnections(conns) && c2 in AllConnections(conns)
    requires c1 != c2
    ensures c1.IsLoop() || !c2.Joins(c1.aff1, c1.aff2)
  {
    var z1 :| c1 in Bucket(conns, z1);
    var z2 :| c2 in Bucket(conns, z2);
    StoredEdgeUnique(conns, c1, c2, z1, z2);
  }

  /** Under consistency get_all_connections reports each pair of distinct
      affiliations at most once. */
  lemma AllConnectionsOnePerPair(conns: Buckets)
    requires Consistent(conns)
    ensures DistinctEdges(AllConnections(conns))
  {
    var r := AllConnections(conns);
    forall i, j | 0 <= i < j < |r| ensures r[i].IsLoop() || !r[j].Joins(r[i].aff1, r[i].aff2) {
      ReportedEdgesDiffer(conns, r[i], r[j]);
    }
  }
}

=== FILE: buckets.dfy ===
/** The derived co-authorship graph as the code stores it: one bucket of
    connections per affiliation, each connection kept in canonical form in both
    of its endpoints' buckets. */
module Buckets {
  import opened Types
  import Sorting

  type Buckets = map<AffiliationId, seq<Connection>>

  /** A missing key reads as an empty bucket (indexing the map creates one). */
  function Bucket(conns: Buckets, x: AffiliationId): seq<Connection> {
    if x in conns then conns[x] else []
  }

  /** Position of the first connection of `b` that joins `x` and `y`, or |b|. */
  function FirstJoin(b: seq<Connection>, x: AffiliationId, y: AffiliationId): (k: nat)
    ensures k <= |b|
    ensures k < |b| ==> b[k].Joins(x, y)
    ensures forall i | 0 <= i < k :: !b[i].Joins(x, y)
  {
    if b == [] then 0
    else if b[0].Joins(x, y) then 0
    else 1 + FirstJoin(b[1..], x, y)
  }

  /** How a pair update treats an existing connection: add_publication adds one
      to its weight, add_affiliation_to_publication overwrites it. */
  datatype Adjust = Increment | Overwrite(w: Weight)

  function Adjusted(adj: Adjust, w: Weight): Weight {
    match adj
    case Increment => w + 1
    case Overwrite(v) => v
  }

  /** Adjusts the first connection in `owner`'s bucket that joins `x` and `y`,
      and reports whether there was one. */
  function AdjustFirst(conns: Buckets, owner: AffiliationId, x: AffiliationId, y: AffiliationId, adj: Adjust): (r: (Buckets, bool))
  {
    var b := Bucket(conns, owner);
    var k := FirstJoin(b, x, y);
    if k == |b| then (conns, false)
    else (conns[owner := b[k := b[k].(weight := Adjusted(adj, b[k].weight))]], true)
  }

  /** The update both publication operations apply to one pair of authors:
      adjust the pair's connection in `x`'s bucket, then in `y`'s; when neither
      bucket had one, append a canonical connection of weight `initial` to both. */
  function PairUpdate(conns: Buckets, x: AffiliationId, y: AffiliationId, adj: Adjust, initial: Weight): Buckets {
    var (c1, found1) := AdjustFirst(conns, x, x, y, adj);
    var (c2, found2) := AdjustFirst(c1, y, x, y, adj);
    if found1 || found2 then c2
    else
      var nc := CanonicalConnection(x, y, initial);
      var c3 := c2[x := Bucket(c2, x) + [nc]];
      c3[y := Bucket(c3, y) + [nc]]
  }

  /** The pairs (L[i], L[j]) with i < j, in the order the nested loops visit them. */
  function Pairs(L: seq<AffiliationId>): (ps: seq<(AffiliationId, AffiliationId)>)
    ensures forall i, j | 0 <= i < j < |L| :: (L[i], L[j]) in ps
    ensures forall p | p in ps :: p.0 in L && p.1 in L
  {
    if L == [] then []
    else
      var head := seq(|L| - 1, k requires 0 <= k < |L| - 1 => (L[0], L[k + 1]));
      var rest := Pairs(L[1..]);
      assert forall i, j | 0 <= i < j < |L| :: (L[i], L[j]) in head + rest by {
        forall i, j | 0 <= i < j < |L| ensures (L[i], L[j]) in head + rest {
          if i == 0 {
            assert head[j - 1] == (L[i], L[j]);
          } else {
            assert (L[1..][i - 1], L[1..][j - 1]) in rest;
          }
        }
      }
      head + rest
  }

  /** add_publication's update of the graph: every pair gets an Increment. */
  function IncrementPairs(conns: Buckets, ps: seq<(AffiliationId, AffiliationId)>, weight: (AffiliationId, AffiliationId) -> Weight): Buckets
    decreases |ps|
  {
    if ps == [] then conns
    else IncrementPairs(PairUpdate(conns, ps[0].0, ps[0].1, Increment, weight(ps[0].0, ps[0].1)), ps[1..], weight)
  }

  /** add_affiliation_to_publication's update: each pair whose weight is
      positive gets that weight, on an existing connection or a new one. */
  function OverwritePairs(conns: Buckets, ps: seq<(AffiliationId, AffiliationId)>, weight: (AffiliationId, AffiliationId) -> Weight): Buckets
    decreases |ps|
  {
    if ps == [] then conns
    else
      var w := weight(ps[0].0, ps[0].1);
      var next := if w > 0 then PairUpdate(conns, ps[0].0, ps[0].1, Overwrite(w), w) else conns;
      OverwritePairs(next, ps[1..], weight)
  }

  // ---------------------------------------------------------------------------
  // The consistency the update code keeps.

  /** Every connection in a bucket has the bucket's owner as an endpoint. */
  ghost predicate Owned(conns: Buckets) {
    forall x, i | x in conns && 0 <= i < |conns[x]| :: conns[x][i].Involves(x)
  }

  ghost predicate AllCanonical(conns: Buckets) {
    forall x, i | x in conns && 0 <= i < |conns[x]| :: conns[x][i].IsCanonical()
  }

  /** Within a bucket, a pair of distinct affiliations has at most one connection. */
  ghost predicate NoDuplicateEdges(conns: Buckets) {
    forall x, i, j | x in conns && 0 <= i < j < |conns[x]| ::
      conns[x][i].IsLoop() || !conns[x][j].Joins(conns[x][i].aff1, conns[x][i].aff2)
  }

  /** Every connection is also stored in its other endpoint's bucket. */
  ghost predicate Mirrored(conns: Buckets) {
    forall x, i {:trigger conns[x][i].Other(x)} | x in conns && 0 <= i < |conns[x]| ::
      conns[x][i] in Bucket(conns, conns[x][i].Other(x))
  }

  ghost predicate Consistent(conns: Buckets) {
    Owned(conns) && AllCanonical(conns) && NoDuplicateEdges(conns) && Mirrored(conns)
  }

  /** `owner`'s bucket holds a connection joining `x` and `y`, and the first one
      it holds has weight `w`: what the update loops look up and change. */
  ghost predicate Records(conns: Buckets, owner: AffiliationId, x: AffiliationId, y: AffiliationId, w: Weight) {
    var b := Bucket(conns, owner);
    var k := FirstJoin(b, x, y);
    k < |b| && b[k].weight == w
  }

  predicate SamePair(x: AffiliationId, y: AffiliationId, a: AffiliationId, b: AffiliationId) {
    (x == a && y == b) || (x == b && y == a)
  }

  // ---------------------------------------------------------------------------
  // Removal and the two read operations on the graph.

  /** A bucket without the connections that have `id` as an endpoint. */
  function WithoutInvolving(b: seq<Connection>, id: AffiliationId): (r: seq<Connection>)
    ensures forall c :: c in r <==> c in b && !c.Involves(id)
    ensures |r| <= |b|
  {
    if b == [] then []
    else (if b[0].Involves(id) then [] else [b[0]]) + WithoutInvolving(b[1..], id)
  }

  /** remove_affiliation's sweep: every bucket loses the connections of `id`. */
  function RemoveInvolving(conns: Buckets, id: AffiliationId): (r: Buckets)
    ensures forall x :: Bucket(r, x) == WithoutInvolving(Bucket(conns, x), id)
  {
    map x | x in conns :: WithoutInvolving(conns[x], id)
  }

  /** get_connected_affiliations on one bucket: each connection with `id` as an
      endpoint, turned so that it starts at `id`. */
  function OrientedFrom(b: seq<Connection>, id: AffiliationId): (r: seq<Connection>)
    ensures |r| <= |b|
    ensures forall i | 0 <= i < |r| :: r[i].aff1 == id
    ensures forall c | c in r :: c in b || c.Swapped() in b
  {
    if b == [] then []
    else
      var head := if b[0].aff1 == id then [b[0]] else if b[0].aff2 == id then [b[0].Swapped()] else [];
      var rest := OrientedFrom(b[1..], id);
      assert forall c | c in rest :: c in b[1..] || c.Swapped() in b[1..];
      head + rest
  }

  /** When every connection of the bucket has `id` as an endpoint, none is
      dropped: the i-th result is the i-th connection, turned if need be. */
  lemma {:induction false} OrientedFromAll(b: seq<Connection>, id: AffiliationId)
    ensures (forall c | c in b :: c.Involves(id)) ==>
      |OrientedFrom(b, id)| == |b| &&
      forall i | 0 <= i < |b| :: OrientedFrom(b, id)[i] == b[i] || OrientedFrom(b, id)[i] == b[i].Swapped()
  {
    if b != [] && forall c | c in b :: c.Involves(id) {
      assert forall c | c in b[1..] :: c in b;
      OrientedFromAll(b[1..], id);
      var rest := OrientedFrom(b[1..], id);
      var head := if b[0].aff1 == id then b[0] else b[0].Swapped();
      assert b[0].Involves(id);
      assert OrientedFrom(b, id) == [head] + rest;
      forall i | 1 <= i < |b| ensures ([head] + rest)[i] == b[i] || ([head] + rest)[i] == b[i].Swapped() {
        assert ([head] + rest)[i] == rest[i - 1] && b[i] == b[1..][i - 1];
      }
    }
  }

  /** The buckets of `keys`, one after another. */
  function Concat(conns: Buckets, keys: seq<AffiliationId>): (r: seq<Connection>)
    ensures forall c :: c in r <==> exists k :: k in keys && c in Bucket(conns, k)
  {
    if keys == [] then []
    else
      var rest := Concat(conns, keys[1..]);
      assert forall k | k in keys :: k == keys[0] || k in keys[1..];
      Bucket(conns, keys[0]) + rest
  }

  /** Keeps the first occurrence of every connection, in order. */
  function Dedupe(s: seq<Connection>): (r: seq<Connection>)
    ensures forall c :: c in r <==> c in s
    ensures forall i, j | 0 <= i < j < |r| :: r[i] != r[j]
  {
    if s == [] then []
    else
      var d := Dedupe(s[..|s| - 1]);
      assert forall c | c in s :: c in s[..|s| - 1] || c == s[|s| - 1];
      if s[|s| - 1] in d then d else d + [s[|s| - 1]]
  }

  /** get_all_connections: the buckets in ascending key order, each stored
      connection reported once. */
  function AllConnections(conns: Buckets): (r: seq<Connection>)
    ensures forall c :: c in r <==> exists x :: c in Bucket(conns, x)
    ensures forall i, j | 0 <= i < j < |r| :: r[i] != r[j]
  {
    var keys := Sorting.AscendingElements(conns.Keys);
    assert forall c, x | c in Bucket(conns, x) :: x in keys;
    Dedupe(Concat(conns, keys))
  }
}

=== FILE: citations.dfy ===
/** The citation forest: walking up from a publication through the parents that
    reference it (get_referenced_by_chain), down through everything it
    references (get_all_references), and the first ancestor two publications
    share (get_closest_common_parent). Both walks keep a visited set, so cyclic
    links end the walk instead of looping. */
module Citations {
  import opened Types
  import opened Sorting
  import opened Store

  type Publications = map<PublicationId, Publication>

  // ---------------------------------------------------------------------------
  // Up: the referenced-by chain.

  /** Stopping rule of the upward walk at a parent `p`. */
  predicate ChainStops(pubs: Publications, p: PublicationId, visited: set<PublicationId>, c: seq<PublicationId>) {
    p == NoPublication || p !in pubs || p in visited || p in c
  }

  /** The walk from `cur`, a parent not yet visited: `cur` if it is stored,
      then its own parent's walk, until a parent is NoPublication, unknown or
      already visited. */
  function ChainFrom(pubs: Publications, cur: PublicationId, visited: set<PublicationId>): (r: seq<PublicationId>)
    requires cur !in visited && cur != NoPublication
    ensures r == [] <==> cur !in pubs
    ensures r != [] ==> r[0] == cur
    ensures forall k | 0 <= k < |r| :: r[k] in pubs && r[k] !in visited && r[k] != NoPublication
    ensures forall k | 0 <= k < |r| - 1 :: r[k + 1] == pubs[r[k]].referencedBy
    ensures forall i, j | 0 <= i < j < |r| :: r[i] != r[j]
    ensures r != [] ==> ChainStops(pubs, pubs[r[|r| - 1]].referencedBy, visited, r)
    decreases |pubs.Keys - visited|
  {
    if cur !in pubs then []
    else
      var seen := visited + {cur};
      var parent := pubs[cur].referencedBy;
      assert pubs.Keys - seen == (pubs.Keys - visited) - {cur};
      if parent !in seen && parent != NoPublication then
        var rest := ChainFrom(pubs, parent, seen);
        assert forall k | 0 <= k < |rest| :: rest[k] != cur;
        [cur] + rest
      else [cur]
  }

  /** What a referenced-by chain of `id` is, independently of how it is
      computed: distinct stored publications other than `id` and NoPublication,
      each the parent of the one before it (the first, of `id`), ending where the
      next parent is NoPublication, unknown, `id` itself or already listed. */
  ghost predicate ParentChain(pubs: Publications, id: PublicationId, c: seq<PublicationId>)
    requires id in pubs
  {
    && (forall k | 0 <= k < |c| :: c[k] in pubs && c[k] != id && c[k] != NoPublication)
    && (forall i, j | 0 <= i < j < |c| :: c[i] != c[j])
    && (c != [] ==> c[0] == pubs[id].referencedBy)
    && (forall k | 0 <= k < |c| - 1 :: c[k + 1] == pubs[c[k]].referencedBy)
    && var last := if c == [] then id else c[|c| - 1];
       ChainStops(pubs, pubs[last].referencedBy, {id}, c)
  }

  /** get_referenced_by_chain: the ancestors of `id`, nearest first, or
      [NoPublication] for an unknown id. */
  function GetReferencedByChain(s: Store, id: PublicationId): (c: seq<PublicationId>)
    ensures id !in s.publications ==> c == [NoPublication]
    ensures id in s.publications ==> ParentChain(s.publications, id, c)
  {
    if id !in s.publications then [NoPublication]
    else
      var parent := s.publications[id].referencedBy;
      if parent != id && parent != NoPublication then ChainFrom(s.publications, parent, {id})
      else []
  }

  /** Two chains of the same publication agree wherever both are defined. */
  lemma {:induction false} ParentChainsAgree(pubs: Publications, id: PublicationId, c1: seq<PublicationId>, c2: seq<PublicationId>, k: nat)
    requires id in pubs
    requires ParentChain(pubs, id, c1) && ParentChain(pubs, id, c2)
    requires k < |c1| && k < |c2|
    ensures forall i | 0 <= i <= k :: c1[i] == c2[i]
    decreases k
  {
    if k > 0 {
      ParentChainsAgree(pubs, id, c1, c2, k - 1);
      assert c1[k] == pubs[c1[k - 1]].referencedBy;
      assert c2[k] == pubs[c2[k - 1]].referencedBy;
    }
  }

  /** Each link of a chain is a live parent: it fails every stopping rule
      against what comes before it. */
  lemma ChainContinues(pubs: Publications, id: PublicationId, c: seq<PublicationId>, n: nat)
    requires id in pubs
    requires ParentChain(pubs, id, c)
    requires n < |c|
    ensures c[n] == pubs[if n == 0 then id else c[n - 1]].referencedBy
    ensures c[n] in pubs && c[n] != id && c[n] != NoPublication
    ensures forall i | 0 <= i < n :: c[i] != c[n]
  {
  }

  /** A chain cannot stop while another chain of the same publication goes on. */
  lemma NotShorter(pubs: Publications, id: PublicationId, c1: seq<PublicationId>, c2: seq<PublicationId>)
    requires id in pubs
    requires ParentChain(pubs, id, c1) && ParentChain(pubs, id, c2)
    ensures |c1| >= |c2|
  {
    if |c1| < |c2| {
      if |c1| > 0 {
        ParentChainsAgree(pubs, id, c1, c2, |c1| - 1);
      }
      ChainContinues(pubs, id, c2, |c1|);
      assert false;
    }
  }

  /** The properties of ParentChain determine the chain: the computed one is the
      only sequence that has them. */
  lemma ParentChainUnique(pubs: Publications, id: PublicationId, c1: seq<PublicationId>, c2: seq<PublicationId>)
    requires id in pubs
    requires ParentChain(pubs, id, c1) && ParentChain(pubs, id, c2)
    ensures c1 == c2
  {
    NotShorter(pubs, id, c1, c2);
    NotShorter(pubs, id, c2, c1);
    if |c1| > 0 {
      ParentChainsAgree(pubs, id, c1, c2, |c1| - 1);
    }
  }

  /** The first element of `c1` that `c2` also holds, or NoPublication. */
  function FirstCommon(c1: seq<PublicationId>, c2: seq<PublicationId>): (r: PublicationId)
    ensures || (r == NoPublication && forall q | q in c1 :: q !in c2 || q == NoPublication)
            || (exists k | 0 <= k < |c1| :: c1[k] == r && r in c2 && forall j | 0 <= j < k :: c1[j] !in c2)
  {
    if c1 == [] then NoPublication
    else if c1[0] in c2 then c1[0]
    else
      var r := FirstCommon(c1[1..], c2);
      assert forall k | 0 <= k < |c1| - 1 :: c1[1..][k] == c1[k + 1];
      r
  }

  /** get_closest_common_parent: the nearest ancestor of `id1` that is also an
      ancestor of `id2`; NoPublication when there is none or either is unknown. */
  function GetClosestCommonParent(s: Store, id1: PublicationId, id2: PublicationId): (r: PublicationId)
    ensures id1 !in s.publications || id2 !in s.publications ==> r == NoPublication
    ensures id1 in s.publications && id2 in s.publications ==>
      var c1 := GetReferencedByChain(s, id1);
      var c2 := GetReferencedByChain(s, id2);
      || (r == NoPublication && forall q | q in c1 :: q !in c2)
      || (exists k | 0 <= k < |c1| :: c1[k] == r && r in c2 && forall j | 0 <= j < k :: c1[j] !in c2)
  {
    if id1 !in s.publications || id2 !in s.publications then NoPublication
    else FirstCommon(GetReferencedByChain(s, id1), GetReferencedByChain(s, id2))
  }

  // ---------------------------------------------------------------------------
  // Down: all references.

  /** The publications `p` references; an unknown id references nothing. */
  function Children(pubs: Publications, p: PublicationId): seq<PublicationId> {
    if p in pubs then pubs[p].references else []
  }

  /** Every id the downward walk from `start` can meet. */
  ghost function Universe(pubs: Publications, start: PublicationId): (u: set<PublicationId>)
    ensures start in u
    ensures forall p, q | q in Children(pubs, p) :: q in u
  {
    var targets := set p, q | p in pubs && q in pubs[p].references :: q;
    assert forall p, q | q in Children(pubs, p) :: q in targets;
    pubs.Keys + {start} + targets
  }

  /** `b` is reached from `a` in exactly `n` reference steps. */
  ghost predicate ReachesIn(pubs: Publications, a: PublicationId, b: PublicationId, n: nat)
    decreases n
  {
    if n == 0 then a == b
    else exists c | c in Children(pubs, a) :: ReachesIn(pubs, c, b, n - 1)
  }

  ghost predicate Reaches(pubs: Publications, a: PublicationId, b: PublicationId) {
    exists n :: ReachesIn(pubs, a, b, n)
  }

  /** One call of the recursive walk: mark `cur`, walk each reference not yet
      visited at the time the loop reaches it, then output `cur` unless it is the
      start. Returns the visited set and the output. */
  function Visit(pubs: Publications, id: PublicationId, cur: PublicationId, visited: set<PublicationId>): (r: (set<PublicationId>, seq<PublicationId>))
    requires cur in Universe(pubs, id) && cur !in visited
    ensures visited + {cur} <= r.0
    decreases |Universe(pubs, id) - visited|, 0
  {
    var seen := visited + {cur};
    assert Universe(pubs, id) - seen == (Universe(pubs, id) - visited) - {cur};
    var (v, out) := VisitList(pubs, id, Children(pubs, cur), seen);
    (v, out + if cur != id then [cur] else [])
  }

  /** The loop over one publication's references. */
  function VisitList(pubs: Publications, id: PublicationId, refs: seq<PublicationId>, visited: set<PublicationId>): (r: (set<PublicationId>, seq<PublicationId>))
    requires forall q | q in refs :: q in Universe(pubs, id)
    ensures visited <= r.0
    decreases |Universe(pubs, id) - visited|, 1, |refs|
  {
    if refs == [] then (visited, [])
    else if refs[0] in visited then VisitList(pubs, id, refs[1..], visited)
    else
      var (v1, o1) := Visit(pubs, id, refs[0], visited);
      SubsetCardinality(Universe(pubs, id) - v1, Universe(pubs, id) - visited);
      var (v2, o2) := VisitList(pubs, id, refs[1..], v1);
      (v2, o1 + o2)
  }

  /** What one walk leaves: it outputs exactly the newly visited ids other than
      the start, each once, and the newly visited ids have all their references
      visited. */
  ghost predicate WalkResult(pubs: Publications, id: PublicationId, visited: set<PublicationId>, r: (set<PublicationId>, seq<PublicationId>)) {
    && (forall q :: q in r.1 <==> q in r.0 - visited && q != id)
    && (forall i, j | 0 <= i < j < |r.1| :: r.1[i] != r.1[j])
    && (forall x, c | x in r.0 - visited && c in Children(pubs, x) :: c in r.0)
  }

  /** Two walks in a row: the second starting from what the first visited. */
  lemma SequencedWalks(pubs: Publications, id: PublicationId, visited: set<PublicationId>,
                       r1: (set<PublicationId>, seq<PublicationId>), r2: (set<PublicationId>, seq<PublicationId>))
    requires visited <= r1.0 <= r2.0
    requires WalkResult(pubs, id, visited, r1) && WalkResult(pubs, id, r1.0, r2)
    ensures WalkResult(pubs, id, visited, (r2.0, r1.1 + r2.1))
  {
    var out := r1.1 + r2.1;
    forall i, j | 0 <= i < j < |out| ensures out[i] != out[j] {
      if i < |r1.1| && j >= |r1.1| {
        assert out[i] in r1.1 && out[j] in r2.1;
      }
    }
  }

  /** A walk over `cur`'s references, started with `cur` marked, then `cur` itself. */
  lemma FinishedWalk(pubs: Publications, id: PublicationId, cur: PublicationId, visited: set<PublicationId>,
                     r: (set<PublicationId>, seq<PublicationId>))
    requires cur !in visited
    requires visited + {cur} <= r.0
    requires forall q | q in Children(pubs, cur) :: q in r.0
    requires WalkResult(pubs, id, visited + {cur}, r)
    ensures WalkResult(pubs, id, visited, (r.0, r.1 + if cur != id then [cur] else []))
  {
  }

  lemma {:induction false} VisitWalks(pubs: Publications, id: PublicationId, cur: PublicationId, visited: set<PublicationId>)
    requires cur in Universe(pubs, id) && cur !in visited
    ensures WalkResult(pubs, id, visited, Visit(pubs, id, cur, visited))
    decreases |Universe(pubs, id) - visited|, 0
  {
    var seen := visited + {cur};
    assert Universe(pubs, id) - seen == (Universe(pubs, id) - visited) - {cur};
    var r := VisitList(pubs, id, Children(pubs, cur), seen);
    assert Visit(pubs, id, cur, visited) == (r.0, r.1 + if cur != id then [cur] else []);
    VisitListWalks(pubs, id, Children(pubs, cur), seen);
    FinishedWalk(pubs, id, cur, visited, r);
  }

  lemma {:induction false} VisitListWalks(pubs: Publications, id: PublicationId, refs: seq<PublicationId>, visited: set<PublicationId>)
    requires forall q | q in refs :: q in Universe(pubs, id)
    ensures forall q | q in refs :: q in VisitList(pubs, id, refs, visited).0
    ensures WalkResult(pubs, id, visited, VisitList(pubs, id, refs, visited))
    decreases |Universe(pubs, id) - visited|, 1, |refs|
  {
    if refs == [] {
    } else if refs[0] in visited {
      VisitListWalks(pubs, id, refs[1..], visited);
      assert forall q | q in refs :: q == refs[0] || q in refs[1..];
    } else {
      var r1 := Visit(pubs, id, refs[0], visited);
      VisitWalks(pubs, id, refs[0], visited);
      SubsetCardinality(Universe(pubs, id) - r1.0, Universe(pubs, id) - visited);
      var r2 := VisitList(pubs, id, refs[1..], r1.0);
      assert VisitList(pubs, id, refs, visited) == (r2.0, r1.1 + r2.1);
      VisitListWalks(pubs, id, refs[1..], r1.0);
      SequencedWalks(pubs, id, visited, r1, r2);
      assert forall q | q in refs :: q == refs[0] || q in refs[1..];
    }
  }

  /** get_all_references: every publication reachable from `id` through
      references, each once, children before parents; [NoPublication] for an
      unknown id. */
  function GetAllReferences(s: Store, id: PublicationId): (r: seq<PublicationId>)
    ensures id !in s.publications ==> r == [NoPublication]
    ensures id in s.publications ==> forall i, j | 0 <= i < j < |r| :: r[i] != r[j]
    ensures id in s.publications ==> id !in r
  {
    if id !in s.publications then [NoPublication]
    else
      VisitWalks(s.publications, id, id, {});
      Visit(s.publications, id, id, {}).1
  }

  /** Every id of `out` is reached from some id of `roots`. */
  ghost predicate ReachedFrom(pubs: Publications, roots: seq<PublicationId>, out: seq<PublicationId>) {
    forall q | q in out :: exists c, n: nat :: c in roots && ReachesIn(pubs, c, q, n)
  }

  lemma ReachedThroughChild(pubs: Publications, cur: PublicationId, out: seq<PublicationId>, tail: seq<PublicationId>)
    requires ReachedFrom(pubs, Children(pubs, cur), out)
    requires tail == [] || tail == [cur]
    ensures ReachedFrom(pubs, [cur], out + tail)
  {
    forall q | q in out + tail ensures exists c, n: nat :: c in [cur] && ReachesIn(pubs, c, q, n) {
      if q in tail {
        assert ReachesIn(pubs, cur, q, 0);
      } else {
        var c, n: nat :| c in Children(pubs, cur) && ReachesIn(pubs, c, q, n);
        assert ReachesIn(pubs, cur, q, n + 1);
      }
    }
  }

  lemma ReachedFromBoth(pubs: Publications, refs: seq<PublicationId>, o1: seq<PublicationId>, o2: seq<PublicationId>)
    requires refs != []
    requires ReachedFrom(pubs, [refs[0]], o1) && ReachedFrom(pubs, refs[1..], o2)
    ensures ReachedFrom(pubs, refs, o1 + o2)
  {
    forall q | q in o1 + o2 ensures exists c, n: nat :: c in refs && ReachesIn(pubs, c, q, n) {
      if q in o1 {
        var c, n: nat :| c in [refs[0]] && ReachesIn(pubs, c, q, n);
        assert c in refs;
      } else {
        var c, n: nat :| c in refs[1..] && ReachesIn(pubs, c, q, n);
        assert c in refs;
      }
    }
  }

  lemma {:induction false} VisitSound(pubs: Publications, id: PublicationId, cur: PublicationId, visited: set<PublicationId>)
    requires cur in Universe(pubs, id) && cur !in visited
    ensures ReachedFrom(pubs, [cur], Visit(pubs, id, cur, visited).1)
    decreases |Universe(pubs, id) - visited|, 0
  {
    var seen := visited + {cur};
    assert Universe(pubs, id) - seen == (Universe(pubs, id) - visited) - {cur};
    var r := VisitList(pubs, id, Children(pubs, cur), seen);
    var tail := if cur != id then [cur] else [];
    assert Visit(pubs, id, cur, visited) == (r.0, r.1 + tail);
    VisitListSound(pubs, id, Children(pubs, cur), seen);
    ReachedThroughChild(pubs, cur, r.1, tail);
  }

  lemma {:induction false} VisitListSound(pubs: Publications, id: PublicationId, refs: seq<PublicationId>, visited: set<PublicationId>)
    requires forall q | q in refs :: q in Universe(pubs, id)
    ensures ReachedFrom(pubs, refs, VisitList(pubs, id, refs, visited).1)
    decreases |Universe(pubs, id) - visited|, 1, |refs|
  {
    if refs == [] {
    } else if refs[0] in visited {
      VisitListSound(pubs, id, refs[1..], visited);
      assert VisitList(pubs, id, refs, visited) == VisitList(pubs, id, refs[1..], visited);
      forall q | q in VisitList(pubs, id, refs, visited).1 ensures exists c, n: nat :: c in refs && ReachesIn(pubs, c, q, n) {
        var c, n: nat :| c in refs[1..] && ReachesIn(pubs, c, q, n);
        assert c in refs;
      }
    } else {
      var r1 := Visit(pubs, id, refs[0], visited);
      VisitSound(pubs, id, refs[0], visited);
      SubsetCardinality(Universe(pubs, id) - r1.0, Universe(pubs, id) - visited);
      var r2 := VisitList(pubs, id, refs[1..], r1.0);
      assert VisitList(pubs, id, refs, visited) == (r2.0, r1.1 + r2.1);
      VisitListSound(pubs, id, refs[1..], r1.0);
      ReachedFromBoth(pubs, refs, r1.1, r2.1);
    }
  }

  /** A set closed under references holds everything reachable from its members. */
  lemma {:induction false} ClosedHoldsReached(pubs: Publications, V: set<PublicationId>, a: PublicationId, b: PublicationId, n: nat)
    requires a in V
    requires forall x, c | x in V && c in Children(pubs, x) :: c in V
    requires ReachesIn(pubs, a, b, n)
    ensures b in V
    decreases n
  {
    if n > 0 {
      var c :| c in Children(pubs, a) && ReachesIn(pubs, c, b, n - 1);
      ClosedHoldsReached(pubs, V, c, b, n - 1);
    }
  }

  /** get_all_references lists exactly the publications other than `id` that
      `id` reaches through references. */
  lemma AllReferencesAreDescendants(s: Store, id: PublicationId)
    requires id in s.publications
    ensures forall q :: q in GetAllReferences(s, id) <==> q != id && Reaches(s.publications, id, q)
  {
    var pubs := s.publications;
    var V := Visit(pubs, id, id, {}).0;
    VisitWalks(pubs, id, id, {});
    VisitSound(pubs, id, id, {});
    forall q | q in GetAllReferences(s, id) ensures Reaches(pubs, id, q) {
      var c, n: nat :| c in [id] && ReachesIn(pubs, c, q, n);
    }
    forall q | q != id && Reaches(pubs, id, q) ensures q in GetAllReferences(s, id) {
      var n :| ReachesIn(pubs, id, q, n);
      ClosedHoldsReached(pubs, V, id, q, n);
    }
  }
}

=== FILE: orders.dfy ===
/** The comparison orders the store sorts by: identifiers, names (lexicographic by
    character code, as strings compare), (name, id) pairs and (year, id) pairs. */
module Orders {
  import opened Types
  import opened Sorting

  /** Strict lexicographic order on names; a proper prefix comes first. */
  predicate NameLess(a: Name, b: Name)
    decreases |a|
  {
    if |a| == 0 then |b| > 0
    else if |b| == 0 then false
    else if a[0] != b[0] then a[0] < b[0]
    else NameLess(a[1..], b[1..])
  }

  lemma {:induction false} NameLessIrreflexive(a: Name)
    ensures !NameLess(a, a)
    decreases |a|
  {
    if |a| > 0 {
      NameLessIrreflexive(a[1..]);
    }
  }

  lemma {:induction false} NameLessAsymmetric(a: Name, b: Name)
    ensures NameLess(a, b) ==> !NameLess(b, a)
    decreases |a|
  {
    if |a| > 0 && |b| > 0 && a[0] == b[0] {
      NameLessAsymmetric(a[1..], b[1..]);
    }
  }

  lemma {:induction false} NameLessTransitive(a: Name, b: Name, c: Name)
    ensures NameLess(a, b) && NameLess(b, c) ==> NameLess(a, c)
    decreases |a|
  {
    if |a| > 0 && |b| > 0 && |c| > 0 && a[0] == b[0] && b[0] == c[0] {
      NameLessTransitive(a[1..], b[1..], c[1..]);
    }
  }

  lemma {:induction false} NameLessTotal(a: Name, b: Name)
    ensures a == b || NameLess(a, b) || NameLess(b, a)
    decreases |a|
  {
    if |a| > 0 && |b| > 0 && a[0] == b[0] {
      NameLessTotal(a[1..], b[1..]);
      if a[1..] == b[1..] {
        assert a == [a[0]] + a[1..] && b == [b[0]] + b[1..];
      }
    }
  }

  predicate IntLe(a: int, b: int) {
    a <= b
  }

  /** The order of (name, id) pairs: by name, then by id. */
  predicate NameIdLe(p: (Name, AffiliationId), q: (Name, AffiliationId)) {
    NameLess(p.0, q.0) || (p.0 == q.0 && p.1 <= q.1)
  }

  /** The order of (year, id) pairs: by year, then by id. */
  predicate YearIdLe(p: (Year, PublicationId), q: (Year, PublicationId)) {
    p.0 < q.0 || (p.0 == q.0 && p.1 <= q.1)
  }

  lemma IntLeIsTotal()
    ensures TotalOrder(IntLe)
  {
  }

  lemma YearIdLeIsTotal()
    ensures TotalOrder(YearIdLe)
  {
  }

  lemma NameIdLeIsTotal()
    ensures TotalOrder(NameIdLe)
  {
    forall p: (Name, AffiliationId) ensures NameIdLe(p, p) {
      NameLessIrreflexive(p.0);
    }
    forall p: (Name, AffiliationId), q: (Name, AffiliationId) | NameIdLe(p, q) && NameIdLe(q, p)
      ensures p == q
    {
      NameLessAsymmetric(p.0, q.0);
      NameLessIrreflexive(p.0);
    }
    forall p: (Name, AffiliationId), q: (Name, AffiliationId), r: (Name, AffiliationId) | NameIdLe(p, q) && NameIdLe(q, r)
      ensures NameIdLe(p, r)
    {
      NameLessTransitive(p.0, q.0, r.0);
    }
    forall p: (Name, AffiliationId), q: (Name, AffiliationId) ensures NameIdLe(p, q) || NameIdLe(q, p) {
      NameLessTotal(p.0, q.0);
    }
  }
}

=== FILE: paths.dfy ===
/** Routes through the co-authorship graph: orienting a list of connections
    head to tail (getModifiedPath), a breadth-first search that returns a route
    with the fewest connections (get_path_with_least_affiliations), and a
    stack-based depth-first search that returns some route (get_any_path).

    Both searches keep the same state: the visited set, the parent that first
    discovered each visited affiliation, and the frontier still to expand. The
    proofs add a ghost depth per visited affiliation, the number of parent links
    back to the source. */
module Paths {
  import opened Types
  import opened Sorting
  import opened Buckets
  import opened Store

  // ---------------------------------------------------------------------------
  // Orienting a route.

  /** Each connection in turn is flipped unless its first endpoint is where the
      previous one ended (for the first one: `start`). */
  function OrientFrom(path: seq<Connection>, start: AffiliationId): (r: seq<Connection>)
    ensures |r| == |path|
    ensures forall i | 0 <= i < |r| :: r[i] == path[i] || r[i] == path[i].Swapped()
  {
    if path == [] then []
    else
      var c := if path[0].aff1 != start then path[0].Swapped() else path[0];
      [c] + OrientFrom(path[1..], c.aff2)
  }

  /** getModifiedPath: the same connections, same weights, each possibly flipped. */
  function GetModifiedPath(path: seq<Connection>, source: AffiliationId): (r: seq<Connection>)
    ensures |r| == |path|
    ensures forall i | 0 <= i < |r| :: r[i] == path[i] || r[i] == path[i].Swapped()
    ensures forall i | 0 <= i < |r| :: r[i].weight == path[i].weight && r[i].Joins(path[i].aff1, path[i].aff2)
  {
    OrientFrom(path, source)
  }

  /** The connections run head to tail from `start`. */
  predicate HeadToTail(path: seq<Connection>, start: AffiliationId) {
    && (path != [] ==> path[0].aff1 == start)
    && (forall i | 1 <= i < |path| :: path[i].aff1 == path[i - 1].aff2)
  }

  /** Connection i joins nodes[i] and nodes[i + 1]: the connections form a chain
      through `nodes`, each in either orientation. */
  predicate JoinsAlong(path: seq<Connection>, nodes: seq<AffiliationId>) {
    && |nodes| == |path| + 1
    && (forall i | 0 <= i < |path| :: path[i].Joins(nodes[i], nodes[i + 1]))
  }

  /** On a chain through `nodes`, orienting from its first node makes connection
      i run from nodes[i] to nodes[i + 1]. */
  lemma {:induction false} OrientAlong(path: seq<Connection>, nodes: seq<AffiliationId>)
    requires JoinsAlong(path, nodes)
    ensures var r := GetModifiedPath(path, nodes[0]);
      forall i | 0 <= i < |r| :: r[i].aff1 == nodes[i] && r[i].aff2 == nodes[i + 1]
    decreases |path|
  {
    if path != [] {
      var c := if path[0].aff1 != nodes[0] then path[0].Swapped() else path[0];
      assert c.aff1 == nodes[0] && c.aff2 == nodes[1];
      OrientAlong(path[1..], nodes[1..]);
      var r := GetModifiedPath(path, nodes[0]);
      assert r == [c] + OrientFrom(path[1..], nodes[1]);
      forall i | 1 <= i < |r| ensures r[i].aff1 == nodes[i] && r[i].aff2 == nodes[i + 1] {
        assert r[i] == OrientFrom(path[1..], nodes[1])[i - 1];
      }
    }
  }

  /** Orienting a chain through `nodes` from nodes[0] leaves it head to tail. */
  lemma OrientedChainIsHeadToTail(path: seq<Connection>, nodes: seq<AffiliationId>)
    requires JoinsAlong(path, nodes)
    ensures HeadToTail(GetModifiedPath(path, nodes[0]), nodes[0])
    ensures path != [] ==> GetModifiedPath(path, nodes[0])[|path| - 1].aff2 == nodes[|path|]
  {
    OrientAlong(path, nodes);
  }

  /** A route already running head to tail from `start` is left as it is. */
  lemma {:induction false} OrientKeepsHeadToTail(path: seq<Connection>, start: AffiliationId)
    requires HeadToTail(path, start)
    ensures GetModifiedPath(path, start) == path
    decreases |path|
  {
    if path != [] {
      assert HeadToTail(path[1..], path[0].aff2) by {
        forall i | 1 <= i < |path[1..]| ensures path[1..][i].aff1 == path[1..][i - 1].aff2 {
          assert path[1..][i] == path[i + 1] && path[1..][i - 1] == path[i];
        }
      }
      OrientKeepsHeadToTail(path[1..], path[0].aff2);
      assert path == [path[0]] + path[1..];
    }
  }

  /** On a chain, orienting twice gives what orienting once gives. */
  lemma OrientChainTwice(path: seq<Connection>, nodes: seq<AffiliationId>)
    requires JoinsAlong(path, nodes)
    ensures GetModifiedPath(GetModifiedPath(path, nodes[0]), nodes[0]) == GetModifiedPath(path, nodes[0])
  {
    OrientedChainIsHeadToTail(path, nodes);
    OrientKeepsHeadToTail(GetModifiedPath(path, nodes[0]), nodes[0]);
  }

  // ---------------------------------------------------------------------------
  // The graph the searches walk.

  /** The affiliations reached from `x` through its bucket, in bucket order. */
  function Neighbors(conns: Buckets, x: AffiliationId): (ns: seq<AffiliationId>)
    ensures |ns| == |Bucket(conns, x)|
    ensures forall i | 0 <= i < |ns| :: ns[i] == Bucket(conns, x)[i].Other(x)
  {
    var b := Bucket(conns, x);
    seq(|b|, i requires 0 <= i < |b| => b[i].Other(x))
  }

  /** A walk: a non-empty sequence of affiliations, each a neighbour of the one
      before. Its length in connections is |w| - 1. */
  ghost predicate IsWalk(conns: Buckets, w: seq<AffiliationId>) {
    |w| >= 1 && forall i | 0 <= i < |w| - 1 :: w[i + 1] in Neighbors(conns, w[i])
  }

  ghost predicate WalkBetween(conns: Buckets, w: seq<AffiliationId>, a: AffiliationId, b: AffiliationId) {
    IsWalk(conns, w) && w[0] == a && w[|w| - 1] == b
  }

  /** A connection as some bucket of its endpoints holds it. */
  ghost predicate Stored(conns: Buckets, c: Connection) {
    c in Bucket(conns, c.aff1) || c in Bucket(conns, c.aff2)
  }

  /** What a returned route is: non-empty, head to tail from `source` to
      `target`, each connection one the graph holds, possibly flipped. */
  ghost predicate RouteOf(conns: Buckets, path: seq<Connection>, source: AffiliationId, target: AffiliationId) {
    && path != []
    && HeadToTail(path, source)
    && path[|path| - 1].aff2 == target
    && (forall i | 0 <= i < |path| :: Stored(conns, path[i]) || Stored(conns, path[i].Swapped()))
  }

  /** Every affiliation a search from `source` can reach. */
  ghost function Nodes(conns: Buckets, source: AffiliationId): (u: set<AffiliationId>)
    ensures source in u
    ensures forall x, n | n in Neighbors(conns, x) :: n in u
  {
    var ends := set x, i | x in conns && 0 <= i < |conns[x]| :: conns[x][i].Other(x);
    assert forall x, n | n in Neighbors(conns, x) :: n in ends by {
      forall x, n | n in Neighbors(conns, x) ensures n in ends {
        var i :| 0 <= i < |Neighbors(conns, x)| && Neighbors(conns, x)[i] == n;
        assert conns[x][i].Other(x) == n;
      }
    }
    {source} + ends
  }

  // ---------------------------------------------------------------------------
  // One expansion step, shared by both searches.

  function Elems(s: seq<AffiliationId>): set<AffiliationId> {
    set x | x in s
  }

  /** The neighbours an expansion marks, in the order it marks them: each one
      not yet visited, once. */
  function Fresh(ns: seq<AffiliationId>, visited: set<AffiliationId>): (r: seq<AffiliationId>)
    ensures forall n :: n in r <==> n in ns && n !in visited
    ensures forall i, j | 0 <= i < j < |r| :: r[i] != r[j]
  {
    if ns == [] then []
    else if ns[0] in visited then Fresh(ns[1..], visited)
    else
      var rest := Fresh(ns[1..], visited + {ns[0]});
      assert forall n | n in ns :: n == ns[0] || n in ns[1..];
      [ns[0]] + rest
  }

  /** Records `current` as the parent of every newly marked neighbour. */
  function Adopt(parent: map<AffiliationId, AffiliationId>, found: seq<AffiliationId>, current: AffiliationId): map<AffiliationId, AffiliationId> {
    parent + map n | n in found :: current
  }

  ghost function Deepen(depth: map<AffiliationId, nat>, found: seq<AffiliationId>, d: nat): map<AffiliationId, nat> {
    depth + map n | n in found :: d
  }

  /** The parent map is a tree rooted at `source` over the visited set: every
      other visited affiliation was discovered from a visited parent whose
      depth is one less. */
  ghost predicate Tree(conns: Buckets, source: AffiliationId, visited: set<AffiliationId>,
                       parent: map<AffiliationId, AffiliationId>, depth: map<AffiliationId, nat>) {
    && source in visited
    && visited <= depth.Keys
    && depth[source] == 0
    && (forall x | x in visited && x != source ::
          x in parent && parent[x] in visited && x in Neighbors(conns, parent[x]) && depth[x] == depth[parent[x]] + 1)
  }

  /** Every visited affiliation outside the frontier has all its neighbours visited. */
  ghost predicate Closed(conns: Buckets, visited: set<AffiliationId>, frontier: set<AffiliationId>) {
    forall x, n | x in visited && x !in frontier && n in Neighbors(conns, x) :: n in visited
  }

  /** No walk from `source` reaches a visited affiliation in fewer connections
      than its depth. */
  ghost predicate MinimalDepths(conns: Buckets, source: AffiliationId, visited: set<AffiliationId>, depth: map<AffiliationId, nat>) {
    forall x, w | x in visited && x in depth && WalkBetween(conns, w, source, x) :: |w| - 1 >= depth[x]
  }

  lemma ExpandKeepsTree(conns: Buckets, source: AffiliationId, visited: set<AffiliationId>,
                        parent: map<AffiliationId, AffiliationId>, depth: map<AffiliationId, nat>, current: AffiliationId)
    requires Tree(conns, source, visited, parent, depth)
    requires current in visited
    ensures var found := Fresh(Neighbors(conns, current), visited);
      Tree(conns, source, visited + Elems(found), Adopt(parent, found, current), Deepen(depth, found, depth[current] + 1))
  {
  }

  lemma ExpandKeepsClosed(conns: Buckets, visited: set<AffiliationId>, frontier: set<AffiliationId>,
                          current: AffiliationId, next: set<AffiliationId>)
    requires Closed(conns, visited, frontier)
    requires (frontier - {current}) + Elems(Fresh(Neighbors(conns, current), visited)) <= next
    ensures Closed(conns, visited + Elems(Fresh(Neighbors(conns, current), visited)), next)
  {
  }

  /** The position of the first affiliation of `w` from `k` on that is not visited. */
  function FirstOutside(w: seq<AffiliationId>, visited: set<AffiliationId>, k: nat): (j: nat)
    requires k < |w| && w[|w| - 1] !in visited
    ensures k <= j < |w| && w[j] !in visited
    ensures forall i | k <= i < j :: w[i] in visited
    decreases |w| - k
  {
    if w[k] !in visited then k else FirstOutside(w, visited, k + 1)
  }

  /** A walk that leaves the visited set does so from the frontier, so it is
      longer than the depth of the shallowest frontier affiliation. */
  lemma Escape(conns: Buckets, source: AffiliationId, visited: set<AffiliationId>, depth: map<AffiliationId, nat>,
               frontier: set<AffiliationId>, d: nat, w: seq<AffiliationId>)
    requires source in visited && visited <= depth.Keys
    requires IsWalk(conns, w) && w[0] == source && w[|w| - 1] !in visited
    requires Closed(conns, visited, frontier)
    requires forall y | y in frontier :: y in visited && depth[y] >= d
    requires MinimalDepths(conns, source, visited, depth)
    ensures |w| - 1 >= d + 1
  {
    var j := FirstOutside(w, visited, 0);
    var y := w[j - 1];
    assert w[j] in Neighbors(conns, y);
    assert y in frontier;
    assert WalkBetween(conns, w[..j], source, y);
  }

  /** A closed visited set holds the end of every walk that starts inside it. */
  lemma {:induction false} NoWalkOut(conns: Buckets, visited: set<AffiliationId>, w: seq<AffiliationId>, k: nat)
    requires Closed(conns, visited, {})
    requires IsWalk(conns, w) && w[0] in visited && k < |w|
    ensures w[k] in visited
    decreases k
  {
    if k > 0 {
      NoWalkOut(conns, visited, w, k - 1);
      assert w[k] in Neighbors(conns, w[k - 1]);
    }
  }

  lemma NoRouteOut(conns: Buckets, visited: set<AffiliationId>, source: AffiliationId, target: AffiliationId)
    requires Closed(conns, visited, {}) && source in visited
    ensures forall w | WalkBetween(conns, w, source, target) :: target in visited
  {
    forall w | WalkBetween(conns, w, source, target) ensures target in visited {
      NoWalkOut(conns, visited, w, |w| - 1);
    }
  }

  lemma ExpandKeepsMinimal(conns: Buckets, source: AffiliationId, visited: set<AffiliationId>,
                           parent: map<AffiliationId, AffiliationId>, depth: map<AffiliationId, nat>,
                           frontier: set<AffiliationId>, current: AffiliationId)
    requires Tree(conns, source, visited, parent, depth)
    requires MinimalDepths(conns, source, visited, depth)
    requires Closed(conns, visited, frontier)
    requires current in visited
    requires forall y | y in frontier :: y in visited && depth[y] >= depth[current]
    ensures var found := Fresh(Neighbors(conns, current), visited);
      MinimalDepths(conns, source, visited + Elems(found), Deepen(depth, found, depth[current] + 1))
  {
    var found := Fresh(Neighbors(conns, current), visited);
    var depth' := Deepen(depth, found, depth[current] + 1);
    forall x, w | x in visited + Elems(found) && x in depth' && WalkBetween(conns, w, source, x)
      ensures |w| - 1 >= depth'[x]
    {
      if x in found {
        Escape(conns, source, visited, depth, frontier, depth[current], w);
      }
    }
  }

  // ---------------------------------------------------------------------------
  // Walking the parent links back from the target.

  /** Where the trace-back looks for the connection between a parent and its
      child: the breadth-first search looks in the parent's bucket, the
      depth-first search in the child's. */
  function TraceBucket(conns: Buckets, prev: AffiliationId, cur: AffiliationId, inChild: bool): seq<Connection> {
    if inChild then Bucket(conns, cur) else Bucket(conns, prev)
  }

  /** The bucket searched for every parent link holds a connection for it. */
  ghost predicate Linked(conns: Buckets, source: AffiliationId, visited: set<AffiliationId>,
                         parent: map<AffiliationId, AffiliationId>, inChild: bool) {
    forall x | x in visited && x != source && x in parent ::
      FirstJoin(TraceBucket(conns, parent[x], x, inChild), parent[x], x) < |TraceBucket(conns, parent[x], x, inChild)|
  }

  /** The bucket a neighbour was discovered through joins it to the parent;
      mirroring puts that connection in the child's bucket as well. */
  lemma TreeIsLinked(conns: Buckets, source: AffiliationId, visited: set<AffiliationId>,
                     parent: map<AffiliationId, AffiliationId>, depth: map<AffiliationId, nat>, inChild: bool)
    requires Tree(conns, source, visited, parent, depth)
    requires Owned(conns)
    requires inChild ==> Mirrored(conns)
    ensures Linked(conns, source, visited, parent, inChild)
  {
    forall x | x in visited && x != source && x in parent
      ensures FirstJoin(TraceBucket(conns, parent[x], x, inChild), parent[x], x) < |TraceBucket(conns, parent[x], x, inChild)|
    {
      var p := parent[x];
      var i :| 0 <= i < |Neighbors(conns, p)| && Neighbors(conns, p)[i] == x;
      var c := conns[p][i];
      assert c.Other(p) == x && c.Involves(p);
      assert c.Joins(p, x);
      if inChild {
        assert c in Bucket(conns, x);
        var k :| 0 <= k < |Bucket(conns, x)| && Bucket(conns, x)[k] == c;
        assert FirstJoin(Bucket(conns, x), p, x) <= k;
      } else {
        assert FirstJoin(Bucket(conns, p), p, x) <= i;
      }
    }
  }

  /** What the trace-back has built once it has climbed from `target` up to
      `cur`: one stored connection per link, joining consecutive nodes. */
  ghost predicate Traced(conns: Buckets, depth: map<AffiliationId, nat>, target: AffiliationId,
                         cur: AffiliationId, raw: seq<Connection>, nodes: seq<AffiliationId>) {
    && cur in depth && target in depth
    && |raw| + depth[cur] == depth[target]
    && JoinsAlong(raw, nodes) && nodes[0] == cur && nodes[|raw|] == target
    && (forall i | 0 <= i < |raw| :: Stored(conns, raw[i]))
  }

  /** One climb from `cur` to its parent finds a joining connection and extends
      what has been built by it. */
  lemma TraceStep(conns: Buckets, source: AffiliationId, visited: set<AffiliationId>,
                  parent: map<AffiliationId, AffiliationId>, depth: map<AffiliationId, nat>, inChild: bool,
                  target: AffiliationId, cur: AffiliationId, raw: seq<Connection>, nodes: seq<AffiliationId>)
    requires Tree(conns, source, visited, parent, depth)
    requires Linked(conns, source, visited, parent, inChild)
    requires cur in visited && cur != source
    requires Traced(conns, depth, target, cur, raw, nodes)
    ensures var prev := parent[cur];
      var b := TraceBucket(conns, prev, cur, inChild);
      var k := FirstJoin(b, prev, cur);
      k < |b| && Traced(conns, depth, target, prev, [b[k]] + raw, [prev] + nodes)
  {
    var prev := parent[cur];
    var b := TraceBucket(conns, prev, cur, inChild);
    var k := FirstJoin(b, prev, cur);
    assert b[k].Joins(prev, cur);
    assert Stored(conns, b[k]);
    var raw', nodes' := [b[k]] + raw, [prev] + nodes;
    forall i | 0 <= i < |raw'| ensures raw'[i].Joins(nodes'[i], nodes'[i + 1]) {
      if i > 0 {
        assert raw'[i] == raw[i - 1] && nodes'[i] == nodes[i - 1] && nodes'[i + 1] == nodes[i];
      }
    }
    forall i | 0 <= i < |raw'| ensures Stored(conns, raw'[i]) {
      if i > 0 {
        assert raw'[i] == raw[i - 1];
      }
    }
  }

  /** The trace-back loop: from `target` follow parent links to `source`,
      collecting for each link the first connection of the searched bucket that
      joins the two. The code appends and reverses at the end; prepending gives
      the same order. */
  method TraceBack(conns: Buckets, source: AffiliationId, target: AffiliationId,
                   parent: map<AffiliationId, AffiliationId>, inChild: bool,
                   ghost visited: set<AffiliationId>, ghost depth: map<AffiliationId, nat>)
    returns (raw: seq<Connection>, ghost nodes: seq<AffiliationId>)
    requires Tree(conns, source, visited, parent, depth)
    requires target in visited
    ensures target == source ==> raw == []
    ensures Linked(conns, source, visited, parent, inChild) ==>
      && |raw| == depth[target]
      && JoinsAlong(raw, nodes) && nodes[0] == source && nodes[|raw|] == target
      && (forall i | 0 <= i < |raw| :: Stored(conns, raw[i]))
  {
    var cur := target;
    raw := [];
    nodes := [target];
    ghost var linked := Linked(conns, source, visited, parent, inChild);
    while cur != source
      invariant cur in visited
      invariant depth[cur] <= depth[target]
      invariant cur == target ==> raw == []
      invariant raw != [] ==> depth[cur] < depth[target]
      invariant linked ==> Traced(conns, depth, target, cur, raw, nodes)
      decreases depth[cur]
    {
      var prev := parent[cur];
      var b := TraceBucket(conns, prev, cur, inChild);
      var k := FirstJoin(b, prev, cur);
      if linked {
        TraceStep(conns, source, visited, parent, depth, inChild, target, cur, raw, nodes);
      }
      if k < |b| {
        raw := [b[k]] + raw;
      }
      nodes := [prev] + nodes;
      cur := prev;
    }
  }

  // ---------------------------------------------------------------------------
  // The two searches.

  /** One expansion of `current`: its unvisited neighbours are marked, get
      `current` as their parent and join the rest of the frontier at the back. */
  function Step(conns: Buckets, rest: seq<AffiliationId>, current: AffiliationId,
                visited: set<AffiliationId>, parent: map<AffiliationId, AffiliationId>)
    : (seq<AffiliationId>, set<AffiliationId>, map<AffiliationId, AffiliationId>)
  {
    var found := Fresh(Neighbors(conns, current), visited);
    (rest + found, visited + Elems(found), Adopt(parent, found, current))
  }

  ghost function StepDepth(conns: Buckets, current: AffiliationId, visited: set<AffiliationId>, depth: map<AffiliationId, nat>): map<AffiliationId, nat>
    requires current in depth
  {
    Deepen(depth, Fresh(Neighbors(conns, current), visited), depth[current] + 1)
  }

  /** An expansion either marks a new affiliation of the universe or leaves the
      visited set as it was and only drops `current` from the frontier. */
  lemma ExpandProgress(conns: Buckets, source: AffiliationId, rest: seq<AffiliationId>, current: AffiliationId,
                       visited: set<AffiliationId>, parent: map<AffiliationId, AffiliationId>)
    requires visited <= Nodes(conns, source)
    ensures var n := Step(conns, rest, current, visited, parent);
      && n.1 <= Nodes(conns, source)
      && (|Nodes(conns, source) - n.1| < |Nodes(conns, source) - visited| || (n.1 == visited && n.0 == rest))
  {
    var found := Fresh(Neighbors(conns, current), visited);
    FoundInUniverse(conns, source, found, current, visited);
    if found != [] {
      MarkingShrinks(Nodes(conns, source), visited, found);
    } else {
      assert Elems(found) == {};
    }
  }

  lemma FoundInUniverse(conns: Buckets, source: AffiliationId, found: seq<AffiliationId>,
                        current: AffiliationId, visited: set<AffiliationId>)
    requires visited <= Nodes(conns, source)
    requires found == Fresh(Neighbors(conns, current), visited)
    ensures visited + Elems(found) <= Nodes(conns, source)
  {
  }

  lemma MarkingShrinks(universe: set<AffiliationId>, visited: set<AffiliationId>, found: seq<AffiliationId>)
    requires visited + Elems(found) <= universe
    requires found != [] && found[0] !in visited
    ensures |universe - (visited + Elems(found))| < |universe - visited|
  {
    assert universe - (visited + Elems(found)) <= (universe - visited) - {found[0]};
    SubsetCardinality(universe - (visited + Elems(found)), (universe - visited) - {found[0]});
  }

  /** The new frontier holds only visited affiliations and loses only `current`. */
  lemma FrontierStep(visited: set<AffiliationId>, frontier: seq<AffiliationId>, rest: seq<AffiliationId>,
                     current: AffiliationId, found: seq<AffiliationId>)
    requires forall k | 0 <= k < |frontier| :: frontier[k] in visited
    requires forall x | x in frontier :: x == current || x in rest
    requires forall x | x in rest :: x in frontier
    ensures forall k | 0 <= k < |rest + found| :: (rest + found)[k] in visited + Elems(found)
    ensures Elems(frontier) - {current} <= Elems(rest + found)
  {
    forall k | 0 <= k < |rest + found| ensures (rest + found)[k] in visited + Elems(found) {
      if k < |rest| {
        assert (rest + found)[k] == rest[k];
        assert rest[k] in frontier;
      } else {
        assert (rest + found)[k] == found[k - |rest|];
      }
    }
    forall x | x in Elems(frontier) - {current} ensures x in Elems(rest + found) {
      var i :| 0 <= i < |rest| && rest[i] == x;
      assert (rest + found)[i] == x;
    }
  }

  /** What holds each time either search tests its frontier: the parent tree
      over the visited affiliations of the universe, a frontier of visited
      affiliations, and every visited affiliation outside the frontier expanded. */
  ghost predicate Searching(conns: Buckets, source: AffiliationId,
                            frontier: seq<AffiliationId>, visited: set<AffiliationId>,
                            parent: map<AffiliationId, AffiliationId>, depth: map<AffiliationId, nat>) {
    && Tree(conns, source, visited, parent, depth)
    && visited <= Nodes(conns, source)
    && (forall k | 0 <= k < |frontier| :: frontier[k] in visited)
    && Closed(conns, visited, Elems(frontier))
  }

  /** Expanding a member of the frontier and putting what it finds next to the
      rest keeps Searching, whatever end of the frontier it was taken from. */
  lemma ExpandKeepsSearching(conns: Buckets, source: AffiliationId,
                             frontier: seq<AffiliationId>, rest: seq<AffiliationId>, current: AffiliationId,
                             visited: set<AffiliationId>, parent: map<AffiliationId, AffiliationId>,
                             depth: map<AffiliationId, nat>)
    requires Searching(conns, source, frontier, visited, parent, depth)
    requires current in frontier
    requires forall x | x in frontier :: x == current || x in rest
    requires forall x | x in rest :: x in frontier
    ensures var n := Step(conns, rest, current, visited, parent);
      Searching(conns, source, n.0, n.1, n.2, StepDepth(conns, current, visited, depth))
  {
    var found := Fresh(Neighbors(conns, current), visited);
    assert Step(conns, rest, current, visited, parent) == (rest + found, visited + Elems(found), Adopt(parent, found, current));
    FoundInUniverse(conns, source, found, current, visited);
    ExpandKeepsTree(conns, source, visited, parent, depth, current);
    FrontierStep(visited, frontier, rest, current, found);
    ExpandKeepsClosed(conns, visited, Elems(frontier), current, Elems(rest + found));
  }

  /** The queue holds affiliations with depths, in non-decreasing depth and at
      most one apart. */
  ghost predicate QueueOrdered(queue: seq<AffiliationId>, depth: map<AffiliationId, nat>) {
    && (forall k | 0 <= k < |queue| :: queue[k] in depth)
    && (forall k1, k2 | 0 <= k1 < k2 < |queue| :: depth[queue[k1]] <= depth[queue[k2]])
    && (forall k | 0 <= k < |queue| :: depth[queue[k]] <= depth[queue[0]] + 1)
  }

  /** What holds each time the breadth-first loop tests its queue: Searching;
      the queue ordered by depth; the depths are shortest; and the target, once
      visited, is still queued. */
  ghost predicate BfsState(conns: Buckets, source: AffiliationId, target: AffiliationId,
                           queue: seq<AffiliationId>, visited: set<AffiliationId>,
                           parent: map<AffiliationId, AffiliationId>, depth: map<AffiliationId, nat>) {
    && Searching(conns, source, queue, visited, parent, depth)
    && QueueOrdered(queue, depth)
    && MinimalDepths(conns, source, visited, depth)
    && (target in visited ==> target in queue)
  }

  /** Dequeuing the front and enqueuing what it finds one level deeper keeps the
      queue ordered. */
  lemma BfsQueueStep(conns: Buckets, queue: seq<AffiliationId>, visited: set<AffiliationId>,
                     parent: map<AffiliationId, AffiliationId>, depth: map<AffiliationId, nat>)
    requires queue != [] && QueueOrdered(queue, depth)
    requires forall k | 0 <= k < |queue| :: queue[k] in visited
    ensures QueueOrdered(Step(conns, queue[1..], queue[0], visited, parent).0, StepDepth(conns, queue[0], visited, depth))
  {
    var found := Fresh(Neighbors(conns, queue[0]), visited);
    assert Step(conns, queue[1..], queue[0], visited, parent).0 == queue[1..] + found;
    assert StepDepth(conns, queue[0], visited, depth) == Deepen(depth, found, depth[queue[0]] + 1);
    EnqueueLevels(queue, found, depth);
    EnqueueOrdered(queue, found, depth);
  }

  /** After the step every queued depth lies between the old front's and one more. */
  lemma EnqueueLevels(queue: seq<AffiliationId>, found: seq<AffiliationId>, depth: map<AffiliationId, nat>)
    requires queue != [] && QueueOrdered(queue, depth)
    requires forall k | 0 <= k < |queue| :: queue[k] !in found
    ensures var d := depth[queue[0]];
      var depth' := Deepen(depth, found, d + 1);
      forall k | 0 <= k < |queue[1..] + found| ::
        (queue[1..] + found)[k] in depth' && d <= depth'[(queue[1..] + found)[k]] <= d + 1
  {
    var d := depth[queue[0]];
    var depth' := Deepen(depth, found, d + 1);
    var queue' := queue[1..] + found;
    forall k | 0 <= k < |queue'| ensures queue'[k] in depth' && d <= depth'[queue'[k]] <= d + 1 {
      if k < |queue| - 1 {
        assert queue'[k] == queue[k + 1];
        assert queue[k + 1] !in found;
      } else {
        assert queue'[k] == found[k - |queue| + 1];
      }
    }
  }

  lemma EnqueueOrdered(queue: seq<AffiliationId>, found: seq<AffiliationId>, depth: map<AffiliationId, nat>)
    requires queue != [] && QueueOrdered(queue, depth)
    requires forall k | 0 <= k < |queue| :: queue[k] !in found
    requires var d := depth[queue[0]];
      var depth' := Deepen(depth, found, d + 1);
      forall k | 0 <= k < |queue[1..] + found| ::
        (queue[1..] + found)[k] in depth' && d <= depth'[(queue[1..] + found)[k]] <= d + 1
    ensures QueueOrdered(queue[1..] + found, Deepen(depth, found, depth[queue[0]] + 1))
  {
    var d := depth[queue[0]];
    var depth' := Deepen(depth, found, d + 1);
    var queue' := queue[1..] + found;
    forall k1, k2 | 0 <= k1 < k2 < |queue'| ensures depth'[queue'[k1]] <= depth'[queue'[k2]] {
      if k2 < |queue| - 1 {
        assert queue'[k1] == queue[k1 + 1] && queue'[k2] == queue[k2 + 1];
        assert queue[k1 + 1] !in found && queue[k2 + 1] !in found;
      } else {
        assert queue'[k2] == found[k2 - |queue| + 1];
      }
    }
  }

  /** A target visited before, or found now, is in the new queue unless it was
      the front. */
  lemma BfsTargetStep(conns: Buckets, target: AffiliationId, queue: seq<AffiliationId>,
                      visited: set<AffiliationId>, parent: map<AffiliationId, AffiliationId>)
    requires queue != [] && queue[0] != target
    requires target in visited ==> target in queue
    ensures var n := Step(conns, queue[1..], queue[0], visited, parent);
      target in n.1 ==> target in n.0
  {
    var found := Fresh(Neighbors(conns, queue[0]), visited);
    if target in visited {
      assert queue == [queue[0]] + queue[1..];
      assert target in queue[1..];
    }
  }

  /** One iteration of the breadth-first loop that does not dequeue the target. */
  lemma BfsStep(conns: Buckets, source: AffiliationId, target: AffiliationId,
                queue: seq<AffiliationId>, visited: set<AffiliationId>,
                parent: map<AffiliationId, AffiliationId>, depth: map<AffiliationId, nat>)
    requires BfsState(conns, source, target, queue, visited, parent, depth)
    requires queue != [] && queue[0] != target
    ensures var n := Step(conns, queue[1..], queue[0], visited, parent);
      BfsState(conns, source, target, n.0, n.1, n.2, StepDepth(conns, queue[0], visited, depth))
  {
    var current := queue[0];
    assert forall x | x in queue :: x == current || x in queue[1..] by {
      assert queue == [current] + queue[1..];
    }
    ExpandKeepsSearching(conns, source, queue, queue[1..], current, visited, parent, depth);
    ExpandKeepsMinimal(conns, source, visited, parent, depth, Elems(queue), current);
    BfsQueueStep(conns, queue, visited, parent, depth);
    BfsTargetStep(conns, target, queue, visited, parent);
  }

  /** The breadth-first loop: dequeue from the front; stop with the target at
      the front, or with an empty queue; otherwise mark and enqueue the
      unvisited neighbours with the dequeued affiliation as their parent.
      Returns the final queue, visited set and parent map. */
  function BfsLoop(conns: Buckets, source: AffiliationId, target: AffiliationId,
                   queue: seq<AffiliationId>, visited: set<AffiliationId>, parent: map<AffiliationId, AffiliationId>)
    : (r: (seq<AffiliationId>, set<AffiliationId>, map<AffiliationId, AffiliationId>))
    requires visited <= Nodes(conns, source)
    ensures r.0 == [] || r.0[0] == target
    decreases |Nodes(conns, source) - visited|, |queue|
  {
    if queue == [] || queue[0] == target then (queue, visited, parent)
    else
      var n := Step(conns, queue[1..], queue[0], visited, parent);
      ExpandProgress(conns, source, queue[1..], queue[0], visited, parent);
      BfsLoop(conns, source, target, n.0, n.1, n.2)
  }

  /** The loop keeps BfsState; the returned depths are those of the final state. */
  lemma {:induction false} BfsRuns(conns: Buckets, source: AffiliationId, target: AffiliationId,
                                   queue: seq<AffiliationId>, visited: set<AffiliationId>,
                                   parent: map<AffiliationId, AffiliationId>, depth: map<AffiliationId, nat>)
    returns (depth': map<AffiliationId, nat>)
    requires BfsState(conns, source, target, queue, visited, parent, depth)
    ensures var r := BfsLoop(conns, source, target, queue, visited, parent);
      BfsState(conns, source, target, r.0, r.1, r.2, depth')
    decreases |Nodes(conns, source) - visited|, |queue|
  {
    if queue == [] || queue[0] == target {
      depth' := depth;
    } else {
      var n := Step(conns, queue[1..], queue[0], visited, parent);
      ExpandProgress(conns, source, queue[1..], queue[0], visited, parent);
      BfsStep(conns, source, target, queue, visited, parent, depth);
      depth' := BfsRuns(conns, source, target, n.0, n.1, n.2, StepDepth(conns, queue[0], visited, depth));
    }
  }

  lemma SearchStart(conns: Buckets, source: AffiliationId, target: AffiliationId)
    ensures Tree(conns, source, {source}, map[], map[source := 0])
    ensures BfsState(conns, source, target, [source], {source}, map[], map[source := 0])
    ensures Searching(conns, source, [source], {source}, map[], map[source := 0])
  {
    var depth: map<AffiliationId, nat> := map[source := 0];
    forall x, w | x in {source} && x in depth && WalkBetween(conns, w, source, x) ensures |w| - 1 >= depth[x] {
    }
  }

  /** get_path_with_least_affiliations: breadth-first search from `source`
      with a FIFO queue; when `target` is dequeued, trace the parents back and
      orient the result. Empty when either endpoint is unknown, when they are
      the same, and when `target` cannot be reached. */
  method GetPathWithLeastAffiliations(s: Store, source: AffiliationId, target: AffiliationId) returns (path: seq<Connection>)
    ensures source !in s.affiliations || target !in s.affiliations || source == target ==> path == []
    ensures Owned(s.connections) && path != [] ==> RouteOf(s.connections, path, source, target)
    ensures Owned(s.connections) && path != [] ==>
      forall w | WalkBetween(s.connections, w, source, target) :: |path| <= |w| - 1
    ensures Owned(s.connections) && source in s.affiliations && target in s.affiliations && source != target && path == [] ==>
      forall w :: !WalkBetween(s.connections, w, source, target)
  {
    if source !in s.affiliations || target !in s.affiliations {
      return [];
    }
    var conns := s.connections;
    SearchStart(conns, source, target);
    var r := BfsLoop(conns, source, target, [source], {source}, map[]);
    ghost var depth := BfsRuns(conns, source, target, [source], {source}, map[], map[source := 0]);
    if r.0 == [] {
      NoRouteOut(conns, r.1, source, target);
      return [];
    }
    path := BfsFinish(conns, source, target, r.0, r.1, r.2, depth);
  }

  /** The target has been dequeued: trace back and orient. */
  method BfsFinish(conns: Buckets, source: AffiliationId, target: AffiliationId,
                   queue: seq<AffiliationId>, visited: set<AffiliationId>,
                   parent: map<AffiliationId, AffiliationId>, ghost depth: map<AffiliationId, nat>)
    returns (path: seq<Connection>)
    requires BfsState(conns, source, target, queue, visited, parent, depth)
    requires queue != [] && queue[0] == target
    ensures source == target ==> path == []
    ensures Owned(conns) ==> (path != [] <==> source != target)
    ensures Owned(conns) && path != [] ==> RouteOf(conns, path, source, target)
    ensures Owned(conns) ==> forall w | WalkBetween(conns, w, source, target) :: |path| <= |w| - 1
  {
    if Owned(conns) {
      TreeIsLinked(conns, source, visited, parent, depth, false);
    }
    var raw;
    ghost var nodes;
    raw, nodes := TraceBack(conns, source, target, parent, false, visited, depth);
    path := GetModifiedPath(raw, source);
    if Owned(conns) && raw != [] {
      OrientedChainIsHeadToTail(raw, nodes);
      OrientAlong(raw, nodes);
    }
  }

  /** One iteration of the depth-first loop: pop the top, push what it finds. */
  lemma DfsStep(conns: Buckets, source: AffiliationId,
                stack: seq<AffiliationId>, visited: set<AffiliationId>,
                parent: map<AffiliationId, AffiliationId>, depth: map<AffiliationId, nat>)
    requires Searching(conns, source, stack, visited, parent, depth)
    requires stack != []
    ensures var n := Step(conns, stack[..|stack| - 1], stack[|stack| - 1], visited, parent);
      Searching(conns, source, n.0, n.1, n.2, StepDepth(conns, stack[|stack| - 1], visited, depth))
  {
    var current := stack[|stack| - 1];
    var rest := stack[..|stack| - 1];
    assert forall x | x in stack :: x == current || x in rest by {
      assert stack == rest + [current];
    }
    ExpandKeepsSearching(conns, source, stack, rest, current, visited, parent, depth);
  }

  /** The depth-first loop: pop the top of the stack, mark and push its
      unvisited neighbours with it as their parent, until the stack is empty.
      Returns the visited set and parent map. */
  function DfsLoop(conns: Buckets, source: AffiliationId,
                   stack: seq<AffiliationId>, visited: set<AffiliationId>, parent: map<AffiliationId, AffiliationId>)
    : (r: (set<AffiliationId>, map<AffiliationId, AffiliationId>))
    requires visited <= Nodes(conns, source)
    decreases |Nodes(conns, source) - visited|, |stack|
  {
    if stack == [] then (visited, parent)
    else
      var n := Step(conns, stack[..|stack| - 1], stack[|stack| - 1], visited, parent);
      ExpandProgress(conns, source, stack[..|stack| - 1], stack[|stack| - 1], visited, parent);
      DfsLoop(conns, source, n.0, n.1, n.2)
  }

  lemma {:induction false} DfsRuns(conns: Buckets, source: AffiliationId,
                                   stack: seq<AffiliationId>, visited: set<AffiliationId>,
                                   parent: map<AffiliationId, AffiliationId>, depth: map<AffiliationId, nat>)
    returns (depth': map<AffiliationId, nat>)
    requires Searching(conns, source, stack, visited, parent, depth)
    ensures var r := DfsLoop(conns, source, stack, visited, parent);
      Searching(conns, source, [], r.0, r.1, depth')
    decreases |Nodes(conns, source) - visited|, |stack|
  {
    if stack == [] {
      depth' := depth;
    } else {
      var n := Step(conns, stack[..|stack| - 1], stack[|stack| - 1], visited, parent);
      ExpandProgress(conns, source, stack[..|stack| - 1], stack[|stack| - 1], visited, parent);
      DfsStep(conns, source, stack, visited, parent, depth);
      depth' := DfsRuns(conns, source, n.0, n.1, n.2, StepDepth(conns, stack[|stack| - 1], visited, depth));
    }
  }

  /** get_any_path: depth-first search from `source` with a stack, then the
      parent trace-back (searching the child's bucket) and orientation. Empty
      when `target` is `source` or was not reached. The code does not check
      that the endpoints are stored affiliations. */
  method GetAnyPath(s: Store, source: AffiliationId, target: AffiliationId) returns (path: seq<Connection>)
    ensures source == target ==> path == []
    ensures Owned(s.connections) && Mirrored(s.connections) && path != [] ==> RouteOf(s.connections, path, source, target)
    ensures Owned(s.connections) && Mirrored(s.connections) && source != target && path == [] ==>
      forall w :: !WalkBetween(s.connections, w, source, target)
  {
    var conns := s.connections;
    SearchStart(conns, source, target);
    var r := DfsLoop(conns, source, [source], {source}, map[]);
    ghost var depth := DfsRuns(conns, source, [source], {source}, map[], map[source := 0]);
    path := DfsFinish(conns, source, target, r.0, r.1, depth);
  }

  /** The stack is empty: trace back from the target if it was reached. */
  method DfsFinish(conns: Buckets, source: AffiliationId, target: AffiliationId,
                   visited: set<AffiliationId>, parent: map<AffiliationId, AffiliationId>, ghost depth: map<AffiliationId, nat>)
    returns (path: seq<Connection>)
    requires Searching(conns, source, [], visited, parent, depth)
    ensures source == target ==> path == []
    ensures Owned(conns) && Mirrored(conns) && path != [] ==> RouteOf(conns, path, source, target)
    ensures Owned(conns) && Mirrored(conns) && source != target && path == [] ==>
      forall w :: !WalkBetween(conns, w, source, target)
  {
    NoRouteOut(conns, visited, source, target);
    if target !in visited {
      return [];
    }
    if Owned(conns) && Mirrored(conns) {
      TreeIsLinked(conns, source, visited, parent, depth, true);
    }
    var raw;
    ghost var nodes;
    raw, nodes := TraceBack(conns, source, target, parent, true, visited, depth);
    path := GetModifiedPath(raw, source);
    if Owned(conns) && Mirrored(conns) && raw != [] {
      OrientedChainIsHeadToTail(raw, nodes);
      OrientAlong(raw, nodes);
    }
  }
}

=== FILE: sorting.dfy ===
/** Sorting by a total order, used wherever the store sorts a sequence. Because a
    sorted permutation under a total order is unique (SortedUnique), the result
    does not depend on which sorting algorithm produced it. */
module Sorting {

  ghost predicate TotalOrder<T(!new)>(le: (T, T) -> bool) {
    && (forall a :: le(a, a))
    && (forall a, b :: le(a, b) && le(b, a) ==> a == b)
    && (forall a, b, c :: le(a, b) && le(b, c) ==> le(a, c))
    && (forall a, b :: le(a, b) || le(b, a))
  }

  predicate SortedBy<T>(le: (T, T) -> bool, s: seq<T>) {
    forall i, j | 0 <= i < j < |s| :: le(s[i], s[j])
  }

  /** When `x` goes after the head, the head stays below everything that follows. */
  lemma InsertAfterHead<T(!new)>(x: T, s: seq<T>, rest: seq<T>, le: (T, T) -> bool)
    requires TotalOrder(le)
    requires SortedBy(le, s) && s != [] && !le(x, s[0])
    requires SortedBy(le, rest) && multiset(rest) == multiset(s[1..]) + multiset{x}
    ensures SortedBy(le, [s[0]] + rest)
  {
    forall y | y in rest ensures le(s[0], y) {
      assert y in multiset(rest);
      if y != x {
        assert y in multiset(s[1..]);
        assert y in s[1..];
      }
    }
    var r := [s[0]] + rest;
    forall i, j | 0 <= i < j < |r| ensures le(r[i], r[j]) {
      if i == 0 {
        assert r[j] == rest[j - 1] && r[j] in rest;
      } else {
        assert r[i] == rest[i - 1] && r[j] == rest[j - 1];
      }
    }
  }

  /** Inserts `x` into the sorted sequence `s`. */
  function Insert<T(!new)>(x: T, s: seq<T>, le: (T, T) -> bool): (r: seq<T>)
    requires TotalOrder(le)
    requires SortedBy(le, s)
    ensures SortedBy(le, r)
    ensures multiset(r) == multiset(s) + multiset{x}
  {
    if s == [] then [x]
    else if le(x, s[0]) then [x] + s
    else
      var rest := Insert(x, s[1..], le);
      assert s == [s[0]] + s[1..];
      InsertAfterHead(x, s, rest, le);
      [s[0]] + rest
  }

  function Sort<T(!new)>(s: seq<T>, le: (T, T) -> bool): (r: seq<T>)
    requires TotalOrder(le)
    ensures SortedBy(le, r)
    ensures multiset(r) == multiset(s)
  {
    if s == [] then []
    else
      assert s == [s[0]] + s[1..];
      Insert(s[0], Sort(s[1..], le), le)
  }

  /** Two sorted permutations of each other are equal. */
  lemma {:induction false} SortedUnique<T(!new)>(a: seq<T>, b: seq<T>, le: (T, T) -> bool)
    requires TotalOrder(le)
    requires SortedBy(le, a) && SortedBy(le, b)
    requires multiset(a) == multiset(b)
    ensures a == b
    decreases |a|
  {
    if a == [] {
      assert |multiset(b)| == 0;
    } else {
      assert |b| == |multiset(b)| == |a| > 0;
      assert a[0] in multiset(b);
      assert b[0] in multiset(a);
      assert le(b[0], a[0]) by {
        var k :| 0 <= k < |b| && b[k] == a[0];
      }
      assert le(a[0], b[0]) by {
        var k :| 0 <= k < |a| && a[k] == b[0];
      }
      assert a[0] == b[0];
      assert a == [a[0]] + a[1..];
      assert b == [b[0]] + b[1..];
      assert multiset(a) == multiset{a[0]} + multiset(a[1..]);
      assert multiset(b) == multiset{b[0]} + multiset(b[1..]);
      assert multiset(a[1..]) == multiset(a) - multiset{a[0]};
      assert multiset(b[1..]) == multiset(b) - multiset{b[0]};
      SortedUnique(a[1..], b[1..], le);
    }
  }

  /** A subset is no larger than its superset. */
  lemma SubsetCardinality(a: set<int>, b: set<int>)
    requires a <= b
    ensures |a| <= |b|
  {
    assert b == a + (b - a);
  }

  /** A set is empty or has an element. */
  lemma EmptyOrInhabited(s: set<int>)
    ensures s == {} || exists x :: x in s
  {
    if forall x :: x !in s {
      assert s == {};
    }
  }

  lemma {:induction false} MinimumExists(s: set<int>)
    requires s != {}
    ensures exists m :: m in s && forall y | y in s :: m <= y
    decreases s
  {
    EmptyOrInhabited(s);
    var x :| x in s;
    var t := s - {x};
    if t == {} {
      forall y | y in s ensures x <= y {
        assert y !in t;
      }
    } else {
      MinimumExists(t);
      var m :| m in t && forall y | y in t :: m <= y;
      var least := if x < m then x else m;
      forall y | y in s ensures least <= y {
        if y != x {
          assert y in t;
        }
      }
      assert least in s;
    }
  }

  /** The elements of a finite set of identifiers in ascending order: the order in
      which an ordered map hands out its keys. */
  function AscendingElements(s: set<int>): (r: seq<int>)
    ensures forall x :: x in r <==> x in s
    ensures forall i, j | 0 <= i < j < |r| :: r[i] < r[j]
    decreases s
  {
    if s == {} then []
    else
      MinimumExists(s);
      var m :| m in s && forall y | y in s :: m <= y;
      var rest := AscendingElements(s - {m});
      PrependSmallest(m, rest);
      [m] + rest
  }

  lemma PrependSmallest(m: int, rest: seq<int>)
    requires forall i | 0 <= i < |rest| :: m < rest[i]
    requires forall i, j | 0 <= i < j < |rest| :: rest[i] < rest[j]
    ensures forall i, j | 0 <= i < j < |[m] + rest| :: ([m] + rest)[i] < ([m] + rest)[j]
  {
    var r := [m] + rest;
    forall i, j | 0 <= i < j < |r| ensures r[i] < r[j] {
      assert r[j] == rest[j - 1];
      if i > 0 {
        assert r[i] == rest[i - 1];
      }
    }
  }
}

=== FILE: store.dfy ===
/** The store of affiliations and publications with its two indices (names for
    the alphabetical listing, coordinates for lookup) and the connection graph,
    and every operation on it that reads or writes those maps directly. Each
    operation takes a state and returns the next one; the ones that can fail
    return an Update carrying the source's boolean result. */
module Store {
  import opened Types
  import opened Sorting
  import opened Orders
  import opened Weights
  import opened Buckets

  datatype Store = Store(
    affiliations: map<AffiliationId, Affiliation>,
    publications: map<PublicationId, Publication>,
    /** (name, id) per affiliation, in insertion order until first sorted. */
    nameIndex: seq<(Name, AffiliationId)>,
    /** Whether nameIndex is known to be sorted; adding an affiliation clears it. */
    nameIndexSorted: bool,
    coordIndex: map<Coord, AffiliationId>,
    connections: Buckets)

  /** The state after a mutating operation and the operation's result flag. */
  datatype Update = Update(store: Store, ok: bool)

  /** The state after construction and after clear_all. */
  const Empty: Store := Store(map[], map[], [], false, map[], map[])

  // ---------------------------------------------------------------------------
  // The invariant every operation keeps.

  /** The entries the name index holds: one (name, id) pair per affiliation. */
  ghost function NameEntries(affs: map<AffiliationId, Affiliation>): (r: set<(Name, AffiliationId)>)
    ensures forall e :: e in r <==> e.1 in affs && affs[e.1].name == e.0
  {
    var r := set a | a in affs :: (affs[a].name, a);
    forall e: (Name, AffiliationId) | e.1 in affs && affs[e.1].name == e.0 ensures e in r {
      var a := e.1;
      assert (affs[a].name, a) in r;
    }
    r
  }

  ghost predicate NameIndexValid(s: Store) {
    && multiset(s.nameIndex) == multiset(NameEntries(s.affiliations))
    && (s.nameIndexSorted ==> SortedBy(NameIdLe, s.nameIndex))
  }

  /** Every coordinate entry names a stored affiliation located there. Several
      affiliations may share a coordinate; only the last one added is indexed. */
  ghost predicate CoordIndexValid(s: Store) {
    forall c | c in s.coordIndex ::
      s.coordIndex[c] in s.affiliations && s.affiliations[s.coordIndex[c]].coord == c
  }

  /** A publication an affiliation lists exists and lists the affiliation back. */
  ghost predicate ProducedValid(s: Store) {
    forall a, p | a in s.affiliations && p in s.affiliations[a].publications ::
      p in s.publications && a in s.publications[p].affiliations
  }

  /** References point at stored publications, and a publication's parent is
      stored and lists it among its references. */
  ghost predicate CitationsValid(s: Store) {
    forall p | p in s.publications ::
      && (forall q | q in s.publications[p].references :: q in s.publications)
      && var parent := s.publications[p].referencedBy;
         parent == NoPublication || (parent in s.publications && p in s.publications[parent].references)
  }

  ghost predicate Valid(s: Store) {
    && NameIndexValid(s)
    && CoordIndexValid(s)
    && ProducedValid(s)
    && CitationsValid(s)
    && Consistent(s.connections)
  }

  // ---------------------------------------------------------------------------
  // Helpers on sequences.

  /** `n` copies of `x`. */
  function Repeat(x: int, n: nat): (r: seq<int>)
    ensures |r| == n
    ensures forall i | 0 <= i < n :: r[i] == x
  {
    seq(n, _ => x)
  }

  /** `s` without any occurrence of `x`, the rest in order. */
  function Strip(s: seq<int>, x: int): (r: seq<int>)
    ensures multiset(r) == multiset(s)[x := 0]
    ensures forall y :: y in r <==> y in s && y != x
    ensures x !in s ==> r == s
  {
    if s == [] then []
    else
      assert s == [s[0]] + s[1..];
      (if s[0] == x then [] else [s[0]]) + Strip(s[1..], x)
  }

  /** The ids of a name index, in its order. */
  function Ids(ni: seq<(Name, AffiliationId)>): (r: seq<AffiliationId>)
    ensures |r| == |ni|
    ensures forall i | 0 <= i < |ni| :: r[i] == ni[i].1
  {
    seq(|ni|, i requires 0 <= i < |ni| => ni[i].1)
  }

  /** Position of the first entry of the name index for `id`, or |ni|. */
  function FirstWithId(ni: seq<(Name, AffiliationId)>, id: AffiliationId): (k: nat)
    ensures k <= |ni|
    ensures k < |ni| ==> ni[k].1 == id
    ensures forall i | 0 <= i < k :: ni[i].1 != id
  {
    if ni == [] then 0
    else if ni[0].1 == id then 0
    else 1 + FirstWithId(ni[1..], id)
  }

  // ---------------------------------------------------------------------------
  // Affiliations.

  function GetAffiliationCount(s: Store): (n: nat)
    ensures n == |s.affiliations.Keys|
  {
    |s.affiliations|
  }

  /** clear_all: every container emptied, the sorted flag cleared. */
  function ClearAll(s: Store): (r: Store)
    ensures Valid(r)
    ensures GetAffiliationCount(r) == 0 && r.publications == map[]
    ensures r.nameIndex == [] && r.coordIndex == map[]
    ensures r.connections == map[] && GetAllConnections(r) == []
  {
    Empty
  }

  /** get_all_affiliations: the ids in the map's ascending key order. */
  function GetAllAffiliations(s: Store): (ids: seq<AffiliationId>)
    ensures forall a :: a in ids <==> a in s.affiliations
    ensures forall i, j | 0 <= i < j < |ids| :: ids[i] < ids[j]
  {
    AscendingElements(s.affiliations.Keys)
  }

  /** add_affiliation: refused when the id exists; otherwise the affiliation is
      stored with no publications, appended to the name index (which is no longer
      known to be sorted) and indexed under its coordinate, replacing whichever
      affiliation was indexed there before. */
  function AddAffiliation(s: Store, id: AffiliationId, name: Name, xy: Coord): (u: Update)
    ensures u.ok <==> id !in s.affiliations
    ensures !u.ok ==> u.store == s
    ensures u.ok ==> u.store.affiliations.Keys == s.affiliations.Keys + {id}
    ensures u.ok ==> u.store.affiliations[id] == Affiliation(name, xy, [])
    ensures u.ok ==> forall a | a in s.affiliations :: u.store.affiliations[a] == s.affiliations[a]
    ensures u.ok ==> u.store.publications == s.publications && u.store.connections == s.connections
  {
    if id in s.affiliations then Update(s, false)
    else
      Update(s.(affiliations := s.affiliations[id := Affiliation(name, xy, [])],
                nameIndex := s.nameIndex + [(name, id)],
                nameIndexSorted := false,
                coordIndex := s.coordIndex[xy := id]), true)
  }

  function GetAffiliationName(s: Store, id: AffiliationId): (n: Name)
    ensures id !in s.affiliations ==> n == NoName
  {
    if id in s.affiliations then s.affiliations[id].name else NoName
  }

  function GetAffiliationCoord(s: Store, id: AffiliationId): (c: Coord)
    ensures id !in s.affiliations ==> c == NoCoord
  {
    if id in s.affiliations then s.affiliations[id].coord else NoCoord
  }

  /** get_affiliations_alphabetically: sorts the name index by (name, id) unless
      it is already marked sorted, marks it sorted, and lists its ids. Only the
      index and its flag change. */
  function GetAffiliationsAlphabetically(s: Store): (r: (Store, seq<AffiliationId>))
    ensures r.0 == s.(nameIndex := r.0.nameIndex, nameIndexSorted := true)
    ensures multiset(r.0.nameIndex) == multiset(s.nameIndex)
    ensures SortedBy(NameIdLe, s.nameIndex) ==> SortedBy(NameIdLe, r.0.nameIndex)
    ensures !s.nameIndexSorted ==> SortedBy(NameIdLe, r.0.nameIndex)
    ensures r.1 == Ids(r.0.nameIndex)
  {
    NameIdLeIsTotal();
    var ni := if s.nameIndexSorted then s.nameIndex else Sort(s.nameIndex, NameIdLe);
    (s.(nameIndex := ni, nameIndexSorted := true), Ids(ni))
  }

  /** find_affiliation_with_coord. */
  function FindAffiliationWithCoord(s: Store, xy: Coord): (id: AffiliationId)
    ensures xy !in s.coordIndex ==> id == NoAffiliation
    ensures CoordIndexValid(s) && xy in s.coordIndex ==>
      id in s.affiliations && s.affiliations[id].coord == xy
  {
    if xy in s.coordIndex then s.coordIndex[xy] else NoAffiliation
  }

  /** The coordinate index without the entries for `id`. */
  function CoordIndexWithout(ci: map<Coord, AffiliationId>, id: AffiliationId): (r: map<Coord, AffiliationId>)
    ensures forall c :: c in r <==> c in ci && ci[c] != id
    ensures forall c | c in r :: r[c] == ci[c]
  {
    map c | c in ci && ci[c] != id :: ci[c]
  }

  /** change_affiliation_coord: refused for an unknown id; otherwise the
      affiliation moves, and if the coordinate index held an entry for it, every
      such entry is dropped and the new coordinate is indexed to it instead. */
  function ChangeAffiliationCoord(s: Store, id: AffiliationId, xy: Coord): (u: Update)
    ensures u.ok <==> id in s.affiliations
    ensures !u.ok ==> u.store == s
    ensures u.ok ==> u.store.affiliations == s.affiliations[id := s.affiliations[id].(coord := xy)]
    ensures u.ok ==> u.store == s.(affiliations := u.store.affiliations, coordIndex := u.store.coordIndex)
    ensures u.ok && (exists c :: c in s.coordIndex && s.coordIndex[c] == id) ==>
      FindAffiliationWithCoord(u.store, xy) == id
    ensures u.ok ==> forall c | c != xy && c in s.coordIndex && s.coordIndex[c] != id ::
      FindAffiliationWithCoord(u.store, c) == s.coordIndex[c]
    ensures u.ok ==> forall c | c != xy && c in u.store.coordIndex :: u.store.coordIndex[c] != id
    ensures u.ok && (forall c | c in s.coordIndex :: s.coordIndex[c] != id) ==>
      u.store.coordIndex == s.coordIndex
    ensures u.ok ==> forall c | c in u.store.coordIndex && c != xy ::
      c in s.coordIndex && u.store.coordIndex[c] == s.coordIndex[c]
  {
    if id !in s.affiliations then Update(s, false)
    else
      var indexed := exists c :: c in s.coordIndex && s.coordIndex[c] == id;
      var ci := if indexed then CoordIndexWithout(s.coordIndex, id)[xy := id] else s.coordIndex;
      assert !indexed ==> forall c | c in s.coordIndex :: s.coordIndex[c] != id;
      assert forall c | c != xy && c in ci :: ci[c] != id;
      Update(s.(affiliations := s.affiliations[id := s.affiliations[id].(coord := xy)],
                coordIndex := ci), true)
  }

  /** remove_affiliation: refused for an unknown id; otherwise the affiliation,
      its name-index entry (the first one with its id), its coordinate entry and
      every connection that has it as an endpoint are removed. Publications keep
      listing it among their affiliations. */
  function RemoveAffiliation(s: Store, id: AffiliationId): (u: Update)
    ensures u.ok <==> id in s.affiliations
    ensures !u.ok ==> u.store == s
    ensures u.ok ==> u.store.affiliations == s.affiliations - {id}
    ensures u.ok ==> u.store.publications == s.publications
    ensures u.ok ==> forall c | c in u.store.coordIndex :: u.store.coordIndex[c] != id
    ensures u.ok ==> forall x, c :: c in Bucket(u.store.connections, x) <==>
      c in Bucket(s.connections, x) && !c.Involves(id)
  {
    if id !in s.affiliations then Update(s, false)
    else
      var k := FirstWithId(s.nameIndex, id);
      var ni := if k < |s.nameIndex| then s.nameIndex[..k] + s.nameIndex[k + 1..] else s.nameIndex;
      Update(s.(affiliations := s.affiliations - {id},
                nameIndex := ni,
                coordIndex := CoordIndexWithout(s.coordIndex, id),
                connections := RemoveInvolving(s.connections, id)), true)
  }

  // ---------------------------------------------------------------------------
  // Publications.

  /** all_publications: the ids in the map's ascending key order. */
  function AllPublications(s: Store): (ids: seq<PublicationId>)
    ensures forall p :: p in ids <==> p in s.publications
    ensures forall i, j | 0 <= i < j < |ids| :: ids[i] < ids[j]
  {
    AscendingElements(s.publications.Keys)
  }

  /** get_publications: the affiliation's publications, or [NoPublication]. */
  function GetPublications(s: Store, a: AffiliationId): (ps: seq<PublicationId>)
    ensures a !in s.affiliations ==> ps == [NoPublication]
    ensures a in s.affiliations ==> ps == s.affiliations[a].publications
  {
    if a in s.affiliations then s.affiliations[a].publications else [NoPublication]
  }

  /** calculateWeight: how many publications the two lists share, counted with
      multiplicity. An unknown affiliation contributes its [NoPublication]. */
  function CalculateWeight(s: Store, a: AffiliationId, b: AffiliationId): (w: Weight)
    ensures w == |multiset(GetPublications(s, a)) * multiset(GetPublications(s, b))|
  {
    SharedCount(GetPublications(s, a), GetPublications(s, b))
  }

  /** calculateWeight on a fixed state, as the update loops call it. */
  function PairWeight(s: Store): (AffiliationId, AffiliationId) -> Weight {
    (x, y) => CalculateWeight(s, x, y)
  }

  /** The affiliation map after each author of publication `id` that exists has
      had `id` appended to its list, once per time it is named. */
  function AppendToProduced(affs: map<AffiliationId, Affiliation>, authors: seq<AffiliationId>, id: PublicationId): (r: map<AffiliationId, Affiliation>)
    ensures r.Keys == affs.Keys
    ensures forall a | a in affs ::
      r[a] == affs[a].(publications := affs[a].publications + Repeat(id, multiset(authors)[a]))
    decreases |authors|
  {
    if authors == [] then affs
    else
      var a0 := authors[0];
      var next := if a0 in affs then affs[a0 := affs[a0].(publications := affs[a0].publications + [id])] else affs;
      var r := AppendToProduced(next, authors[1..], id);
      assert authors == [a0] + authors[1..];
      assert forall a | a in affs :: multiset(authors)[a] == (if a == a0 then 1 else 0) + multiset(authors[1..])[a];
      assert forall a | a in affs && a == a0 ::
        affs[a].publications + [id] + Repeat(id, multiset(authors[1..])[a]) == affs[a].publications + Repeat(id, multiset(authors)[a]);
      r
  }

  /** add_publication: refused when the id exists; otherwise each existing
      author lists the publication, the publication is stored with no citation
      links, and every pair of authors (L[i], L[j]), i < j, has its connection's
      weight raised by one, or gets a new connection weighted by calculateWeight
      on the updated lists. */
  function AddPublication(s: Store, id: PublicationId, title: Name, year: Year, authors: seq<AffiliationId>): (u: Update)
    ensures u.ok <==> id !in s.publications
    ensures !u.ok ==> u.store == s
    ensures u.ok ==> u.store.publications.Keys == s.publications.Keys + {id}
    ensures u.ok ==> u.store.publications[id] == Publication(title, year, authors, [], NoPublication)
    ensures u.ok ==> forall p | p in s.publications :: u.store.publications[p] == s.publications[p]
    ensures u.ok ==> u.store.affiliations.Keys == s.affiliations.Keys
    ensures u.ok ==> forall a | a in s.affiliations ::
      && u.store.affiliations[a].name == s.affiliations[a].name
      && u.store.affiliations[a].coord == s.affiliations[a].coord
      && u.store.affiliations[a].publications == s.affiliations[a].publications + Repeat(id, multiset(authors)[a])
    ensures u.ok ==> u.store.nameIndex == s.nameIndex && u.store.coordIndex == s.coordIndex
  {
    if id in s.publications then Update(s, false)
    else
      var s1 := s.(affiliations := AppendToProduced(s.affiliations, authors, id),
                   publications := s.publications[id := Publication(title, year, authors, [], NoPublication)]);
      Update(s1.(connections := IncrementPairs(s.connections, Pairs(authors), PairWeight(s1))), true)
  }

  function GetPublicationName(s: Store, p: PublicationId): (n: Name)
    ensures p !in s.publications ==> n == NoName
  {
    if p in s.publications then s.publications[p].title else NoName
  }

  function GetPublicationYear(s: Store, p: PublicationId): (y: Year)
    ensures p !in s.publications ==> y == NoYear
  {
    if p in s.publications then s.publications[p].year else NoYear
  }

  /** get_affiliations: the publication's authors, or [NoAffiliation]. */
  function GetAffiliations(s: Store, p: PublicationId): (as_: seq<AffiliationId>)
    ensures p !in s.publications ==> as_ == [NoAffiliation]
  {
    if p in s.publications then s.publications[p].affiliations else [NoAffiliation]
  }

  /** add_reference: refused unless both exist; otherwise `parent` lists `child`
      among its references and `child` records `parent`. A previous parent keeps
      `child` in its own list. */
  function AddReference(s: Store, child: PublicationId, parent: PublicationId): (u: Update)
    ensures u.ok <==> child in s.publications && parent in s.publications
    ensures !u.ok ==> u.store == s
    ensures u.ok ==> u.store.publications.Keys == s.publications.Keys
    ensures u.ok ==> u.store.publications[child].referencedBy == parent
    ensures u.ok ==> (u.store.publications[parent].references ==
                      s.publications[parent].references + [child])
    ensures u.ok && child != parent ==>
      && u.store.publications[child] == s.publications[child].(referencedBy := parent)
      && u.store.publications[parent] == s.publications[parent].(references := s.publications[parent].references + [child])
    ensures u.ok && child == parent ==>
      u.store.publications[child] ==
        s.publications[child].(references := s.publications[child].references + [child], referencedBy := child)
    ensures u.ok ==> forall p | p in s.publications && p != child && p != parent ::
      u.store.publications[p] == s.publications[p]
    ensures u.ok ==> u.store == s.(publications := u.store.publications)
  {
    if child in s.publications && parent in s.publications then
      var ps := s.publications[parent := s.publications[parent].(references := s.publications[parent].references + [child])];
      Update(s.(publications := ps[child := ps[child].(referencedBy := parent)]), true)
    else Update(s, false)
  }

  /** get_direct_references: the publication's references, or [NoPublication]. */
  function GetDirectReferences(s: Store, p: PublicationId): (qs: seq<PublicationId>)
    ensures p !in s.publications ==> qs == [NoPublication]
  {
    if p in s.publications then s.publications[p].references else [NoPublication]
  }

  /** get_parent: the recorded parent when it is a stored publication other than
      NoPublication, and NoPublication otherwise. */
  function GetParent(s: Store, p: PublicationId): (parent: PublicationId)
    ensures parent != NoPublication ==>
      p in s.publications && s.publications[p].referencedBy == parent && parent in s.publications
    ensures p in s.publications && s.publications[p].referencedBy in s.publications ==>
      parent == s.publications[p].referencedBy
  {
    if p in s.publications then
      var q := s.publications[p].referencedBy;
      if q != NoPublication && q in s.publications then q else NoPublication
    else NoPublication
  }

  /** add_affiliation_to_publication: refused unless both exist; otherwise each
      lists the other, and for every pair (L[i], L[j]), i < j, of the updated
      author list whose calculateWeight is positive, the pair's connection takes
      that weight (a new connection is created when there was none). */
  function AddAffiliationToPublication(s: Store, a: AffiliationId, p: PublicationId): (u: Update)
    ensures u.ok <==> a in s.affiliations && p in s.publications
    ensures !u.ok ==> u.store == s
    ensures u.ok ==> u.store.affiliations.Keys == s.affiliations.Keys && u.store.publications.Keys == s.publications.Keys
    ensures u.ok ==> u.store.affiliations[a] == s.affiliations[a].(publications := s.affiliations[a].publications + [p])
    ensures u.ok ==> u.store.publications[p] == s.publications[p].(affiliations := s.publications[p].affiliations + [a])
    ensures u.ok ==> forall b | b in s.affiliations && b != a :: u.store.affiliations[b] == s.affiliations[b]
    ensures u.ok ==> forall q | q in s.publications && q != p :: u.store.publications[q] == s.publications[q]
    ensures u.ok ==> u.store.nameIndex == s.nameIndex && u.store.coordIndex == s.coordIndex
  {
    if a in s.affiliations && p in s.publications then
      var s1 := s.(affiliations := s.affiliations[a := s.affiliations[a].(publications := s.affiliations[a].publications + [p])],
                   publications := s.publications[p := s.publications[p].(affiliations := s.publications[p].affiliations + [a])]);
      var authors := s1.publications[p].affiliations;
      Update(s1.(connections := OverwritePairs(s.connections, Pairs(authors), PairWeight(s1))), true)
    else Update(s, false)
  }

  /** The (year, id) entries of the publications in `produced` that exist and
      appeared in `year` or later, in list order. */
  function PublicationsFrom(pubs: map<PublicationId, Publication>, produced: seq<PublicationId>, year: Year): (r: seq<(Year, PublicationId)>)
    ensures forall y, p :: (multiset(r)[(y, p)] ==
      if p in pubs && pubs[p].year >= year && y == pubs[p].year then multiset(produced)[p] else 0)
  {
    if produced == [] then []
    else
      var p0 := produced[0];
      var head := if p0 in pubs && pubs[p0].year >= year then [(pubs[p0].year, p0)] else [];
      var rest := PublicationsFrom(pubs, produced[1..], year);
      assert produced == [p0] + produced[1..];
      assert forall p :: multiset(produced)[p] == (if p == p0 then 1 else 0) + multiset(produced[1..])[p];
      head + rest
  }

  /** get_publications_after: for a known affiliation, its publications from
      `year` on as (year, id), ascending by year then id; otherwise the single
      entry (NoYear, NoPublication). */
  function GetPublicationsAfter(s: Store, a: AffiliationId, year: Year): (r: seq<(Year, PublicationId)>)
    ensures a !in s.affiliations ==> r == [(NoYear, NoPublication)]
    ensures a in s.affiliations ==> SortedBy(YearIdLe, r)
    ensures a in s.affiliations ==> forall y, p :: (multiset(r)[(y, p)] ==
      if p in s.publications && s.publications[p].year >= year && y == s.publications[p].year
      then multiset(s.affiliations[a].publications)[p] else 0)
  {
    if a in s.affiliations then
      YearIdLeIsTotal();
      Sort(PublicationsFrom(s.publications, s.affiliations[a].publications, year), YearIdLe)
    else [(NoYear, NoPublication)]
  }

  /** remove_publication, up to the point where it has detached the publication:
      refused for an unknown id; otherwise the publication is erased, every
      affiliation and every remaining publication drops it from its lists, and
      any publication whose parent it was has no parent any more. */
  function RemovePublication(s: Store, p: PublicationId): (u: Update)
    ensures u.ok <==> p in s.publications
    ensures !u.ok ==> u.store == s
    ensures u.ok ==> u.store.publications.Keys == s.publications.Keys - {p}
    ensures u.ok ==> u.store.affiliations.Keys == s.affiliations.Keys
    ensures u.ok ==> forall a | a in s.affiliations ::
      && p !in u.store.affiliations[a].publications
      && multiset(u.store.affiliations[a].publications) == multiset(s.affiliations[a].publications)[p := 0]
    ensures u.ok ==> forall q | q in u.store.publications ::
      && p !in u.store.publications[q].references
      && multiset(u.store.publications[q].references) == multiset(s.publications[q].references)[p := 0]
      && u.store.publications[q].referencedBy ==
           (if s.publications[q].referencedBy == p then NoPublication else s.publications[q].referencedBy)
    ensures u.ok ==> forall q | q in u.store.publications ::
      && u.store.publications[q].title == s.publications[q].title
      && u.store.publications[q].year == s.publications[q].year
      && u.store.publications[q].affiliations == s.publications[q].affiliations
    ensures u.ok ==> forall a | a in s.affiliations ::
      u.store.affiliations[a].name == s.affiliations[a].name && u.store.affiliations[a].coord == s.affiliations[a].coord
    ensures u.ok ==> u.store.nameIndex == s.nameIndex && u.store.nameIndexSorted == s.nameIndexSorted
    ensures u.ok ==> u.store.coordIndex == s.coordIndex
    ensures u.ok ==> u.store.connections == s.connections
  {
    if p !in s.publications then Update(s, false)
    else
      var affs := map a | a in s.affiliations :: s.affiliations[a].(publications := Strip(s.affiliations[a].publications, p));
      var pubs := map q | q in s.publications && q != p ::
        var pq := s.publications[q];
        pq.(references := Strip(pq.references, p),
            referencedBy := if pq.referencedBy == p then NoPublication else pq.referencedBy);
      Update(s.(affiliations := affs, publications := pubs), true)
  }

  // ---------------------------------------------------------------------------
  // Reading the connection graph.

  /** get_connected_affiliations: the connections in `id`'s bucket, each turned
      to start at `id`; nothing for an unknown affiliation. */
  function GetConnectedAffiliations(s: Store, id: AffiliationId): (r: seq<Connection>)
    ensures id !in s.affiliations ==> r == []
    ensures forall i | 0 <= i < |r| :: r[i].aff1 == id
    ensures forall c | c in r :: c in Bucket(s.connections, id) || c.Swapped() in Bucket(s.connections, id)
    ensures Owned(s.connections) && id in s.affiliations ==>
      |r| == |Bucket(s.connections, id)| &&
      forall i | 0 <= i < |r| :: r[i] == Bucket(s.connections, id)[i] || r[i] == Bucket(s.connections, id)[i].Swapped()
  {
    if id !in s.affiliations then []
    else
      OrientedFromAll(Bucket(s.connections, id), id);
      OrientedFrom(Bucket(s.connections, id), id)
  }

  /** get_all_connections. */
  function GetAllConnections(s: Store): (r: seq<Connection>)
    ensures forall c :: c in r <==> exists x :: c in Bucket(s.connections, x)
    ensures forall i, j | 0 <= i < j < |r| :: r[i] != r[j]
  {
    AllConnections(s.connections)
  }
}

=== FILE: store_proofs.dfy ===
/** Every mutating operation of the store keeps Store.Valid, and the read
    operations answer what the writes put in. */
module StoreProofs {
  import opened Types
  import opened Sorting
  import opened Orders
  import opened Buckets
  import opened BucketProofs
  import opened Store

  // ---------------------------------------------------------------------------
  // The name index as a multiset of entries.

  lemma CountOfRepeated<T>(s: seq<T>, i: nat, j: nat)
    requires i < j < |s|
    ensures s[i] == s[j] ==> multiset(s)[s[i]] >= 2
  {
    assert s == s[..j] + s[j..];
    assert s[i] in s[..j];
    assert s[j] in s[j..];
  }

  /** A sequence with the multiset of a set has no repeated element. */
  lemma NoRepeats<T>(s: seq<T>, S: set<T>)
    requires multiset(s) == multiset(S)
    ensures forall i, j | 0 <= i < j < |s| :: s[i] != s[j]
  {
    forall i, j | 0 <= i < j < |s| ensures s[i] != s[j] {
      CountOfRepeated(s, i, j);
    }
  }

  /** What a valid name index holds: exactly one entry per affiliation, with its
      name. */
  lemma NameIndexEntries(s: Store)
    requires NameIndexValid(s)
    ensures forall i | 0 <= i < |s.nameIndex| ::
      s.nameIndex[i].1 in s.affiliations && s.affiliations[s.nameIndex[i].1].name == s.nameIndex[i].0
    ensures forall a | a in s.affiliations :: (s.affiliations[a].name, a) in s.nameIndex
    ensures forall i, j | 0 <= i < j < |s.nameIndex| :: s.nameIndex[i].1 != s.nameIndex[j].1
  {
    var ni := s.nameIndex;
    forall i | 0 <= i < |ni|
      ensures ni[i].1 in s.affiliations && s.affiliations[ni[i].1].name == ni[i].0
    {
      assert ni[i] in multiset(ni);
    }
    forall a | a in s.affiliations ensures (s.affiliations[a].name, a) in ni {
      assert (s.affiliations[a].name, a) in multiset(NameEntries(s.affiliations));
    }
    NoRepeats(ni, NameEntries(s.affiliations));
  }

  lemma SortedWithout<T>(le: (T, T) -> bool, s: seq<T>, k: nat)
    requires k < |s|
    requires SortedBy(le, s)
    ensures SortedBy(le, s[..k] + s[k + 1..])
  {
    var r := s[..k] + s[k + 1..];
    forall i, j | 0 <= i < j < |r| ensures le(r[i], r[j]) {
      var i' := if i < k then i else i + 1;
      var j' := if j < k then j else j + 1;
      assert r[i] == s[i'] && r[j] == s[j'];
    }
  }

  lemma FirstWithIdIs(ni: seq<(Name, AffiliationId)>, id: AffiliationId, k: nat)
    requires k <= |ni|
    requires k < |ni| ==> ni[k].1 == id
    requires forall i | 0 <= i < k :: ni[i].1 != id
    ensures FirstWithId(ni, id) == k
  {
  }

  /** Appending the entry of a new affiliation keeps the name index exact. */
  lemma AddEntry(affs: map<AffiliationId, Affiliation>, ni: seq<(Name, AffiliationId)>, id: AffiliationId, A: Affiliation)
    requires id !in affs
    requires multiset(ni) == multiset(NameEntries(affs))
    ensures multiset(ni + [(A.name, id)]) == multiset(NameEntries(affs[id := A]))
  {
    var e := (A.name, id);
    assert NameEntries(affs[id := A]) == NameEntries(affs) + {e};
    assert e !in NameEntries(affs);
    assert multiset(NameEntries(affs) + {e}) == multiset(NameEntries(affs)) + multiset{e};
  }

  /** An update that keeps every affiliation's name and the name index keeps
      the name index valid. */
  lemma SameNamesValid(s: Store, t: Store)
    requires NameIndexValid(s)
    requires t.nameIndex == s.nameIndex && t.nameIndexSorted == s.nameIndexSorted
    requires t.affiliations.Keys == s.affiliations.Keys
    requires forall a | a in s.affiliations :: t.affiliations[a].name == s.affiliations[a].name
    ensures NameIndexValid(t)
  {
    assert NameEntries(t.affiliations) == NameEntries(s.affiliations);
  }

  /** An update that keeps every affiliation's coordinate and the coordinate
      index keeps the coordinate index valid. */
  lemma SameCoordsValid(s: Store, t: Store)
    requires CoordIndexValid(s)
    requires t.coordIndex == s.coordIndex
    requires t.affiliations.Keys == s.affiliations.Keys
    requires forall a | a in s.affiliations :: t.affiliations[a].coord == s.affiliations[a].coord
    ensures CoordIndexValid(t)
  {
    forall c | c in t.coordIndex
      ensures t.coordIndex[c] in t.affiliations && t.affiliations[t.coordIndex[c]].coord == c
    {
      var x := s.coordIndex[c];
      assert x in s.affiliations && s.affiliations[x].coord == c;
      assert x in s.affiliations.Keys;
    }
  }

  /** Dropping the first entry for a stored id keeps the name index exact. */
  lemma DropEntry(affs: map<AffiliationId, Affiliation>, ni: seq<(Name, AffiliationId)>, id: AffiliationId)
    requires id in affs
    requires multiset(ni) == multiset(NameEntries(affs))
    ensures FirstWithId(ni, id) < |ni|
    ensures var k := FirstWithId(ni, id);
            multiset(ni[..k] + ni[k + 1..]) == multiset(NameEntries(affs - {id}))
  {
    var e := (affs[id].name, id);
    var k := FindEntry(affs, ni, id);
    MultisetWithout(ni, k);
    NameEntriesWithout(affs, id);
  }

  /** The first entry for a stored id exists and is the id's own entry. */
  lemma FindEntry(affs: map<AffiliationId, Affiliation>, ni: seq<(Name, AffiliationId)>, id: AffiliationId)
    returns (k: nat)
    requires id in affs
    requires multiset(ni) == multiset(NameEntries(affs))
    ensures k == FirstWithId(ni, id) && k < |ni| && ni[k] == (affs[id].name, id)
  {
    var e := (affs[id].name, id);
    assert e in multiset(NameEntries(affs));
    assert e in ni;
    k := FirstWithId(ni, id);
    var j :| 0 <= j < |ni| && ni[j] == e;
    assert j >= k;
    assert ni[k] in multiset(NameEntries(affs));
  }

  lemma MultisetWithout<T>(s: seq<T>, k: nat)
    requires k < |s|
    ensures multiset(s[..k] + s[k + 1..]) == multiset(s) - multiset{s[k]}
  {
    assert s == s[..k] + [s[k]] + s[k + 1..];
  }

  lemma NameEntriesWithout(affs: map<AffiliationId, Affiliation>, id: AffiliationId)
    requires id in affs
    ensures multiset(NameEntries(affs - {id})) == multiset(NameEntries(affs)) - multiset{(affs[id].name, id)}
  {
    var e := (affs[id].name, id);
    assert NameEntries(affs - {id}) == NameEntries(affs) - {e};
    assert multiset(NameEntries(affs) - {e}) == multiset(NameEntries(affs)) - multiset{e};
  }

  // ---------------------------------------------------------------------------
  // Affiliations.

  /** add_affiliation keeps the store valid. */
  lemma AddAffiliationValid(s: Store, id: AffiliationId, name: Name, xy: Coord)
    requires Valid(s)
    ensures Valid(AddAffiliation(s, id, name, xy).store)
  {
    if id !in s.affiliations {
      AddEntry(s.affiliations, s.nameIndex, id, Affiliation(name, xy, []));
    }
  }

  /** After add_affiliation the lookups answer with what was added. */
  lemma AddAffiliationLookups(s: Store, id: AffiliationId, name: Name, xy: Coord)
    requires id !in s.affiliations
    ensures var t := AddAffiliation(s, id, name, xy).store;
            && GetAffiliationName(t, id) == name
            && GetAffiliationCoord(t, id) == xy
            && FindAffiliationWithCoord(t, xy) == id
            && GetAffiliationCount(t) == GetAffiliationCount(s) + 1
            && id in GetAllAffiliations(t)
            && GetPublications(t, id) == []
  {
  }

  /** remove_affiliation keeps the store valid. */
  lemma RemoveAffiliationValid(s: Store, id: AffiliationId)
    requires Valid(s)
    ensures Valid(RemoveAffiliation(s, id).store)
  {
    if id in s.affiliations {
      RemoveAffiliationNameIndex(s, id);
      RemoveAffiliationRecords(s, id);
      RemoveInvolvingConsistent(s.connections, id);
    }
  }

  lemma RemoveAffiliationNameIndex(s: Store, id: AffiliationId)
    requires NameIndexValid(s) && id in s.affiliations
    ensures NameIndexValid(RemoveAffiliation(s, id).store)
  {
    DropEntry(s.affiliations, s.nameIndex, id);
    if s.nameIndexSorted {
      SortedWithout(NameIdLe, s.nameIndex, FirstWithId(s.nameIndex, id));
    }
  }

  /** Dropping an affiliation keeps the coordinate index and the publication
      records valid: author lists still name their former authors, which the
      validity conditions allow. */
  lemma RemoveAffiliationRecords(s: Store, id: AffiliationId)
    requires CoordIndexValid(s) && ProducedValid(s) && CitationsValid(s)
    ensures var t := RemoveAffiliation(s, id).store;
      CoordIndexValid(t) && ProducedValid(t) && CitationsValid(t)
  {
  }

  /** The coordinate index holds at most one entry per affiliation, so dropping
      the first entry for an id (as the source does) drops all of them. */
  lemma CoordIndexInjective(s: Store, c1: Coord, c2: Coord)
    requires CoordIndexValid(s)
    requires c1 in s.coordIndex && c2 in s.coordIndex
    ensures s.coordIndex[c1] == s.coordIndex[c2] ==> c1 == c2
  {
  }

  /** change_affiliation_coord keeps the store valid. */
  lemma ChangeAffiliationCoordValid(s: Store, id: AffiliationId, xy: Coord)
    requires Valid(s)
    ensures Valid(ChangeAffiliationCoord(s, id, xy).store)
  {
    var u := ChangeAffiliationCoord(s, id, xy);
    if u.ok {
      SameNamesValid(s, u.store);
      ChangeAffiliationCoordIndex(s, id, xy);
      ChangeAffiliationCoordRecords(s, id, xy);
    }
  }

  lemma ChangeAffiliationCoordIndex(s: Store, id: AffiliationId, xy: Coord)
    requires CoordIndexValid(s)
    ensures CoordIndexValid(ChangeAffiliationCoord(s, id, xy).store)
  {
  }

  lemma ChangeAffiliationCoordRecords(s: Store, id: AffiliationId, xy: Coord)
    requires ProducedValid(s) && CitationsValid(s)
    ensures var t := ChangeAffiliationCoord(s, id, xy).store;
      ProducedValid(t) && CitationsValid(t)
  {
  }

  lemma DropAppendedEntry(ni: seq<(Name, AffiliationId)>, e: (Name, AffiliationId))
    requires forall i | 0 <= i < |ni| :: ni[i].1 != e.1
    ensures var ni' := ni + [e];
            var k := FirstWithId(ni', e.1);
            k < |ni'| && ni'[..k] + ni'[k + 1..] == ni
  {
    FirstWithIdIs(ni + [e], e.1, |ni|);
    assert (ni + [e])[..|ni|] == ni;
  }

  lemma DropAddedCoord(ci: map<Coord, AffiliationId>, xy: Coord, id: AffiliationId)
    requires forall c | c in ci :: ci[c] != id
    ensures xy !in ci ==> CoordIndexWithout(ci[xy := id], id) == ci
    ensures xy !in CoordIndexWithout(ci[xy := id], id)
  {
  }

  /** Adding an affiliation and removing it again restores the affiliations and
      the name index; a coordinate that was indexed to another affiliation stays
      unindexed, because adding overwrote that entry. */
  lemma AddThenRemoveAffiliation(s: Store, id: AffiliationId, name: Name, xy: Coord)
    requires CoordIndexValid(s) && NameIndexValid(s)
    requires id !in s.affiliations
    ensures var t := RemoveAffiliation(AddAffiliation(s, id, name, xy).store, id).store;
            && t.affiliations == s.affiliations
            && t.nameIndex == s.nameIndex
            && t.publications == s.publications
            && (xy !in s.coordIndex ==> t.coordIndex == s.coordIndex)
            && (xy in s.coordIndex ==> FindAffiliationWithCoord(t, xy) == NoAffiliation)
  {
    NameIndexEntries(s);
    DropAppendedEntry(s.nameIndex, (name, id));
    DropAddedCoord(s.coordIndex, xy, id);
    assert s.affiliations[id := Affiliation(name, xy, [])] - {id} == s.affiliations;
  }

  /** The alphabetical listing of a valid store lists every affiliation exactly
      once, ordered by name and then by id, and leaves the store valid. */
  lemma AlphabeticalListing(s: Store)
    requires NameIndexValid(s)
    ensures var (t, ids) := GetAffiliationsAlphabetically(s);
            && NameIndexValid(t)
            && (forall a :: a in ids <==> a in s.affiliations)
            && (forall i, j | 0 <= i < j < |ids| :: ids[i] != ids[j])
            && (forall i, j | 0 <= i < j < |ids| ::
                  NameIdLe((s.affiliations[ids[i]].name, ids[i]), (s.affiliations[ids[j]].name, ids[j])))
  {
    var t := GetAffiliationsAlphabetically(s).0;
    assert t.affiliations == s.affiliations;
    IndexIds(t);
  }

  /** The ids of a valid sorted name index: every affiliation once, in (name, id)
      order. */
  lemma IndexIds(t: Store)
    requires NameIndexValid(t) && t.nameIndexSorted
    ensures var ids := Ids(t.nameIndex);
            && (forall a :: a in ids <==> a in t.affiliations)
            && (forall i, j | 0 <= i < j < |ids| :: ids[i] != ids[j])
            && (forall i, j | 0 <= i < j < |ids| ::
                  NameIdLe((t.affiliations[ids[i]].name, ids[i]), (t.affiliations[ids[j]].name, ids[j])))
  {
    var ids := Ids(t.nameIndex);
    NameIndexEntries(t);
    forall a | a in t.affiliations ensures a in ids {
      var k :| 0 <= k < |t.nameIndex| && t.nameIndex[k] == (t.affiliations[a].name, a);
      assert ids[k] == a;
    }
    forall i, j | 0 <= i < j < |ids|
      ensures NameIdLe((t.affiliations[ids[i]].name, ids[i]), (t.affiliations[ids[j]].name, ids[j]))
    {
      assert t.nameIndex[i] == (t.affiliations[ids[i]].name, ids[i]);
      assert t.nameIndex[j] == (t.affiliations[ids[j]].name, ids[j]);
    }
  }

  /** The alphabetical listing depends only on the affiliations, not on the
      order in which they were added or on whether the index was sorted. */
  lemma AlphabeticalDeterminedByAffiliations(s1: Store, s2: Store)
    requires NameIndexValid(s1) && NameIndexValid(s2)
    requires s1.affiliations == s2.affiliations
    ensures GetAffiliationsAlphabetically(s1).1 == GetAffiliationsAlphabetically(s2).1
  {
    var t1 := GetAffiliationsAlphabetically(s1).0;
    var t2 := GetAffiliationsAlphabetically(s2).0;
    NameIdLeIsTotal();
    SortedUnique(t1.nameIndex, t2.nameIndex, NameIdLe);
  }

  // ---------------------------------------------------------------------------
  // Publications.

  lemma {:induction false} StripAppend(a: seq<int>, b: seq<int>, x: int)
    ensures Strip(a + b, x) == Strip(a, x) + Strip(b, x)
    decreases |a|
  {
    if a == [] {
      assert a + b == b;
    } else {
      var ab := a + b;
      assert ab != [] && ab[0] == a[0] && ab[1..] == a[1..] + b;
      StripAppend(a[1..], b, x);
    }
  }

  lemma {:induction false} StripRepeat(x: int, n: nat)
    ensures Strip(Repeat(x, n), x) == []
  {
    if n > 0 {
      assert Repeat(x, n)[1..] == Repeat(x, n - 1);
      StripRepeat(x, n - 1);
    }
  }

  /** add_publication keeps the store valid. */
  lemma AddPublicationValid(s: Store, id: PublicationId, title: Name, year: Year, authors: seq<AffiliationId>)
    requires Valid(s)
    ensures Valid(AddPublication(s, id, title, year, authors).store)
  {
    var u := AddPublication(s, id, title, year, authors);
    if u.ok {
      var t := u.store;
      SameNamesValid(s, t);
      SameCoordsValid(s, t);
      AddPublicationProduced(s, id, title, year, authors);
      AddPublicationCitations(s, id, title, year, authors);
      var s1 := s.(affiliations := t.affiliations, publications := t.publications);
      assert t.connections == IncrementPairs(s.connections, Pairs(authors), PairWeight(s1));
      IncrementPairsConsistent(s.connections, Pairs(authors), PairWeight(s1));
    }
  }

  /** Every author of the new publication lists it and is listed by it. */
  lemma AddPublicationProduced(s: Store, id: PublicationId, title: Name, year: Year, authors: seq<AffiliationId>)
    requires ProducedValid(s) && id !in s.publications
    ensures ProducedValid(AddPublication(s, id, title, year, authors).store)
  {
    var t := AddPublication(s, id, title, year, authors).store;
    forall a, p | a in t.affiliations && p in t.affiliations[a].publications
      ensures p in t.publications && a in t.publications[p].affiliations
    {
      if p !in s.affiliations[a].publications {
        assert p in Repeat(id, multiset(authors)[a]);
        assert a in multiset(authors);
      }
    }
  }

  /** The new publication has no references and no parent. */
  lemma AddPublicationCitations(s: Store, id: PublicationId, title: Name, year: Year, authors: seq<AffiliationId>)
    requires CitationsValid(s) && id !in s.publications
    ensures CitationsValid(AddPublication(s, id, title, year, authors).store)
  {
  }

  /** After add_publication every two distinct authors are connected, and the
      connection is stored in both of their buckets. */
  lemma AddPublicationConnectsAuthors(s: Store, id: PublicationId, title: Name, year: Year, authors: seq<AffiliationId>)
    requires Valid(s)
    requires id !in s.publications
    ensures var t := AddPublication(s, id, title, year, authors).store;
            forall i, j | 0 <= i < j < |authors| ::
              HasJoin(t.connections, authors[i], authors[i], authors[j]) &&
              HasJoin(t.connections, authors[j], authors[i], authors[j])
  {
    var t := AddPublication(s, id, title, year, authors).store;
    var s1 := s.(affiliations := t.affiliations, publications := t.publications);
    var weight := PairWeight(s1);
    assert t.connections == IncrementPairs(s.connections, Pairs(authors), weight);
    IncrementPairsJoins(s.connections, Pairs(authors), weight);
  }

  /** How add_publication reweights the pair of two distinct authors named m
      and n times. The nested loops visit the pair m * n times. A connection
      the pair already had gains m * n in both buckets. Otherwise the first
      visit creates one weighted by calculateWeight on the updated lists, and
      each later visit adds one. */
  lemma AddPublicationWeights(s: Store, id: PublicationId, title: Name, year: Year, authors: seq<AffiliationId>,
                              x: AffiliationId, y: AffiliationId)
    requires Consistent(s.connections)
    requires id !in s.publications
    requires x != y && x in authors && y in authors
    ensures multiset(authors)[x] * multiset(authors)[y] >= 1
    ensures var t := AddPublication(s, id, title, year, authors).store;
            var n := multiset(authors)[x] * multiset(authors)[y];
            && (forall w | Records(s.connections, x, x, y, w) ::
                  Records(t.connections, x, x, y, w + n) && Records(t.connections, y, x, y, w + n))
            && (!HasJoin(s.connections, x, x, y) ==>
                  Records(t.connections, x, x, y, CalculateWeight(t, x, y) + n - 1) &&
                  Records(t.connections, y, x, y, CalculateWeight(t, x, y) + n - 1))
  {
    var t := AddPublication(s, id, title, year, authors).store;
    var s1 := s.(affiliations := t.affiliations, publications := t.publications);
    var weight := PairWeight(s1);
    assert t.connections == IncrementPairs(s.connections, Pairs(authors), weight);
    WeightSymmetric(s1);
    WeightReadsAffiliations(s1, t);
    assert weight(x, y) == weight(y, x) == CalculateWeight(t, x, y);
    IncrementAllPairsWeights(s.connections, authors, weight, x, y);
  }

  /** add_publication changes only the buckets of the publication's authors. */
  lemma AddPublicationGraphFrame(s: Store, id: PublicationId, title: Name, year: Year, authors: seq<AffiliationId>)
    ensures var t := AddPublication(s, id, title, year, authors).store;
            forall z | z !in authors :: Bucket(t.connections, z) == Bucket(s.connections, z)
  {
    var u := AddPublication(s, id, title, year, authors);
    if u.ok {
      var t := u.store;
      var s1 := s.(affiliations := t.affiliations, publications := t.publications);
      var weight := PairWeight(s1);
      assert t.connections == IncrementPairs(s.connections, Pairs(authors), weight);
      forall z | z !in authors ensures Bucket(t.connections, z) == Bucket(s.connections, z) {
        IncrementPairsUntouched(s.connections, Pairs(authors), weight, z);
      }
    }
  }

  /** After add_publication, the publication's lookups answer what was stored,
      and every existing author lists it. */
  lemma AddPublicationLookups(s: Store, id: PublicationId, title: Name, year: Year, authors: seq<AffiliationId>)
    requires id !in s.publications
    ensures var t := AddPublication(s, id, title, year, authors).store;
            && GetPublicationName(t, id) == title
            && GetPublicationYear(t, id) == year
            && GetAffiliations(t, id) == authors
            && GetDirectReferences(t, id) == []
            && GetParent(t, id) == NoPublication
            && id in AllPublications(t)
            && forall a | a in authors && a in s.affiliations :: id in GetPublications(t, a)
  {
    var t := AddPublication(s, id, title, year, authors).store;
    forall a | a in authors && a in s.affiliations ensures id in GetPublications(t, a) {
      var r := Repeat(id, multiset(authors)[a]);
      assert r[0] == id;
      assert GetPublications(t, a) == s.affiliations[a].publications + r;
    }
  }

  lemma StripAppended(ps: seq<int>, x: int, n: nat)
    requires x !in ps
    ensures Strip(ps + Repeat(x, n), x) == ps
  {
    StripAppend(ps, Repeat(x, n), x);
    StripRepeat(x, n);
  }

  lemma DetachAbsent(pq: Publication, id: PublicationId)
    requires id !in pq.references
    requires pq.referencedBy == id ==> id == NoPublication
    ensures pq.(references := Strip(pq.references, id),
                referencedBy := if pq.referencedBy == id then NoPublication else pq.referencedBy) == pq
  {
  }

  /** remove_publication strips the id from each affiliation's list and
      changes nothing else in the record. */
  lemma RemovePublicationStrips(a: Store, id: PublicationId, x: AffiliationId)
    requires id in a.publications && x in a.affiliations
    ensures x in RemovePublication(a, id).store.affiliations
    ensures RemovePublication(a, id).store.affiliations[x] ==
      a.affiliations[x].(publications := Strip(a.affiliations[x].publications, id))
  {
  }

  /** One affiliation's record: stripping the id removes exactly the copies
      add_publication appended. */
  lemma RemoveAddedFromAffiliation(s: Store, a: Store, id: PublicationId, n: nat, x: AffiliationId)
    requires id in a.publications && x in a.affiliations && x in s.affiliations
    requires id !in s.affiliations[x].publications
    requires a.affiliations[x] == s.affiliations[x].(publications := s.affiliations[x].publications + Repeat(id, n))
    ensures RemovePublication(a, id).store.affiliations[x] == s.affiliations[x]
  {
    RemovePublicationStrips(a, id, x);
    StripAppended(s.affiliations[x].publications, id, n);
  }

  /** A publication that is not stored is in no affiliation's list. */
  lemma UnstoredNotProduced(s: Store, id: PublicationId)
    requires ProducedValid(s) && id !in s.publications
    ensures forall x | x in s.affiliations :: id !in s.affiliations[x].publications
  {
  }

  lemma RemoveAddedFromAffiliations(s: Store, a: Store, id: PublicationId, authors: seq<AffiliationId>)
    requires forall x | x in s.affiliations :: id !in s.affiliations[x].publications
    requires id in a.publications
    requires a.affiliations.Keys == s.affiliations.Keys
    requires forall x | x in s.affiliations ::
      a.affiliations[x] == s.affiliations[x].(publications := s.affiliations[x].publications + Repeat(id, multiset(authors)[x]))
    ensures RemovePublication(a, id).store.affiliations == s.affiliations
  {
    var t := RemovePublication(a, id).store;
    forall x | x in s.affiliations ensures t.affiliations[x] == s.affiliations[x] {
      RemoveAddedFromAffiliation(s, a, id, multiset(authors)[x], x);
    }
  }

  lemma RemoveAddedFromPublications(s: Store, a: Store, id: PublicationId)
    requires CitationsValid(s) && id !in s.publications
    requires a.publications.Keys == s.publications.Keys + {id}
    requires forall q | q in s.publications :: a.publications[q] == s.publications[q]
    ensures RemovePublication(a, id).store.publications == s.publications
  {
    var t := RemovePublication(a, id).store;
    forall q | q in s.publications ensures t.publications[q] == s.publications[q] {
      DetachAbsent(s.publications[q], id);
    }
  }

  /** Adding a publication and removing it again restores the affiliations and
      publications (the connections keep the weight they gained). */
  lemma AddThenRemovePublication(s: Store, id: PublicationId, title: Name, year: Year, authors: seq<AffiliationId>)
    requires ProducedValid(s) && CitationsValid(s)
    requires id !in s.publications
    ensures var t := RemovePublication(AddPublication(s, id, title, year, authors).store, id).store;
            t.affiliations == s.affiliations && t.publications == s.publications
  {
    var a := AddPublication(s, id, title, year, authors).store;
    UnstoredNotProduced(s, id);
    RemoveAddedFromAffiliations(s, a, id, authors);
    RemoveAddedFromPublications(s, a, id);
  }

  /** add_reference keeps the store valid, and the child's parent is now the
      new parent (unless that is the NoPublication id itself). */
  lemma AddReferenceValid(s: Store, child: PublicationId, parent: PublicationId)
    requires Valid(s)
    ensures var u := AddReference(s, child, parent);
            && Valid(u.store)
            && (u.ok && parent != NoPublication ==> GetParent(u.store, child) == parent)
            && (u.ok ==> child in GetDirectReferences(u.store, parent))
  {
  }

  /** Re-parenting a publication does not remove it from its former parent's
      references: both parents list it while only the new one is its parent. */
  lemma ReparentLeavesOldLink(s: Store, child: PublicationId, p1: PublicationId, p2: PublicationId)
    requires child in s.publications && p1 in s.publications && p2 in s.publications
    requires p1 != p2 && p1 != NoPublication && p2 != NoPublication
    ensures var t := AddReference(AddReference(s, child, p1).store, child, p2).store;
            && child in GetDirectReferences(t, p1)
            && child in GetDirectReferences(t, p2)
            && GetParent(t, child) == p2
  {
  }

  /** add_affiliation_to_publication keeps the store valid. */
  lemma AddAffiliationToPublicationValid(s: Store, a: AffiliationId, p: PublicationId)
    requires Valid(s)
    ensures Valid(AddAffiliationToPublication(s, a, p).store)
  {
    var u := AddAffiliationToPublication(s, a, p);
    if u.ok {
      var t := u.store;
      SameNamesValid(s, t);
      SameCoordsValid(s, t);
      AddAffiliationToPublicationRecords(s, a, p);
      var s1 := s.(affiliations := t.affiliations, publications := t.publications);
      assert t.connections == OverwritePairs(s.connections, Pairs(t.publications[p].affiliations), PairWeight(s1));
      OverwritePairsConsistent(s.connections, Pairs(t.publications[p].affiliations), PairWeight(s1));
    }
  }

  /** The new authorship is recorded on both sides; references are untouched. */
  lemma AddAffiliationToPublicationRecords(s: Store, a: AffiliationId, p: PublicationId)
    requires ProducedValid(s) && CitationsValid(s)
    requires a in s.affiliations && p in s.publications
    ensures var t := AddAffiliationToPublication(s, a, p).store;
      ProducedValid(t) && CitationsValid(t)
  {
    var t := AddAffiliationToPublication(s, a, p).store;
    forall b, q | b in t.affiliations && q in t.affiliations[b].publications
      ensures q in t.publications && b in t.publications[q].affiliations
    {
      if b != a || q in s.affiliations[a].publications {
        assert q in s.affiliations[b].publications;
      }
    }
  }

  lemma WeightSymmetric(s: Store)
    ensures forall x, y :: CalculateWeight(s, x, y) == CalculateWeight(s, y, x)
  {
    forall x, y ensures CalculateWeight(s, x, y) == CalculateWeight(s, y, x) {
      Weights.SharedCountSymmetric(GetPublications(s, x), GetPublications(s, y));
    }
  }

  /** calculateWeight reads only the affiliations. */
  lemma WeightReadsAffiliations(s: Store, t: Store)
    requires s.affiliations == t.affiliations
    ensures forall x, y :: CalculateWeight(s, x, y) == CalculateWeight(t, x, y)
  {
  }

  /** After add_affiliation_to_publication, every pair of the publication's
      authors that shares a publication is connected in both buckets with
      exactly the number of publications they share. */
  lemma AddAffiliationToPublicationWeights(s: Store, a: AffiliationId, p: PublicationId)
    requires Consistent(s.connections)
    requires a in s.affiliations && p in s.publications
    ensures var t := AddAffiliationToPublication(s, a, p).store;
            var L := t.publications[p].affiliations;
            forall i, j | 0 <= i < j < |L| && CalculateWeight(t, L[i], L[j]) > 0 ::
              Records(t.connections, L[i], L[i], L[j], CalculateWeight(t, L[i], L[j])) &&
              Records(t.connections, L[j], L[i], L[j], CalculateWeight(t, L[i], L[j]))
  {
    var u := AddAffiliationToPublication(s, a, p);
    var t := u.store;
    var L := t.publications[p].affiliations;
    var s1 := s.(affiliations := t.affiliations, publications := t.publications);
    assert t.connections == OverwritePairs(s.connections, Pairs(L), PairWeight(s1));
    WeightSymmetric(s1);
    WeightReadsAffiliations(s1, t);
    OverwriteAllPairsRecords(s.connections, L, PairWeight(s1));
  }

  /** add_affiliation_to_publication changes only the buckets of the
      publication's authors. */
  lemma AddAffiliationToPublicationGraphFrame(s: Store, a: AffiliationId, p: PublicationId)
    ensures var u := AddAffiliationToPublication(s, a, p);
            forall z | z !in GetAffiliations(u.store, p) :: Bucket(u.store.connections, z) == Bucket(s.connections, z)
  {
    var u := AddAffiliationToPublication(s, a, p);
    if u.ok {
      var t := u.store;
      var L := t.publications[p].affiliations;
      var s1 := s.(affiliations := t.affiliations, publications := t.publications);
      assert t.connections == OverwritePairs(s.connections, Pairs(L), PairWeight(s1));
      forall z | z !in L ensures Bucket(t.connections, z) == Bucket(s.connections, z) {
        OverwritePairsUntouched(s.connections, Pairs(L), PairWeight(s1), z);
      }
    }
  }

  /** remove_publication keeps the store valid. */
  lemma RemovePublicationValid(s: Store, p: PublicationId)
    requires Valid(s)
    ensures Valid(RemovePublication(s, p).store)
  {
    var u := RemovePublication(s, p);
    if u.ok {
      RemovePublicationNames(s, p);
      RemovePublicationProduced(s, p);
      RemovePublicationCitations(s, p);
    }
  }

  /** Removing a publication touches neither names nor coordinates. */
  lemma RemovePublicationNames(s: Store, p: PublicationId)
    requires NameIndexValid(s) && CoordIndexValid(s) && p in s.publications
    ensures var t := RemovePublication(s, p).store;
      NameIndexValid(t) && CoordIndexValid(t)
  {
    var t := RemovePublication(s, p).store;
    SameNamesValid(s, t);
    SameCoordsValid(s, t);
  }

  /** What an affiliation still lists was listed before and is not the removed
      publication, whose author lists are kept. */
  lemma RemovePublicationProduced(s: Store, p: PublicationId)
    requires ProducedValid(s) && p in s.publications
    ensures ProducedValid(RemovePublication(s, p).store)
  {
    ProducedWithout(s, RemovePublication(s, p).store, p);
  }

  lemma ProducedWithout(s: Store, t: Store, p: PublicationId)
    requires ProducedValid(s)
    requires t.publications.Keys == s.publications.Keys - {p}
    requires t.affiliations.Keys == s.affiliations.Keys
    requires forall a | a in s.affiliations ::
      multiset(t.affiliations[a].publications) == multiset(s.affiliations[a].publications)[p := 0]
    requires forall q | q in t.publications :: t.publications[q].affiliations == s.publications[q].affiliations
    ensures ProducedValid(t)
  {
    forall a, q | a in t.affiliations && q in t.affiliations[a].publications
      ensures q in t.publications && a in t.publications[q].affiliations
    {
      assert a in s.affiliations.Keys;
      assert q in multiset(t.affiliations[a].publications);
      assert q != p && q in s.affiliations[a].publications;
      assert q in s.publications.Keys - {p};
    }
  }

  /** References to the removed publication are stripped and a parent link to
      it is cleared, so every remaining link points at a remaining publication. */
  lemma RemovePublicationCitations(s: Store, p: PublicationId)
    requires CitationsValid(s) && p in s.publications
    ensures CitationsValid(RemovePublication(s, p).store)
  {
    var t := RemovePublication(s, p).store;
    forall q | q in t.publications
      ensures && (forall r | r in t.publications[q].references :: r in t.publications)
              && var parent := t.publications[q].referencedBy;
                 parent == NoPublication || (parent in t.publications && q in t.publications[parent].references)
    {
      forall r | r in t.publications[q].references ensures r in t.publications {
        assert r in multiset(t.publications[q].references);
      }
      var parent := s.publications[q].referencedBy;
      if parent != p && parent != NoPublication {
        assert q in s.publications[parent].references;
        assert q in multiset(s.publications[parent].references);
        assert q in multiset(t.publications[parent].references);
      }
    }
  }

  /** Weights are symmetric, and two unknown affiliations share the sentinel
      [NoPublication] that get_publications returns for each: weight one. */
  lemma CalculateWeightFacts(s: Store, a: AffiliationId, b: AffiliationId)
    ensures CalculateWeight(s, a, b) == CalculateWeight(s, b, a)
    ensures a !in s.affiliations && b !in s.affiliations ==> CalculateWeight(s, a, b) == 1
  {
    Weights.SharedCountSymmetric(GetPublications(s, a), GetPublications(s, b));
    if a !in s.affiliations && b !in s.affiliations {
      assert multiset(GetPublications(s, a)) * multiset(GetPublications(s, b)) == multiset{NoPublication};
    }
  }
}

=== FILE: types.dfy ===
/** Value types of the affiliation/publication store: identifiers, the two entity
    records, the derived co-authorship connection, and the "not found" sentinels. */
module Types {

  type AffiliationId = int
  type PublicationId = int
  type Name = string
  type Year = int
  type Weight = nat

  datatype Coord = Coord(x: int, y: int)

  /** Sentinels returned by lookups when the identifier is unknown. */
  const NoAffiliation: AffiliationId := -1
  const NoPublication: PublicationId := -1
  const NoName: Name := "!NO_NAME!"
  const NoYear: Year := -1
  const NoCoord: Coord := Coord(-2147483648, -2147483648)

  /** An affiliation keeps the publications it produced in insertion order
      (duplicates are possible when the same link is added twice). */
  datatype Affiliation = Affiliation(name: Name, coord: Coord, publications: seq<PublicationId>)

  /** A publication: its authors, the publications it references (its children in
      the citation forest) and the one publication that references it (its parent),
      or NoPublication. */
  datatype Publication = Publication(
    title: Name,
    year: Year,
    affiliations: seq<AffiliationId>,
    references: seq<PublicationId>,
    referencedBy: PublicationId)

  /** A co-authorship edge between two affiliations with its weight. */
  datatype Connection = Connection(aff1: AffiliationId, aff2: AffiliationId, weight: Weight) {

    /** The same edge with its endpoints exchanged. */
    function Swapped(): Connection {
      Connection(aff2, aff1, weight)
    }

    /** The edge links `a` and `b`, in either orientation. */
    predicate Joins(a: AffiliationId, b: AffiliationId) {
      (aff1 == a && aff2 == b) || (aff1 == b && aff2 == a)
    }

    predicate Involves(a: AffiliationId) {
      aff1 == a || aff2 == a
    }

    predicate IsLoop() {
      aff1 == aff2
    }

    /** The endpoint reached from `from`: the second endpoint when `from` is the
        first one, otherwise the first one. */
    function Other(from: AffiliationId): AffiliationId {
      if aff1 == from then aff2 else aff1
    }

    /** Canonical form stores the smaller identifier first. */
    predicate IsCanonical() {
      aff1 <= aff2
    }
  }

  /** The canonical connection between `a` and `b`. */
  function CanonicalConnection(a: AffiliationId, b: AffiliationId, w: Weight): (c: Connection)
    ensures c.IsCanonical() && c.Joins(a, b) && c.weight == w
  {
    if a < b then Connection(a, b, w) else Connection(b, a, w)
  }
}

=== FILE: weights.dfy ===
/** Connection weights: the number of publications two affiliations share,
    computed as the code does (sort both publication lists, then count the
    elements a sorted-range intersection emits). Because the lists can hold
    duplicates, the count is the size of a multiset intersection. */
module Weights {
  import opened Types
  import opened Sorting
  import opened Orders

  /** How many elements the merge of two ascending sequences emits when it keeps
      an element only when both heads are equal, advancing past the smaller head
      otherwise. */
  function IntersectCount(a: seq<int>, b: seq<int>): nat
    decreases |a| + |b|
  {
    if a == [] || b == [] then 0
    else if a[0] < b[0] then IntersectCount(a[1..], b)
    else if b[0] < a[0] then IntersectCount(a, b[1..])
    else 1 + IntersectCount(a[1..], b[1..])
  }

  /** A head smaller than everything in the other sorted sequence is shared with
      nothing. */
  lemma DropSmallerHead(a: seq<int>, b: seq<int>)
    requires a != [] && b != [] && SortedBy(IntLe, b) && a[0] < b[0]
    ensures multiset(a) * multiset(b) == multiset(a[1..]) * multiset(b)
  {
    assert a == [a[0]] + a[1..];
    assert a[0] !in multiset(b);
    assert forall y :: (multiset(a) * multiset(b))[y] == (multiset(a[1..]) * multiset(b))[y];
  }

  /** Equal heads are shared once more than the tails share. */
  lemma KeepEqualHeads(a: seq<int>, b: seq<int>)
    requires a != [] && b != [] && a[0] == b[0]
    ensures |multiset(a) * multiset(b)| == |multiset(a[1..]) * multiset(b[1..])| + 1
  {
    assert a == [a[0]] + a[1..];
    assert b == [b[0]] + b[1..];
    var m, n := multiset(a[1..]), multiset(b[1..]);
    assert multiset(a) * multiset(b) == (m * n) + multiset{a[0]} by {
      assert forall y :: (multiset(a) * multiset(b))[y] == ((m * n) + multiset{a[0]})[y];
    }
  }

  lemma {:induction false} IntersectCountIsMultisetIntersection(a: seq<int>, b: seq<int>)
    requires SortedBy(IntLe, a) && SortedBy(IntLe, b)
    ensures IntersectCount(a, b) == |multiset(a) * multiset(b)|
    decreases |a| + |b|
  {
    if a == [] || b == [] {
    } else if a[0] < b[0] {
      DropSmallerHead(a, b);
      IntersectCountIsMultisetIntersection(a[1..], b);
    } else if b[0] < a[0] {
      DropSmallerHead(b, a);
      assert multiset(a) * multiset(b) == multiset(b) * multiset(a);
      assert multiset(a) * multiset(b[1..]) == multiset(b[1..]) * multiset(a);
      IntersectCountIsMultisetIntersection(a, b[1..]);
    } else {
      KeepEqualHeads(a, b);
      IntersectCountIsMultisetIntersection(a[1..], b[1..]);
    }
  }

  /** The weight calculateWeight assigns to two produced-publication lists. */
  function SharedCount(p1: seq<PublicationId>, p2: seq<PublicationId>): (w: Weight)
    ensures w == |multiset(p1) * multiset(p2)|
  {
    IntLeIsTotal();
    var s1 := Sort(p1, IntLe);
    var s2 := Sort(p2, IntLe);
    IntersectCountIsMultisetIntersection(s1, s2);
    IntersectCount(s1, s2)
  }

  lemma SharedCountSymmetric(p1: seq<PublicationId>, p2: seq<PublicationId>)
    ensures SharedCount(p1, p2) == SharedCount(p2, p1)
  {
    assert multiset(p1) * multiset(p2) == multiset(p2) * multiset(p1);
  }
}
